=== FILE: README.md ===
# Account manager console: a model of its client-side logic

The console is a React admin front end for a small company's employees, leaves,
salaries, projects, bank accounts and transaction logs. The backend's data goes
into pages, and those pages compute a fair amount of logic in the browser. This
project models that logic in Dafny:

- compensatory-leave classification and the mark-leave form;
- the salary-processing page's state machine and its record summaries;
- the working-day list: toggle, sort, encode, decode, label;
- the employee creation payload;
- the financial totals and pagination of the project detail page;
- the seven-filter transaction-log search and its CSV export;
- the login page's one-time-code step machine;
- the search, count and sum cards of the list pages for employees, expenses,
  projects, work packages, payments and accounts.

Records mirror `src/types/index.ts` (`records.dfy`). Money is `real`. A missing
amount read through `Number(x || 0)` is `Option<real>` read as zero. A number
input is `Blank | Num(v)`. Instants are integers, and `new Date()` is a `now`
or `today` parameter. Case-insensitive search is ASCII lowercasing followed by
a substring test. Every asynchronous handler is a pure transition that takes
the backend's outcome (success flag or response) as a parameter and returns the
new page state together with the request it sends. Where the page stays usable
while a call is pending (calculate and process on the salary page, sending the
login code, marking a leave, deleting an employee or an account), the handler is also split in
two: the request it sends, and the state change made when the answer arrives,
applied to the page as it is at that moment. The one-step handler is then the
two halves run with nothing happening in between.

Modules follow the pages:

- `Common`: options, results, filter, sum.
- `Text`: lowercasing, substring, join, split, replace, digits.
- `Records`: the record datatypes.
- `CompLeaves`, `LeaveForm`: `LeaveManagementPage`, `EmployeeDetailPage`.
- `WorkingDays`, `CreateEmployee`: `CreateEmployeePage`, `getWorkingDaysLabel`.
- `SalaryProcessing`: `SalaryProcessingPage`.
- `Employees`: `EmployeesPage`, `EmployeeDetailPage`.
- `ProjectDetail`: `ProjectDetailPage`.
- `TransactionLogs`: `TransactionLogsPage`.
- `Login`: `LoginPage`.
- `Expenses`, `WorkPackages`, `Payments`, `Accounts`, `Projects`: the list pages.

## Model

| member | source | states |
|---|---|---|
| CompLeaves.Status | src/pages/employees/LeaveManagementPage.tsx:422-423 | A compensatory leave is Available iff unused and expiring strictly after `now`, Used iff `isUsed` whatever its expiry, Expired iff unused and expiring at or before `now` |
| CompLeaves.CanDelete | src/pages/employees/LeaveManagementPage.tsx:457 | The delete control shows exactly for Available leaves, never for a used or lapsed one |
| CompLeaves.AvailableLeaves | src/pages/employees/EmployeeDetailPage.tsx:77-79 | The available list holds exactly the leaves whose status is Available, in their loaded order |
| CompLeaves.UsedLeaves | src/pages/employees/EmployeeDetailPage.tsx:80 | The used list holds exactly the leaves whose status is Used at any instant, in their loaded order |
| CompLeaves.ExpiredLeaves | src/pages/employees/EmployeeDetailPage.tsx:81-83 | The expired list holds exactly the leaves whose status is Expired, in their loaded order |
| CompLeaves.GroupsMatchStatus | src/pages/employees/EmployeeDetailPage.tsx:77-83 | Each of the three lists holds exactly the leaves whose status is its own |
| CompLeaves.GroupsPartition | src/pages/employees/EmployeeDetailPage.tsx:77-83 | The three lists' lengths add up to the number of leaves, and every leave is in exactly one of them |
| CompLeaves.OfferedAreDeletable | src/pages/employees/LeaveManagementPage.tsx:156-158 | Every leave offered in the select is one the delete control is shown for |
| LeaveForm.SetCompensatoryChecked | src/pages/employees/LeaveManagementPage.tsx:249-252 | Unticking the checkbox clears the selected leave id; ticking keeps it; date, type and reason are untouched |
| LeaveForm.SelectCompLeave | src/pages/employees/LeaveManagementPage.tsx:261 | Picking a leave in the select sets the selected id and touches no other field |
| LeaveForm.FindIndex | src/pages/employees/LeaveManagementPage.tsx:70 | `find` returns the first leave with the id, or none when no leave has it |
| LeaveForm.FindReason | src/pages/employees/LeaveManagementPage.tsx:70 | A reason is found iff some leave has the id, and it is the reason of the first such leave |
| LeaveForm.MarkLeaveRequest | src/pages/employees/LeaveManagementPage.tsx:64-71 | The request is compensatory iff the box is ticked and a leave is selected; the reason is then the selected leave's, otherwise absent |
| LeaveForm.ReceiveMarked | src/pages/employees/LeaveManagementPage.tsx:73-77 | On success the form as it is when the answer arrives loses date, reason, checkbox and selection and keeps its own leave type; failure changes nothing |
| LeaveForm.MarkLeave | src/pages/employees/LeaveManagementPage.tsx:57-89 | With nothing happening while the call is pending: no request without an employee id; on success date, reason, checkbox and selection reset and the leave type is kept; on failure the form is unchanged |
| LeaveForm.MarkedAnswerActsOnCurrentForm | src/pages/employees/LeaveManagementPage.tsx:73-77 | The inputs stay enabled while the call is pending (only submit is disabled, line 278), so a leave type chosen meanwhile survives the success answer while a date typed meanwhile is cleared |
| LeaveForm.PickingOfferedLeaveCopiesReason | src/pages/employees/LeaveManagementPage.tsx:243-270 | Ticking the box and picking an offered leave produces a compensatory request carrying that leave's reason |
| LeaveForm.UntickedIsNotCompensatory | src/pages/employees/LeaveManagementPage.tsx:69-70 | With the box unticked the request is never compensatory and has no compensatory reason |
| WorkingDays.ComesBefore | src/pages/employees/CreateEmployeePage.tsx:36 | The default string sort of single-digit days agrees with numeric order |
| WorkingDays.SortDays | src/pages/employees/CreateEmployeePage.tsx:36 | Sorting keeps the same days with the same multiplicities and yields a sorted list |
| WorkingDays.SortedUnique | src/pages/employees/CreateEmployeePage.tsx:36 | Two sorted lists with the same days are equal, so the sort result is determined by its contents |
| WorkingDays.Toggle | src/pages/employees/CreateEmployeePage.tsx:31-38 | Toggling removes every copy of a listed day, or adds one copy of a missing day; every other day keeps its multiplicity |
| WorkingDays.ToggleMembership | src/pages/employees/CreateEmployeePage.tsx:33-36 | Toggling a day flips that day's membership and leaves every other day's alone |
| WorkingDays.ToggleKeepsStrictlySorted | src/pages/employees/CreateEmployeePage.tsx:31-38 | Toggling keeps the list sorted and free of duplicates |
| WorkingDays.ToggleTwice | src/pages/employees/CreateEmployeePage.tsx:31-38 | Toggling the same day twice restores a sorted duplicate-free list |
| WorkingDays.EncodeWorkingDays | src/pages/employees/CreateEmployeePage.tsx:59 | The encoded string of a non-empty list splits at its commas into one decimal text per day, in order; an empty list encodes as the empty string |
| WorkingDays.DecodeWorkingDays | src/pages/employees/EmployeesPage.tsx:59 | Decoding yields one number per comma-separated piece, at least one, and a string without commas decodes to its own number alone |
| WorkingDays.WorkingDaysLabel | src/pages/employees/EmployeesPage.tsx:57-61 | A string without commas is labelled by the one day name its number picks, or the empty string outside 0 to 6 |
| WorkingDays.DecodeEncode | src/pages/employees/EmployeeDetailPage.tsx:58-62 | Splitting the comma-joined list and reading each piece as a number gives back the days, in order |
| WorkingDays.LabelOfEncoded | src/pages/employees/EmployeesPage.tsx:57-61 | The label of an encoded list is its days' short names joined by ", ", in list order |
| WorkingDays.EmptyLabelIsSunday | src/pages/employees/EmployeeDetailPage.tsx:58-62 | An empty working-days string reads as Sunday, because `Number('')` is 0 |
| CreateEmployee.InitialForm | src/pages/employees/CreateEmployeePage.tsx:9-19 | The form opens with Monday to Saturday selected, two paid leaves, blank salaries and today's joining date |
| CreateEmployee.ToggleDay | src/pages/employees/CreateEmployeePage.tsx:31-38 | A checkbox click flips its own day, keeps every other day as it was and changes no other field |
| CreateEmployee.ToggleDayEffect | src/pages/employees/CreateEmployeePage.tsx:31-38 | The checkbox handler keeps the day list strictly sorted, flips one day and changes no other field |
| CreateEmployee.ToggleDayTwice | src/pages/employees/CreateEmployeePage.tsx:31-38 | Clicking a day's checkbox twice gives back the same form |
| CreateEmployee.Optional | src/pages/employees/CreateEmployeePage.tsx:53-54 | An optional text field is sent as absent exactly when empty, and as itself otherwise |
| CreateEmployee.Submit | src/pages/employees/CreateEmployeePage.tsx:41-60 | Once the form reaches the submit handler, it refuses with the working-day message exactly when no day is selected; otherwise the payload carries the fields, blank numbers as 0, phone and designation as absent when empty and as typed otherwise, and the comma-joined days |
| CreateEmployee.SubmittedDaysReadBack | src/pages/employees/CreateEmployeePage.tsx:59 | The days sent decode back to the selected days, and label as their names |
| CreateEmployee.DefaultSubmission | src/pages/employees/CreateEmployeePage.tsx:17-18 | Submitting the untouched form sends "1,2,3,4,5,6" and 2 paid leaves |
| SalaryProcessing.InitialPage | src/pages/employees/SalaryProcessingPage.tsx:10-15 | The page opens on the current month and year with no employee, no preview, deductions 0 and no notes |
| SalaryProcessing.ActiveEmployees | src/pages/employees/SalaryProcessingPage.tsx:28 | Exactly the active employees are offered, in order |
| SalaryProcessing.SelectEmployee | src/pages/employees/SalaryProcessingPage.tsx:156-159 | Choosing an employee drops the preview and keeps the period, deductions and notes |
| SalaryProcessing.SelectMonth | src/pages/employees/SalaryProcessingPage.tsx:178-181 | Choosing a month drops the preview and keeps everything else |
| SalaryProcessing.SelectYear | src/pages/employees/SalaryProcessingPage.tsx:198-201 | Choosing a year drops the preview and keeps everything else |
| SalaryProcessing.EditDeductions | src/pages/employees/SalaryProcessingPage.tsx:273 | Typing deductions changes only the deductions; preview, selection and notes stay |
| SalaryProcessing.EditNotes | src/pages/employees/SalaryProcessingPage.tsx:285 | Typing notes changes only the notes; preview, selection and deductions stay |
| SalaryProcessing.CalculateEnabled | src/pages/employees/SalaryProcessingPage.tsx:215 | Calculate is enabled iff nothing is loading and an employee is selected |
| SalaryProcessing.CalculateRequestOf | src/pages/employees/SalaryProcessingPage.tsx:43-55 | A calculation is requested iff an employee is selected, and the request names the selected employee, month and year |
| SalaryProcessing.ReceiveCalculationAsWritten | src/pages/employees/SalaryProcessingPage.tsx:56-64 | When the answer arrives it becomes the preview of whatever page is then current, selection untouched; a preview resets deductions and notes, a failure keeps them |
| SalaryProcessing.ReceiveCalculation | src/pages/employees/SalaryProcessingPage.tsx:51-64 | Corrected receipt: an answer is installed only while its request's employee, month and year are still selected, and then a coherent page stays coherent |
| SalaryProcessing.Calculate | src/pages/employees/SalaryProcessingPage.tsx:43-66 | With nothing happening while the call is pending: without an employee nothing is sent and nothing changes; otherwise the period is sent, the answer becomes the preview, and a successful answer resets deductions and notes |
| SalaryProcessing.ProcessRequestOf | src/pages/employees/SalaryProcessingPage.tsx:68-87 | A request goes out iff an employee and a preview exist, carrying the employee, the period, the deductions (blank as 0) and the notes (empty as absent) |
| SalaryProcessing.ReceiveProcessed | src/pages/employees/SalaryProcessingPage.tsx:89-93 | On success the page as it is when the answer arrives loses employee, preview, deductions and notes and keeps its own month and year; failure changes nothing |
| SalaryProcessing.Process | src/pages/employees/SalaryProcessingPage.tsx:68-101 | With nothing happening while the call is pending: the request as above; success clears employee, preview, deductions and notes and keeps the period; failure changes nothing |
| SalaryProcessing.ProcessAnswerActsOnCurrentPage | src/pages/employees/SalaryProcessingPage.tsx:89-93 | A success answer clears an employee and preview chosen while it was pending, and leaves the month chosen meanwhile on screen rather than the month processed |
| SalaryProcessing.NetSalary | src/pages/employees/SalaryProcessingPage.tsx:123 | Net plus deductions is the previewed total; without a preview the net is 0 |
| SalaryProcessing.HandlersKeepCoherent | src/pages/employees/SalaryProcessingPage.tsx:43-101 | With answers received as corrected, every handler keeps the shown preview about the selected employee and period |
| SalaryProcessing.StalePreviewAsWritten | src/pages/employees/SalaryProcessingPage.tsx:51-56 | As written, an answer arriving after another employee was selected leaves a preview about the wrong employee, and Process then sends the new employee beside the old one's total |
| SalaryProcessing.StalePreviewDropped | src/pages/employees/SalaryProcessingPage.tsx:51-56 | Corrected: the same late answer is dropped and the page stays coherent |
| SalaryProcessing.ProcessMatchesPreview | src/pages/employees/SalaryProcessingPage.tsx:68-87 | On a coherent page (which the corrected receipt preserves), what is processed is the previewed employee and period, and the net shown is the previewed total less the deductions sent |
| SalaryProcessing.NoProcessBeforeCalculate | src/pages/employees/SalaryProcessingPage.tsx:69-77 | Right after choosing an employee, Process sends nothing |
| SalaryProcessing.FilteredRecords | src/pages/employees/SalaryProcessingPage.tsx:119-121 | The period table holds exactly the records of the selected month and year, in their loaded order |
| SalaryProcessing.YearRecords | src/pages/employees/SalaryProcessingPage.tsx:404 | The "Total Records" card counts exactly the records of the year, in loaded order |
| SalaryProcessing.ProcessedYearRecords | src/pages/employees/SalaryProcessingPage.tsx:410 | The "Processed" card counts exactly the processed records of the year, in loaded order |
| SalaryProcessing.YearPayout | src/pages/employees/SalaryProcessingPage.tsx:416-419 | With no processed record in the year the "Total Payout" card is 0 |
| SalaryProcessing.YearPayoutAppend | src/pages/employees/SalaryProcessingPage.tsx:416-419 | The card is 0 with no records, and one more record adds its net salary (missing as 0) exactly when it is of the year and processed |
| SalaryProcessing.YearPayoutSplit | src/pages/employees/SalaryProcessingPage.tsx:416-419 | The payout plus the net salaries of the year's unprocessed records is the net salary of all the year's records |
| SalaryProcessing.ProcessedOfYear | src/pages/employees/SalaryProcessingPage.tsx:404-410 | The processed records of the year are the year's records filtered by the processed flag |
| SalaryProcessing.ProcessedCountBounded | src/pages/employees/SalaryProcessingPage.tsx:404-410 | The year's processed count never exceeds its record count |
| SalaryProcessing.YearPayoutBounds | src/pages/employees/SalaryProcessingPage.tsx:416-419 | With non-negative nets the year's payout lies between 0 and the sum over all the year's records |
| SalaryProcessing.LongMonthName | src/pages/employees/SalaryProcessingPage.tsx:103-109 | A month name exists exactly for 1 to 12 |
| SalaryProcessing.MonthOptionsNamed | src/pages/employees/SalaryProcessingPage.tsx:184 | Every month offered in the select has a name |
| SalaryProcessing.YearOptions | src/pages/employees/SalaryProcessingPage.tsx:204 | Five consecutive years from two before the current one, which is among them |
| Employees.Search | src/pages/employees/EmployeesPage.tsx:44-49 | Listed employees are exactly those whose name, e-mail or present designation holds the term, ignoring case, in order |
| Employees.EmptySearchShowsAll | src/pages/employees/EmployeesPage.tsx:44-49 | An empty term lists every employee |
| Employees.ActiveCount | src/pages/employees/EmployeesPage.tsx:51 | The active count never exceeds the number of employees and equals it when everyone is active |
| Employees.InactiveCount | src/pages/employees/EmployeesPage.tsx:52 | The inactive count is the number of employees the active count leaves out |
| Employees.HeadCountsAddUp | src/pages/employees/EmployeesPage.tsx:51-52 | Active plus inactive counts make the total |
| Employees.HeadCountsAppend | src/pages/employees/EmployeesPage.tsx:51-52 | Both cards are 0 on an empty list, and one more employee adds one to the card of their status and nothing to the other |
| Employees.SalaryExpense | src/pages/employees/EmployeesPage.tsx:53-55 | The salary card plus the inactive employees' salaries (missing as 0) is the whole payroll; with non-negative salaries the card lies between 0 and the payroll |
| Employees.SalaryExpenseAppend | src/pages/employees/EmployeesPage.tsx:53-55 | The card is 0 on an empty list, and one more employee adds their salary exactly when they are active |
| Employees.SalaryExpenseBounds | src/pages/employees/EmployeesPage.tsx:53-55 | The salary card lies between 0 and the whole payroll, and equals it when everyone is active |
| Employees.OpenDelete | src/pages/employees/EmployeesPage.tsx:230-233 | The trash button opens the dialog on that employee without touching the list |
| Employees.CancelDelete | src/pages/employees/EmployeesPage.tsx:258-261 | Cancel closes the dialog and clears the selection, list unchanged |
| Employees.RemoveEmployee | src/pages/employees/EmployeesPage.tsx:35 | The filter keeps exactly the employees with other ids, in order |
| Employees.DeleteRequestOf | src/pages/employees/EmployeesPage.tsx:30-34 | An id is sent iff an employee is selected, and it is that employee's id |
| Employees.SettleDeleteAsWritten | src/pages/employees/EmployeesPage.tsx:35-37 | As written, a successful answer sets the list to the clicked render's list without the id and closes the dialog, whatever the page has become; failure leaves the current page |
| Employees.SettleDelete | src/pages/employees/EmployeesPage.tsx:35-37 | Corrected: a successful answer keeps exactly the current list's employees with another id, in order, and closes the dialog; failure changes nothing |
| Employees.ConfirmDelete | src/pages/employees/EmployeesPage.tsx:30-42 | With nothing happening while the call is pending: with nothing selected nothing happens; otherwise the id is sent, success removes it and closes the dialog, failure changes nothing |
| Employees.OverlappingDeletesAsWritten | src/pages/employees/EmployeesPage.tsx:30-37 | Two deletes confirmed on renders listing [a, b] (Cancel stays enabled while the first is pending), both successful: the second answer brings back the employee the first removed |
| Employees.OverlappingDeletesRemoveBoth | src/pages/employees/EmployeesPage.tsx:35 | Corrected: overlapping deletes remove both ids and nothing else, in either order of answers |
| Employees.DialogStaysConsistent | src/pages/employees/EmployeesPage.tsx:30-42 | The dialog is open exactly when an employee is selected, after every action |
| Employees.DeleteRemovesExactlyTarget | src/pages/employees/EmployeesPage.tsx:35 | After a successful delete an employee remains iff it was listed with another id, order kept |
| Employees.ShortMonthName | src/pages/employees/EmployeeDetailPage.tsx:72-75 | A three-letter name exists exactly for months 1 to 12 |
| Employees.ShortNameAbbreviatesLong | src/pages/employees/EmployeeDetailPage.tsx:72-75 | The detail page's month name is the first three letters of the full month name |
| Employees.ProcessedCount | src/pages/employees/EmployeeDetailPage.tsx:253-273 | The processed count never exceeds the record count |
| Employees.ProcessedCountAppend | src/pages/employees/EmployeeDetailPage.tsx:273 | The count is 0 with no records, and one more record adds one exactly when it is processed |
| Employees.LeaveTypeLabel | src/pages/employees/EmployeeDetailPage.tsx:309 | The badge reads "Full Day" iff the leave is full-day and "Half Day" iff half-day |
| Employees.RecordStatusLabel | src/pages/employees/EmployeeDetailPage.tsx:454 | The badge reads "Processed" iff the record is processed, "Pending" otherwise |
| ProjectDetail.ProjectTotals | src/pages/projects/ProjectDetailPage.tsx:106-111 | Pending, payments and expenses add up to the work-package total; net profit plus expenses is the payments; a project with nothing recorded has every total 0 |
| ProjectDetail.WorkPackageShiftsTotals | src/pages/projects/ProjectDetailPage.tsx:107-111 | A new work package raises the work-package total and pending by its amount; payments, expenses and net profit stay |
| ProjectDetail.PaymentShiftsTotals | src/pages/projects/ProjectDetailPage.tsx:107-111 | A new payment raises payments and net profit by its amount and lowers pending by it |
| ProjectDetail.ExpenseShiftsTotals | src/pages/projects/ProjectDetailPage.tsx:107-111 | A new expense lowers net profit and pending by its amount |
| ProjectDetail.ClampIndex | src/pages/projects/ProjectDetailPage.tsx:114-117 | A slice bound lands in 0 to the length and is unchanged when already inside |
| ProjectDetail.Paginate | src/pages/projects/ProjectDetailPage.tsx:114-117 | A page holds at most ten items |
| ProjectDetail.PageIsBlock | src/pages/projects/ProjectDetailPage.tsx:114-117 | Page p is the block from (p-1)*10 to p*10, clamped to the list |
| ProjectDetail.TotalPages | src/pages/projects/ProjectDetailPage.tsx:119 | The page count is the least number of ten-item pages holding every item |
| ProjectDetail.PagesFromIsSuffix | src/pages/projects/ProjectDetailPage.tsx:114-119 | Pages from p to the last, concatenated, are the items from page p's first position on |
| ProjectDetail.PagesCoverAll | src/pages/projects/ProjectDetailPage.tsx:114-119 | Pages 1 to the last, concatenated, give back the list |
| ProjectDetail.PaginationControls | src/pages/projects/ProjectDetailPage.tsx:121-155 | No controls for ten items or fewer; otherwise Previous is disabled iff on page 1 and Next iff on the last page |
| ProjectDetail.ShowingMatchesTable | src/pages/projects/ProjectDetailPage.tsx:132 | On a page within the range of pages, "Showing a to b" names the 1-based positions of exactly the items the table shows |
| ProjectDetail.NavigationStaysInRange | src/pages/projects/ProjectDetailPage.tsx:137-147 | From a page within the range of pages, Previous and Next never leave it and move by one when enabled |
| ProjectDetail.OutOfRangePageAsWritten | src/pages/projects/ProjectDetailPage.tsx:20-22 | As written, a page beyond the last one shows nothing; with controls it reads "Showing a to b" with a > b and Next leads further out; without controls it cannot be left |
| ProjectDetail.OutOfRangeExamples | src/pages/projects/ProjectDetailPage.tsx:121-147 | On page 3 of 20 items the line reads "Showing 21 to 20" with both buttons enabled and Next going to page 4; page 2 of 10 items is empty and has no controls |
| ProjectDetail.ReloadPage | src/pages/projects/ProjectDetailPage.tsx:20-22 | Corrected: after a reload the page is at least 1, at most the last page of a non-empty list, and unchanged when still in range |
| ProjectDetail.ReloadShowsItems | src/pages/projects/ProjectDetailPage.tsx:114-147 | After a corrected reload of a non-empty list the table is never empty, the "Showing" line names its items and the buttons stay in range |
| TransactionLogs.ApplyFilters | src/pages/transaction-logs/TransactionLogsPage.tsx:53-96 | The seven stages in the page's order keep, in loaded order, the logs that get through every set filter |
| TransactionLogs.ApplyFiltersIsFilter | src/pages/transaction-logs/TransactionLogsPage.tsx:53-96 | Applying the seven filters one after another is one filter by the conjunction of the set filters |
| TransactionLogs.ListedIffMatches | src/pages/transaction-logs/TransactionLogsPage.tsx:56-93 | A log is listed iff it satisfies every filter that is set: equal type, account and project, action substring, creation instant not before the start instant and not after the end instant, search hit |
| TransactionLogs.ListedAreSubsequence | src/pages/transaction-logs/TransactionLogsPage.tsx:54-95 | The listed logs keep their order and never outnumber the loaded ones |
| TransactionLogs.ResetFilters | src/pages/transaction-logs/TransactionLogsPage.tsx:98-108 | After a reset every log is listed, in order |
| TransactionLogs.NarrowingShrinks | src/pages/transaction-logs/TransactionLogsPage.tsx:56-93 | Setting more filters lists a subsequence of what was listed |
| TransactionLogs.InvertedRangeListsNothing | src/pages/transaction-logs/TransactionLogsPage.tsx:74-84 | A start date after the end date lists nothing |
| TransactionLogs.OrDash | src/pages/transaction-logs/TransactionLogsPage.tsx:119-120 | A missing or empty field exports as "-", any other value as itself |
| TransactionLogs.LogCells | src/pages/transaction-logs/TransactionLogsPage.tsx:112-121 | Each row has one cell per header |
| TransactionLogs.Quote | src/pages/transaction-logs/TransactionLogsPage.tsx:125 | A quoted cell is a quote mark, the cell unchanged, and a quote mark, with nothing escaped |
| TransactionLogs.RowReadsBack | src/pages/transaction-logs/TransactionLogsPage.tsx:125 | A row whose cells hold no quote mark reads back, quote by quote, as exactly its cells, commas inside cells included |
| TransactionLogs.RowSplitsIntoCells | src/pages/transaction-logs/TransactionLogsPage.tsx:125 | When no cell holds a comma, splitting a row at commas gives back its quoted cells |
| TransactionLogs.ExportCsv | src/pages/transaction-logs/TransactionLogsPage.tsx:110-126 | The file is the header line alone when nothing is listed, and otherwise starts with the header line and a line break |
| TransactionLogs.CsvReadsBack | src/pages/transaction-logs/TransactionLogsPage.tsx:110-126 | When no cell holds a line break the file splits into the header and one line per log; when no cell holds a quote mark, each line reads back as that log's cells, the comma-holding date included; when no cell holds a comma, each line splits at commas into the quoted cells |
| Login.SanitizeOtp | src/pages/auth/LoginPage.tsx:108 | The code keeps only digits, at most six, and is the leading part of the input's digits in order |
| Login.SanitizeKeepsCleanCode | src/pages/auth/LoginPage.tsx:108 | A clean code passes unchanged, so sanitising is idempotent |
| Login.EditEmail | src/pages/auth/LoginPage.tsx:77 | Typing the e-mail changes only the e-mail; the step and the code stay |
| Login.EditOtp | src/pages/auth/LoginPage.tsx:108 | Typing in the code field always leaves a clean code and keeps the step and e-mail |
| Login.ReceiveOtpSent | src/pages/auth/LoginPage.tsx:20-25 | The answer enters the code step only on success and changes nothing on failure; the e-mail and code on the page stay |
| Login.SendOtp | src/pages/auth/LoginPage.tsx:16-28 | With nothing happening while the call is pending: the e-mail is sent; the code step is entered only on success, and failure changes nothing |
| Login.EmailEditedWhileSending | src/pages/auth/LoginPage.tsx:16-45 | The e-mail input stays enabled while the code is sent, so an address edited meanwhile is the one verified, not the one the code went to |
| Login.Back | src/pages/auth/LoginPage.tsx:123 | Back returns to the e-mail step and keeps what was typed |
| Login.VerifyEnabled | src/pages/auth/LoginPage.tsx:130 | Verify is enabled iff not loading and the code has six characters |
| Login.Verify | src/pages/auth/LoginPage.tsx:30-45 | The e-mail and code are sent; the session is stored and the dashboard reached exactly on success |
| Login.HandlersKeepCodeClean | src/pages/auth/LoginPage.tsx:9-28 | Starting from an empty code, every handler keeps the code at most six digits |
| Login.EnabledVerifySendsSixDigits | src/pages/auth/LoginPage.tsx:130 | A code sent with Verify enabled is exactly six digits |
| Expenses.Search | src/pages/expenses/ExpensesPage.tsx:56-60 | Listed expenses are exactly those whose title or description holds the term, ignoring case, in order |
| Expenses.EmptySearchShowsAll | src/pages/expenses/ExpensesPage.tsx:56-60 | An empty term lists every expense |
| Expenses.ExpenseCards | src/pages/expenses/ExpensesPage.tsx:56-123 | The cards cover the listed expenses: their count, their total, and the page's month-index sum; with non-negative amounts 0 ≤ this month ≤ total ≤ total of all loaded expenses |
| Expenses.SearchedTotalBounded | src/pages/expenses/ExpensesPage.tsx:62 | With non-negative amounts the total card over the listed expenses lies between 0 and the total of all expenses |
| Expenses.SearchSplitsTotal | src/pages/expenses/ExpensesPage.tsx:56-62 | The total card plus the amounts of the expenses the search hides is the total of all loaded expenses |
| Expenses.ThisMonthBounds | src/pages/expenses/ExpensesPage.tsx:119-123 | With non-negative amounts: 0 ≤ calendar-month sum ≤ the page's month-index sum ≤ the total |
| Expenses.ThisMonthCountsCurrentMonth | src/pages/expenses/ExpensesPage.tsx:119-123 | The corrected card counts an expense iff it is listed and falls in today's month of today's year |
| Expenses.ThisMonthCountsOtherYears | src/pages/expenses/ExpensesPage.tsx:119-123 | The page's card counts last year's same-month expense, which the corrected card does not |
| WorkPackages.TotalIgnoresUnpriced | src/pages/work-packages/WorkPackagesPage.tsx:67 | Packages without an amount add nothing to the total value |
| WorkPackages.TotalAddsPackage | src/pages/work-packages/WorkPackagesPage.tsx:67 | One more package raises the total value by its amount, or 0 when it has none |
| WorkPackages.StatCards | src/pages/work-packages/WorkPackagesPage.tsx:94-110 | The package count is the list length, and the completed and in-progress counts together never exceed it |
| WorkPackages.StatusCardsCountMatches | src/pages/work-packages/WorkPackagesPage.tsx:103-109 | A package is counted as completed iff its status is COMPLETED, and as in progress iff it is IN_PROGRESS |
| WorkPackages.StatusColor | src/pages/work-packages/WorkPackagesPage.tsx:52-65 | The grey default is given exactly to statuses other than COMPLETED, IN_PROGRESS and PENDING |
| WorkPackages.StatusColorsDistinct | src/pages/work-packages/WorkPackagesPage.tsx:52-65 | COMPLETED, IN_PROGRESS and PENDING get three different colours; ON_HOLD looks like any unknown status |
| WorkPackages.StatusLabel | src/pages/work-packages/WorkPackagesPage.tsx:133 | Only the first underscore becomes a space: same length, every other character kept, one underscore traded for one space |
| WorkPackages.LabelAtThird | src/pages/work-packages/WorkPackagesPage.tsx:133 | IN_PROGRESS and ON_HOLD read with a space at the underscore, later underscores kept |
| Payments.Average | src/pages/payments/PaymentsPage.tsx:88 | The average is 0 for no payments; otherwise it times the count is the total |
| Payments.PaymentCards | src/pages/payments/PaymentsPage.tsx:52-90 | The count card is the number of payments, and average times count is the total card |
| Payments.AverageWithinRange | src/pages/payments/PaymentsPage.tsx:88 | The average lies between the smallest and largest payment |
| Payments.TotalAddsPayment | src/pages/payments/PaymentsPage.tsx:52 | One more payment raises the total by its amount, or 0 when it has none |
| Accounts.BalanceCardOf | src/pages/accounts/AccountsPage.tsx:50-80 | "Across N account(s)" shows the number of accounts beside the balance total |
| Accounts.RemoveAccount | src/pages/accounts/AccountsPage.tsx:35 | The filter keeps exactly the accounts with other ids, in order |
| Accounts.Delete | src/pages/accounts/AccountsPage.tsx:28-40 | Declining sends nothing and changes nothing; confirming sends the id, and only success removes it from the list |
| Accounts.DeleteRemovesExactlyId | src/pages/accounts/AccountsPage.tsx:35 | After a successful delete an account remains iff it was listed with another id, order kept |
| Accounts.DeleteIdempotent | src/pages/accounts/AccountsPage.tsx:35 | Removing an id twice is removing it once |
| Accounts.DeleteLowersTotal | src/pages/accounts/AccountsPage.tsx:35-50 | The total balance drops by exactly the balance of the removed accounts |
| Accounts.DeleteLowersCountByOne | src/pages/accounts/AccountsPage.tsx:35-80 | With unique ids, deleting a listed account lowers the account count by one |
| Accounts.SettleDeleteAsWritten | src/pages/accounts/AccountsPage.tsx:33-35 | As written, the list after a delete's answer is filtered from the list the clicked render saw, whatever the list has become |
| Accounts.OverlappingDeletesAsWritten | src/pages/accounts/AccountsPage.tsx:28-35 | Two deletes confirmed on one render and both answered successfully: the second answer brings back the account the first removed |
| Accounts.OverlappingDeletesRemoveBoth | src/pages/accounts/AccountsPage.tsx:35 | Corrected, filtering the current list: overlapping deletes remove both ids and nothing else, in either order of answers |
| Accounts.MaskedNumber | src/pages/accounts/AccountsPage.tsx:125-128 | Shown only for a non-empty number, as four stars then the last four characters (the whole number when shorter) |
| Accounts.MaskHidesLeadingDigits | src/pages/accounts/AccountsPage.tsx:125-128 | Numbers ending in the same four characters mask identically |
| Projects.Search | src/pages/projects/ProjectsPage.tsx:48-51 | Listed projects are exactly those whose title or present client details hold the query, in order |
| Projects.ListedIffMatches | src/pages/projects/ProjectsPage.tsx:48-51 | A project is listed iff its lowercased title or present lowercased client details contain the lowercased query |
| Projects.EmptySearchShowsAll | src/pages/projects/ProjectsPage.tsx:48-51 | An empty query lists every project, in order |
| Projects.StatusColor | src/pages/projects/ProjectsPage.tsx:61-72 | The grey default is given exactly to statuses other than ACTIVE, COMPLETED and ON_HOLD |
| Projects.StatusColorsDistinct | src/pages/projects/ProjectsPage.tsx:61-72 | ACTIVE, COMPLETED and ON_HOLD get three different colours; CANCELLED looks like any unknown status |
| Projects.EmptyStateOf | src/pages/projects/ProjectsPage.tsx:114-125 | The empty state shows exactly when nothing is listed; the create link shows iff the query is empty, with the matching message |
| Projects.EmptyStateDependsOnQuery | src/pages/projects/ProjectsPage.tsx:116-124 | Whenever shown, the empty state depends only on whether the query is empty |
| Projects.NoQueryEmptyStateMeansNoProjects | src/pages/projects/ProjectsPage.tsx:114-124 | With no query, the invitation to create a first project shows exactly when there are no projects |

## Left out

- Every backend call goes through `src/services/api.ts`, which is not part of this model. This covers fetches, `Promise.all` loads, deletes and the reloads that follow them. A handler receives the backend's outcome as a parameter.
- The work-package, payment and project pages delete by calling the backend and reloading the list. No client-side state changes in between, so nothing is modelled beyond the backend call.
- The salary and leave engine lives in the backend. Day counts, leave counts and `totalSalary` are opaque fields of the preview.
- The year summary of the salary page covers whatever records were loaded. The page loads them for the year on the screen when it opens and does not reload them when the year changes. That timing is not modelled.
- Dates: there is no real `Date` parsing or time-zone handling. Instants are integers, and expense dates are already split into year and month index.
- Numbers: there are no JavaScript floating-point rounding effects, because money is exact. `Number` on text is modelled only on the strings the working-days label meets: empty, all digits, anything else as NaN.
- Case-insensitive search lowercases ASCII letters only; Unicode case folding is not modelled.
- `window.confirm`, `alert` and toasts become booleans or are dropped. Loading spinners and button loading flags are dropped, except where they disable a button.
- Locale formatting (`formatCurrency`, `toLocaleString`, date-fns) is left out. The CSV export takes the date and amount texts as functions.
- The CSV download itself (Blob, object URL, anchor click) is left out.
- TransactionLogs.Quote: cells are wrapped in quotes without escaping, as the page writes them. A cell holding a quote mark therefore cannot be read back, and quoting as in RFC 4180 is not modelled.
- TransactionLogs.CsvReadsBack: the locale text of the date cell usually holds a comma, so only the quote-aware reading (`ReadCells`) applies to real rows; splitting a line at every comma gives the quoted cells only for comma-free cells. Both readings assume no cell holds a line break.
- TransactionLogs.ListedIffMatches: the date filters compare instants, and the model takes the instants the date inputs parse to as given. The page parses a date-only input (`new Date("2024-10-11")`) as midnight UTC at the start of that day, so a log created later on the end date is not listed although the end date looks inclusive. That parsing is not modelled.
- CreateEmployee.Submit: the browser's `required` check on name, e-mail, joining date, daily salary and paid leaves runs before the submit handler and is not modelled. The contract describes what the handler does with whatever reaches it, blank fields included.
- SalaryProcessing.HandlersKeepCoherent: holds with answers received as corrected (`ReceiveCalculation`). As written (`ReceiveCalculationAsWritten`), a late answer can leave an incoherent page; see Findings.
- Employees.ConfirmDelete: the one-step handler holds when nothing happens while the call is pending. As written, a late answer filters the clicked render's list (`SettleDeleteAsWritten`); see Findings.
- SalaryProcessing.Process: the one-step handler holds when nothing happens while the call is pending. A late answer resets the page as it is then (`ReceiveProcessed`), and the records reload after success is not modelled.
- LeaveForm.MarkLeave: the one-step handler holds when nothing happens while the call is pending. A late answer resets the form as it is then (`ReceiveMarked`), and the reload of leaves after success is not modelled.
- Login.SendOtp: the one-step handler holds when nothing happens while the call is pending. A late answer acts on the page as it is then (`ReceiveOtpSent`).
- Accounts.Delete: takes the list current when the answer arrives. As written, the page filters the list of the render that was clicked (`SettleDeleteAsWritten`); see Findings.
- ProjectDetail.ShowingMatchesTable and ProjectDetail.NavigationStaysInRange: stated for pages within range, which the corrected `ReloadPage` keeps. As written, a reload can leave the page out of range (`OutOfRangePageAsWritten`); see Findings.
- Routing, layout chrome, the users, dashboard and analytics pages, and the create/edit form pages for projects, accounts, payments, expenses and work packages are left out. Those pages only render backend data or copy form fields into a request.
- WorkingDays.DecodeWorkingDays: pieces with spaces or signs count as NaN. JavaScript's `Number` would trim spaces, but the page only ever writes digits and commas.

## Findings

| source | as written | input that shows it | evidently intended | confidence | as-written member | corrected member |
|---|---|---|---|---|---|---|
| src/pages/expenses/ExpensesPage.tsx:119-123 | The "This Month" card sums the listed expenses whose `getMonth()` equals today's, whatever their year | An expense of 100 dated 15 October 2023, viewed on 1 October 2024: the card shows 100 | Count only expenses of today's month in today's year | not executed | Expenses.ThisMonthCountsOtherYears | Expenses.ThisMonthCountsCurrentMonth |
| src/pages/employees/SalaryProcessingPage.tsx:51-56 | The calculation's answer is installed on whatever page is current when it arrives, and the employee, month and year selects stay enabled while it is pending | Select A, click Calculate, select B before the answer arrives: A's preview shows under B, and Process sends B | Drop an answer whose employee, month or year is no longer selected | not executed | SalaryProcessing.StalePreviewAsWritten | SalaryProcessing.StalePreviewDropped |
| src/pages/projects/ProjectDetailPage.tsx:20-22 | The three page numbers are never reset or clamped when the lists reload after a delete | 21 work packages, page 3, delete the 21st: "Showing 21 to 20 of 20", Next enabled; 11 items, page 2, delete one: an empty page with no controls | Bring the page back to the last page when the list shrinks below it | not executed | ProjectDetail.OutOfRangePageAsWritten | ProjectDetail.ReloadShowsItems |
| src/pages/employees/EmployeesPage.tsx:35 | A successful delete sets the list to the clicked render's list without the id; Cancel stays enabled while the call is pending, so a second delete can start from the same list | Employees a and b; confirm deleting a, press Cancel, confirm deleting b before a's answer: after both answers the list is [a] | Filter the current list (a functional state update) | not executed | Employees.OverlappingDeletesAsWritten | Employees.OverlappingDeletesRemoveBoth |
| src/pages/accounts/AccountsPage.tsx:35 | A successful delete sets the list to the clicked render's list without the id, discarding changes made while the call was pending | Accounts a and b; delete a, then delete b before a's answer: after both answers the list is [a] | Filter the current list (a functional state update) | not executed | Accounts.OverlappingDeletesAsWritten | Accounts.OverlappingDeletesRemoveBoth |

=== FILE: accounts.dfy ===
/** The bank-account list page: the total-balance card, the delete handler and
    the masked account number on each card. */
module Accounts {
  import opened Common
  import opened Text
  import opened Records

  const Balance: Account -> real := (a: Account) => OrZero(a.currentBalance)

  /** `totalBalance`: `Number(currentBalance || 0)` summed. */
  function TotalBalance(accs: seq<Account>): real
  {
    SumOf(accs, Balance)
  }

  /** The total-balance card: the sum, and the N of "Across N account(s)". */
  datatype BalanceCard = BalanceCard(total: real, accountCount: nat)

  function BalanceCardOf(accs: seq<Account>): (c: BalanceCard)
    ensures c.accountCount == |accs| && c.total == TotalBalance(accs)
  {
    BalanceCard(TotalBalance(accs), |accs|)
  }

  function HasId(id: string): Account -> bool
  {
    (a: Account) => a.id == id
  }

  function OtherId(id: string): Account -> bool
  {
    (a: Account) => a.id != id
  }

  /** `accounts.filter(acc => acc.id !== id)`. */
  function RemoveAccount(accs: seq<Account>, id: string): (r: seq<Account>)
    ensures forall i :: 0 <= i < |r| ==> r[i].id != id && r[i] in accs
    ensures forall i :: 0 <= i < |accs| && accs[i].id != id ==> accs[i] in r
    ensures Subsequence(r, accs)
  {
    Filter(accs, OtherId(id))
  }

  /** `handleDelete`: when the user declines the confirmation nothing is sent and
      nothing changes; otherwise the id is sent, and only a successful answer
      removes the account from the list (a failure shows an alert). Returns the
      list and the id sent, if any. */
  function Delete(accs: seq<Account>, id: string, confirmed: bool, ok: bool): (r: (seq<Account>, Option<string>))
    ensures !confirmed ==> r == (accs, None)
    ensures confirmed ==> r.1 == Some(id)
    ensures !(confirmed && ok) ==> r.0 == accs
    ensures confirmed && ok ==> r.0 == RemoveAccount(accs, id)
  {
    if !confirmed then (accs, None)
    else if ok then (RemoveAccount(accs, id), Some(id))
    else (accs, Some(id))
  }

  /** A successful delete keeps an account exactly when its id differs, in the
      original order. */
  lemma DeleteRemovesExactlyId(accs: seq<Account>, id: string, x: Account)
    ensures var after := Delete(accs, id, true, true).0;
      (x in after <==> x in accs && x.id != id) && Subsequence(after, accs)
  {
    FilterContains(accs, OtherId(id), x);
  }

  /** Deleting the same id twice is deleting it once. */
  lemma DeleteIdempotent(accs: seq<Account>, id: string)
    ensures RemoveAccount(RemoveAccount(accs, id), id) == RemoveAccount(accs, id)
  {
    var once := RemoveAccount(accs, id);
    FilterAll(once, OtherId(id));
  }

  /** The total balance drops by exactly the balance of the removed accounts. */
  lemma DeleteLowersTotal(accs: seq<Account>, id: string)
    ensures TotalBalance(RemoveAccount(accs, id)) + SumOf(Filter(accs, HasId(id)), Balance) == TotalBalance(accs)
  {
    SumOfFilterSplit(accs, OtherId(id), HasId(id), Balance);
  }

  /** The list left when a successful delete's answer arrives, as written:
      `accounts.filter(...)` reads the list of the render whose button was clicked,
      not the list as it is when the answer arrives, so whatever changed in
      between is undone. */
  function SettleDeleteAsWritten(rendered: seq<Account>, current: seq<Account>, id: string): (r: seq<Account>)
    ensures forall i :: 0 <= i < |r| ==> r[i] in rendered && r[i].id != id
    ensures Subsequence(r, rendered)
  {
    RemoveAccount(rendered, id)
  }

  /** Two deletes confirmed on the same render, both answered successfully: as
      written, the second answer brings back the account the first one removed. */
  lemma OverlappingDeletesAsWritten(a: Account, b: Account)
    requires a.id != b.id
    ensures var first := SettleDeleteAsWritten([a, b], [a, b], a.id);
      first == [b] && SettleDeleteAsWritten([a, b], first, b.id) == [a]
  {
    var ab := [a, b];
    assert ab[1..] == [b] && [b][1..] == [];
    assert !OtherId(a.id)(a) && OtherId(a.id)(b);
    assert Filter([b], OtherId(a.id)) == [b] + Filter([], OtherId(a.id));
    assert Filter(ab, OtherId(a.id)) == Filter([b], OtherId(a.id));
    assert OtherId(b.id)(a) && !OtherId(b.id)(b);
    assert Filter([b], OtherId(b.id)) == Filter([], OtherId(b.id));
    assert Filter(ab, OtherId(b.id)) == [a] + Filter([b], OtherId(b.id));
  }

  /** Keeps the accounts whose id is neither `x` nor `y`. */
  function OtherIds(x: string, y: string): Account -> bool
  {
    (a: Account) => a.id != x && a.id != y
  }

  /** Corrected (the filter applied to the current list, as a functional state
      update does): overlapping deletes remove both accounts and nothing else,
      whichever answer arrives first. */
  lemma OverlappingDeletesRemoveBoth(accs: seq<Account>, x: string, y: string)
    ensures RemoveAccount(RemoveAccount(accs, x), y) == RemoveAccount(RemoveAccount(accs, y), x)
    ensures RemoveAccount(RemoveAccount(accs, x), y) == Filter(accs, OtherIds(x, y))
  {
    FilterCompose(accs, OtherId(x), OtherId(y), OtherIds(x, y));
    FilterCompose(accs, OtherId(y), OtherId(x), OtherIds(x, y));
  }

  /** No two accounts share an id. */
  predicate UniqueIds(accs: seq<Account>)
  {
    forall i, j :: 0 <= i < j < |accs| ==> accs[i].id != accs[j].id
  }

  /** With unique ids, deleting a listed account lowers "Across N account(s)" by one. */
  lemma {:induction false} DeleteLowersCountByOne(accs: seq<Account>, id: string)
    requires UniqueIds(accs)
    requires exists i :: 0 <= i < |accs| && accs[i].id == id
    ensures |RemoveAccount(accs, id)| == |accs| - 1
  {
    var rest := accs[1..];
    assert UniqueIds(rest);
    if accs[0].id == id {
      assert forall i :: 0 <= i < |rest| ==> rest[i].id != id by {
        forall i | 0 <= i < |rest|
          ensures rest[i].id != id
        {
          assert rest[i] == accs[i + 1];
        }
      }
      FilterAll(rest, OtherId(id));
    } else {
      var k :| 0 <= k < |accs| && accs[k].id == id;
      assert rest[k - 1].id == id;
      DeleteLowersCountByOne(rest, id);
    }
  }

  /** The "A/C No" line: shown only for a non-empty number, as four stars and the
      last four characters (the whole number when it is shorter). */
  function MaskedNumber(accountNumber: Option<string>): (r: Option<string>)
    ensures r.None? <==> accountNumber.None? || accountNumber.value == ""
    ensures r.Some? ==> |r.value| == 4 + Min(4, |accountNumber.value|)
    ensures r.Some? ==> r.value[..4] == "****"
    ensures r.Some? ==> r.value[4..] == accountNumber.value[|accountNumber.value| - Min(4, |accountNumber.value|)..]
  {
    match accountNumber
    case None => None
    case Some(n) => if n == "" then None else Some("****" + TakeLast(n, 4))
  }


  /** The mask shows nothing but the last four characters: numbers that end alike
      mask alike. */
  lemma MaskHidesLeadingDigits(a: string, b: string)
    requires |a| >= 4 && |b| >= 4
    requires a[|a| - 4..] == b[|b| - 4..]
    ensures MaskedNumber(Some(a)) == MaskedNumber(Some(b))
  {
  }
}

=== FILE: common.dfy ===
/** Shared vocabulary of the console's pages: optional values, the `Number(x || 0)`
    reading of a possibly missing amount, the value of an `<input type="number">`,
    and the three array operations every list page uses (filter, count, sum). */
module Common {

  /** A value the backend or a form may leave out (`undefined` / `null`). */
  datatype Option<+T> = None | Some(value: T)

  /** Outcome of a call into the backend, whose internals are not modelled. */
  datatype Result<+R, +E> = Success(value: R) | Failure(error: E)

  /** `Number(x || 0)`: a missing amount reads as zero. */
  function OrZero(x: Option<real>): real
  {
    match x
    case None => 0.0
    case Some(v) => v
  }

  /** The value of an `<input type="number">`: a browser reports either the empty
      string or a well-formed number. */
  datatype NumberField = Blank | Num(amount: real)

  /** `Number(field)`, and equally `Number(field || 0)` and `Number(field) || 0`:
      the empty string converts to 0. */
  function FieldValue(f: NumberField): real
  {
    match f
    case Blank => 0.0
    case Num(v) => v
  }

  /** `xs.filter(p)`: keeps, in order, exactly the elements satisfying `p`. */
  function Filter<T>(xs: seq<T>, p: T -> bool): (r: seq<T>)
    ensures |r| <= |xs|
    ensures forall i :: 0 <= i < |r| ==> r[i] in xs && p(r[i])
    ensures forall i :: 0 <= i < |xs| && p(xs[i]) ==> xs[i] in r
    ensures Subsequence(r, xs)
  {
    if |xs| == 0 then []
    else if p(xs[0]) then [xs[0]] + Filter(xs[1..], p)
    else Filter(xs[1..], p)
  }

  /** Membership in a filtered list, stated for one element. */
  lemma FilterContains<T>(xs: seq<T>, p: T -> bool, x: T)
    ensures x in Filter(xs, p) <==> x in xs && p(x)
  {
    if x in xs && p(x) {
      var i :| 0 <= i < |xs| && xs[i] == x;
      assert xs[i] in Filter(xs, p);
    }
    if x in Filter(xs, p) {
      var r := Filter(xs, p);
      var i :| 0 <= i < |r| && r[i] == x;
      assert r[i] in xs && p(r[i]);
    }
  }

  /** `a` is obtained from `b` by deleting elements, keeping the order of the rest. */
  ghost predicate Subsequence<T>(a: seq<T>, b: seq<T>)
    decreases |b|
  {
    if |a| == 0 then true
    else if |b| == 0 then false
    else (a[0] == b[0] && Subsequence(a[1..], b[1..])) || Subsequence(a, b[1..])
  }

  /** `xs.reduce((sum, x) => sum + f(x), 0)`. Real addition is exact, so the fold
      direction does not matter. */
  function SumOf<T>(xs: seq<T>, f: T -> real): real
  {
    if |xs| == 0 then 0.0 else f(xs[0]) + SumOf(xs[1..], f)
  }

  lemma {:induction false} SubsequenceLength<T>(a: seq<T>, b: seq<T>)
    requires Subsequence(a, b)
    ensures |a| <= |b|
    decreases |b|
  {
    if |a| > 0 {
      if a[0] == b[0] && Subsequence(a[1..], b[1..]) {
        SubsequenceLength(a[1..], b[1..]);
      } else {
        SubsequenceLength(a, b[1..]);
      }
    }
  }

  /** A predicate that holds of every element filters nothing out. */
  lemma {:induction false} FilterAll<T>(xs: seq<T>, p: T -> bool)
    requires forall i :: 0 <= i < |xs| ==> p(xs[i])
    ensures Filter(xs, p) == xs
  {
    if |xs| > 0 {
      FilterAll(xs[1..], p);
    }
  }

  /** Filtering depends only on the predicate's values on the list. */
  lemma {:induction false} FilterExtensional<T>(xs: seq<T>, p: T -> bool, q: T -> bool)
    requires forall i :: 0 <= i < |xs| ==> p(xs[i]) == q(xs[i])
    ensures Filter(xs, p) == Filter(xs, q)
  {
    if |xs| > 0 {
      FilterExtensional(xs[1..], p, q);
    }
  }

  /** Two filters in a row keep what their conjunction `pq` keeps. */
  lemma {:induction false} FilterCompose<T>(xs: seq<T>, p: T -> bool, q: T -> bool, pq: T -> bool)
    requires forall i :: 0 <= i < |xs| ==> pq(xs[i]) == (p(xs[i]) && q(xs[i]))
    ensures Filter(Filter(xs, p), q) == Filter(xs, pq)
  {
    if |xs| > 0 {
      FilterCompose(xs[1..], p, q, pq);
      if p(xs[0]) {
        assert Filter(xs, p) == [xs[0]] + Filter(xs[1..], p);
        assert ([xs[0]] + Filter(xs[1..], p))[1..] == Filter(xs[1..], p);
      }
    }
  }

  /** A stronger predicate keeps a subsequence of what a weaker one keeps. */
  lemma {:induction false} FilterMonotone<T>(xs: seq<T>, p: T -> bool, q: T -> bool)
    requires forall i :: 0 <= i < |xs| ==> q(xs[i]) ==> p(xs[i])
    ensures Subsequence(Filter(xs, q), Filter(xs, p))
    ensures |Filter(xs, q)| <= |Filter(xs, p)|
  {
    if |xs| > 0 {
      FilterMonotone(xs[1..], p, q);
      var a, b := Filter(xs, q), Filter(xs, p);
      if q(xs[0]) {
        assert a == [xs[0]] + Filter(xs[1..], q) && b == [xs[0]] + Filter(xs[1..], p);
        assert a[1..] == Filter(xs[1..], q) && b[1..] == Filter(xs[1..], p);
      } else if p(xs[0]) {
        assert b == [xs[0]] + Filter(xs[1..], p);
        assert b[1..] == Filter(xs[1..], p);
        SubsequenceSkip(a, b);
      }
    }
    SubsequenceLength(Filter(xs, q), Filter(xs, p));
  }

  /** Dropping the head of the longer list keeps the relation when `a` did not need it. */
  lemma {:induction false} SubsequenceSkip<T>(a: seq<T>, b: seq<T>)
    requires |b| > 0 && Subsequence(a, b[1..])
    ensures Subsequence(a, b)
  {
  }

  /** A prefix is a subsequence. */
  lemma {:induction false} PrefixIsSubsequence<T>(a: seq<T>, b: seq<T>)
    requires |a| <= |b| && a == b[..|a|]
    ensures Subsequence(a, b)
    decreases |b|
  {
    if |a| > 0 {
      PrefixIsSubsequence(a[1..], b[1..]);
    }
  }

  /** Subsequences compose. */
  lemma {:induction false} SubsequenceTransitive<T>(a: seq<T>, b: seq<T>, c: seq<T>)
    requires Subsequence(a, b) && Subsequence(b, c)
    ensures Subsequence(a, c)
    decreases |c|
  {
    if |a| > 0 {
      if b[0] == c[0] && Subsequence(b[1..], c[1..]) {
        if a[0] == b[0] && Subsequence(a[1..], b[1..]) {
          SubsequenceTransitive(a[1..], b[1..], c[1..]);
        } else {
          SubsequenceTransitive(a, b[1..], c[1..]);
        }
      } else {
        SubsequenceTransitive(a, b, c[1..]);
      }
    }
  }

  /** The elements kept by `p` and those kept by its negation `notP` together
      count the list. */
  lemma {:induction false} FilterSplitCount<T>(xs: seq<T>, p: T -> bool, notP: T -> bool)
    requires forall i :: 0 <= i < |xs| ==> notP(xs[i]) == !p(xs[i])
    ensures |Filter(xs, p)| + |Filter(xs, notP)| == |xs|
  {
    if |xs| > 0 {
      FilterSplitCount(xs[1..], p, notP);
    }
  }

  /** Two predicates that never hold together count at most the whole list. */
  lemma {:induction false} DisjointCounts<T>(xs: seq<T>, p: T -> bool, q: T -> bool)
    requires forall i :: 0 <= i < |xs| ==> !(p(xs[i]) && q(xs[i]))
    ensures |Filter(xs, p)| + |Filter(xs, q)| <= |xs|
  {
    if |xs| > 0 {
      DisjointCounts(xs[1..], p, q);
    }
  }

  /** Summing over the kept elements never exceeds the sum over all of them when
      every term is non-negative. */
  lemma {:induction false} SumOfFilterLe<T>(xs: seq<T>, p: T -> bool, f: T -> real)
    requires forall i :: 0 <= i < |xs| ==> f(xs[i]) >= 0.0
    ensures SumOf(Filter(xs, p), f) <= SumOf(xs, f)
  {
    if |xs| > 0 {
      SumOfFilterLe(xs[1..], p, f);
      if p(xs[0]) {
        assert Filter(xs, p) == [xs[0]] + Filter(xs[1..], p);
        assert ([xs[0]] + Filter(xs[1..], p))[1..] == Filter(xs[1..], p);
      }
    }
  }

  /** Sums split over concatenation. */
  lemma {:induction false} SumOfAppend<T>(xs: seq<T>, ys: seq<T>, f: T -> real)
    ensures SumOf(xs + ys, f) == SumOf(xs, f) + SumOf(ys, f)
  {
    if |xs| == 0 {
      assert xs + ys == ys;
    } else {
      assert (xs + ys)[1..] == xs[1..] + ys;
      SumOfAppend(xs[1..], ys, f);
    }
  }

  /** Filtering distributes over concatenation. */
  lemma {:induction false} FilterAppend<T>(xs: seq<T>, ys: seq<T>, p: T -> bool)
    ensures Filter(xs + ys, p) == Filter(xs, p) + Filter(ys, p)
  {
    if |xs| == 0 {
      assert xs + ys == ys;
    } else {
      assert (xs + ys)[0] == xs[0];
      assert (xs + ys)[1..] == xs[1..] + ys;
      FilterAppend(xs[1..], ys, p);
    }
  }

  /** Appending one element adds one to a filtered count exactly when the element
      is kept. */
  lemma FilterCountAppend<T>(xs: seq<T>, x: T, p: T -> bool)
    ensures |Filter(xs + [x], p)| == |Filter(xs, p)| + (if p(x) then 1 else 0)
  {
    FilterAppend(xs, [x], p);
    assert Filter([x], p) == (if p(x) then [x] else []) by {
      assert [x][1..] == [];
    }
  }

  /** Appending one element adds its term to a filtered sum exactly when the
      element is kept. */
  lemma SumOfFilterAppend<T>(xs: seq<T>, x: T, p: T -> bool, f: T -> real)
    ensures SumOf(Filter(xs + [x], p), f) == SumOf(Filter(xs, p), f) + (if p(x) then f(x) else 0.0)
  {
    FilterAppend(xs, [x], p);
    assert [x][1..] == [];
    assert Filter([x], p) == (if p(x) then [x] else []);
    SumOfAppend(Filter(xs, p), Filter([x], p), f);
    assert SumOf([x], f) == f(x) + SumOf([x][1..], f);
  }

  /** A predicate that holds of every element keeps the whole list; one that holds
      of none keeps nothing. */
  lemma FilterKeepsAllOrNone<T>(xs: seq<T>, p: T -> bool)
    ensures (forall i :: 0 <= i < |xs| ==> p(xs[i])) ==> Filter(xs, p) == xs
    ensures (forall i :: 0 <= i < |xs| ==> !p(xs[i])) ==> Filter(xs, p) == []
  {
    if forall i :: 0 <= i < |xs| ==> p(xs[i]) {
      FilterAll(xs, p);
    }
    var r := Filter(xs, p);
    if |r| > 0 {
      assert r[0] in xs && p(r[0]);
    }
  }

  /** Filtered sums of non-negative terms lie between 0 and the unfiltered sum. */
  lemma SumOfFilterBounds<T>(xs: seq<T>, p: T -> bool, f: T -> real)
    ensures (forall i :: 0 <= i < |xs| ==> f(xs[i]) >= 0.0) ==>
      0.0 <= SumOf(Filter(xs, p), f) <= SumOf(xs, f)
  {
    if forall i :: 0 <= i < |xs| ==> f(xs[i]) >= 0.0 {
      var r := Filter(xs, p);
      assert forall i :: 0 <= i < |r| ==> f(r[i]) >= 0.0;
      SumOfNonNegative(r, f);
      SumOfFilterLe(xs, p, f);
    }
  }

  /** Sums are zero on the empty list and never negative over non-negative terms. */
  lemma {:induction false} SumOfNonNegative<T>(xs: seq<T>, f: T -> real)
    requires forall i :: 0 <= i < |xs| ==> f(xs[i]) >= 0.0
    ensures SumOf(xs, f) >= 0.0
  {
    if |xs| > 0 {
      SumOfNonNegative(xs[1..], f);
    }
  }

  /** The kept and the dropped elements together sum to the whole list. */
  lemma {:induction false} SumOfFilterSplit<T>(xs: seq<T>, p: T -> bool, notP: T -> bool, f: T -> real)
    requires forall i :: 0 <= i < |xs| ==> notP(xs[i]) == !p(xs[i])
    ensures SumOf(Filter(xs, p), f) + SumOf(Filter(xs, notP), f) == SumOf(xs, f)
  {
    if |xs| > 0 {
      SumOfFilterSplit(xs[1..], p, notP, f);
      if p(xs[0]) {
        assert ([xs[0]] + Filter(xs[1..], p))[1..] == Filter(xs[1..], p);
      } else {
        assert ([xs[0]] + Filter(xs[1..], notP))[1..] == Filter(xs[1..], notP);
      }
    }
  }

  /** Elements on which `f` is zero contribute nothing to a sum. */
  lemma {:induction false} SumOfZero<T>(xs: seq<T>, f: T -> real)
    requires forall i :: 0 <= i < |xs| ==> f(xs[i]) == 0.0
    ensures SumOf(xs, f) == 0.0
  {
    if |xs| > 0 {
      SumOfZero(xs[1..], f);
    }
  }

  /** A sum of terms lying between `lo` and `hi` lies between `n * lo` and `n * hi`. */
  lemma {:induction false} SumOfBetween<T>(xs: seq<T>, f: T -> real, lo: real, hi: real)
    requires forall i :: 0 <= i < |xs| ==> lo <= f(xs[i]) <= hi
    ensures |xs| as real * lo <= SumOf(xs, f) <= |xs| as real * hi
  {
    if |xs| > 0 {
      SumOfBetween(xs[1..], f, lo, hi);
    }
  }

  function Min(a: int, b: int): int
  {
    if a <= b then a else b
  }
}

=== FILE: comp_leaves.dfy ===
/** Compensatory-leave classification. At a fixed instant `now` each compensatory
    leave is exactly one of Available, Used or Expired; the employee detail page
    lists the three groups, the leave page labels each leave and offers only the
    available ones for a new leave and for deletion. */
module CompLeaves {
  import opened Common
  import opened Records

  datatype CompLeaveStatus = Available | Used | Expired

  /** `new Date(cl.expiryDate) <= new Date()`: the leave lapses at its expiry instant. */
  predicate IsExpired(cl: CompensatoryLeave, now: int)
  {
    cl.expiryDate <= now
  }

  /** `!cl.isUsed && !isExpired`. */
  predicate IsAvailable(cl: CompensatoryLeave, now: int)
  {
    !cl.isUsed && !IsExpired(cl, now)
  }

  /** The badge of the leave page: `isAvailable ? 'Available' : cl.isUsed ? 'Used' : 'Expired'`. */
  function Status(cl: CompensatoryLeave, now: int): (s: CompLeaveStatus)
    ensures s == Available <==> !cl.isUsed && cl.expiryDate > now
    ensures s == Used <==> cl.isUsed
    ensures s == Expired <==> !cl.isUsed && cl.expiryDate <= now
  {
    if IsAvailable(cl, now) then Available else if cl.isUsed then Used else Expired
  }

  /** The text of the badge. */
  function StatusLabel(s: CompLeaveStatus): string
  {
    match s
    case Available => "Available"
    case Used => "Used"
    case Expired => "Expired"
  }

  /** The delete button is rendered only for available leaves. */
  function CanDelete(cl: CompensatoryLeave, now: int): (b: bool)
    ensures b <==> Status(cl, now) == Available
    ensures cl.isUsed ==> !b
    ensures cl.expiryDate <= now ==> !b
  {
    IsAvailable(cl, now)
  }

  /** `availableCompLeaves`: not used and expiring strictly after `now`. Both pages
      compute it with the same filter. */
  function AvailableLeaves(cls: seq<CompensatoryLeave>, now: int): (r: seq<CompensatoryLeave>)
    ensures forall i :: 0 <= i < |r| ==> r[i] in cls && Status(r[i], now) == Available
    ensures forall i :: 0 <= i < |cls| && Status(cls[i], now) == Available ==> cls[i] in r
    ensures Subsequence(r, cls)
  {
    Filter(cls, (cl: CompensatoryLeave) => !cl.isUsed && cl.expiryDate > now)
  }

  /** `usedCompLeaves`: every used leave, whatever its expiry. */
  function UsedLeaves(cls: seq<CompensatoryLeave>): (r: seq<CompensatoryLeave>)
    ensures forall now, i :: 0 <= i < |r| ==> r[i] in cls && Status(r[i], now) == Used
    ensures forall now, i :: 0 <= i < |cls| && Status(cls[i], now) == Used ==> cls[i] in r
    ensures Subsequence(r, cls)
  {
    Filter(cls, (cl: CompensatoryLeave) => cl.isUsed)
  }

  /** `expiredCompLeaves`: not used and expiring at or before `now`. */
  function ExpiredLeaves(cls: seq<CompensatoryLeave>, now: int): (r: seq<CompensatoryLeave>)
    ensures forall i :: 0 <= i < |r| ==> r[i] in cls && Status(r[i], now) == Expired
    ensures forall i :: 0 <= i < |cls| && Status(cls[i], now) == Expired ==> cls[i] in r
    ensures Subsequence(r, cls)
  {
    Filter(cls, (cl: CompensatoryLeave) => !cl.isUsed && cl.expiryDate <= now)
  }

  /** Each of the three lists holds exactly the leaves with the matching status. */
  lemma GroupsMatchStatus(cls: seq<CompensatoryLeave>, now: int, cl: CompensatoryLeave)
    ensures cl in AvailableLeaves(cls, now) <==> cl in cls && Status(cl, now) == Available
    ensures cl in UsedLeaves(cls) <==> cl in cls && Status(cl, now) == Used
    ensures cl in ExpiredLeaves(cls, now) <==> cl in cls && Status(cl, now) == Expired
  {
    FilterContains(cls, (c: CompensatoryLeave) => !c.isUsed && c.expiryDate > now, cl);
    FilterContains(cls, (c: CompensatoryLeave) => c.isUsed, cl);
    FilterContains(cls, (c: CompensatoryLeave) => !c.isUsed && c.expiryDate <= now, cl);
  }

  predicate ExactlyOne(a: bool, b: bool, c: bool)
  {
    (a && !b && !c) || (!a && b && !c) || (!a && !b && c)
  }

  /** The three groups partition the compensatory leaves: every leave is in exactly
      one of them, so they are pairwise disjoint and their sizes add up. */
  lemma {:induction false} GroupsPartition(cls: seq<CompensatoryLeave>, now: int)
    ensures |AvailableLeaves(cls, now)| + |UsedLeaves(cls)| + |ExpiredLeaves(cls, now)| == |cls|
    ensures forall cl :: cl in cls ==>
      ExactlyOne(cl in AvailableLeaves(cls, now), cl in UsedLeaves(cls), cl in ExpiredLeaves(cls, now))
  {
    if |cls| > 0 {
      GroupsPartition(cls[1..], now);
    }
    forall cl | cl in cls
      ensures ExactlyOne(cl in AvailableLeaves(cls, now), cl in UsedLeaves(cls), cl in ExpiredLeaves(cls, now))
    {
      GroupsMatchStatus(cls, now, cl);
    }
  }

  /** The leaves offered in the mark-leave select are the leaves the list labels
      Available, and therefore the ones that can be deleted. */
  lemma OfferedAreDeletable(cls: seq<CompensatoryLeave>, now: int)
    ensures forall i :: 0 <= i < |AvailableLeaves(cls, now)| ==>
      CanDelete(AvailableLeaves(cls, now)[i], now)
  {
  }
}

=== FILE: create_employee.dfy ===
/** The create-employee form: its defaults, the working-day checkboxes and the
    request built on submit. */
module CreateEmployee {
  import opened Common
  import opened Text
  import opened WorkingDays

  datatype EmployeeForm = EmployeeForm(
    name: string,
    email: string,
    phone: string,
    designation: string,
    joiningDate: string,
    monthlySalary: NumberField,
    dailySalary: NumberField,
    paidLeavesPerMonth: NumberField,
    workingDays: seq<Weekday>)

  /** Body of the create-employee request. */
  datatype CreateEmployeeRequest = CreateEmployeeRequest(
    name: string,
    email: string,
    phone: Option<string>,
    designation: Option<string>,
    joiningDate: string,
    monthlySalary: real,
    dailySalary: real,
    paidLeavesPerMonth: real,
    workingDays: string)

  const NoWorkingDayMessage := "Please select at least one working day"

  /** The form when the page opens; `today` is the ISO date of the current day. */
  function InitialForm(today: string): (f: EmployeeForm)
    ensures f.workingDays == DefaultWorkingDays && StrictlySorted(f.workingDays)
    ensures f.paidLeavesPerMonth == Num(2.0)
    ensures f.monthlySalary == Blank && f.dailySalary == Blank
    ensures f.joiningDate == today
  {
    EmployeeForm("", "", "", "", today, Blank, Blank, Num(2.0), DefaultWorkingDays)
  }

  /** A click on a working-day checkbox flips its own day and leaves every other
      field alone. */
  function ToggleDay(f: EmployeeForm, d: Weekday): (r: EmployeeForm)
    ensures d in r.workingDays <==> d !in f.workingDays
    ensures forall x: Weekday :: x != d ==> (x in r.workingDays <==> x in f.workingDays)
    ensures r.(workingDays := f.workingDays) == f
  {
    ToggleFlips(f.workingDays, d);
    f.(workingDays := Toggle(f.workingDays, d))
  }

  /** A click flips the ticked state of its own day only, keeps the list sorted and
      free of repetitions, and leaves the other fields alone. */
  lemma ToggleDayEffect(f: EmployeeForm, d: Weekday)
    requires StrictlySorted(f.workingDays)
    ensures StrictlySorted(ToggleDay(f, d).workingDays)
    ensures forall x: Weekday :: x in ToggleDay(f, d).workingDays <==>
      if x == d then d !in f.workingDays else x in f.workingDays
    ensures ToggleDay(f, d).(workingDays := f.workingDays) == f
  {
    ToggleKeepsStrictlySorted(f.workingDays, d);
    ToggleFlips(f.workingDays, d);
  }

  /** Two clicks on the same checkbox give back the form. */
  lemma ToggleDayTwice(f: EmployeeForm, d: Weekday)
    requires StrictlySorted(f.workingDays)
    ensures ToggleDay(ToggleDay(f, d), d) == f
  {
    ToggleTwice(f.workingDays, d);
  }

  /** `''` becomes `undefined`. */
  function Optional(s: string): (r: Option<string>)
    ensures r == None <==> s == ""
    ensures r.Some? ==> r.value == s
  {
    if s == "" then None else Some(s)
  }

  /** `handleSubmit`: an empty working-day list is refused before any request;
      otherwise the request carries the comma-joined days. */
  function Submit(f: EmployeeForm): (r: Result<CreateEmployeeRequest, string>)
    ensures r.Failure? <==> |f.workingDays| == 0
    ensures r.Failure? ==> r.error == NoWorkingDayMessage
    ensures r.Success? ==>
      r.value.name == f.name && r.value.email == f.email && r.value.joiningDate == f.joiningDate
      && r.value.phone == Optional(f.phone) && r.value.designation == Optional(f.designation)
      && r.value.monthlySalary == FieldValue(f.monthlySalary)
      && r.value.dailySalary == FieldValue(f.dailySalary)
      && r.value.paidLeavesPerMonth == FieldValue(f.paidLeavesPerMonth)
      && r.value.workingDays == EncodeWorkingDays(f.workingDays)
  {
    if |f.workingDays| == 0 then Failure(NoWorkingDayMessage)
    else
      Success(CreateEmployeeRequest(
        f.name, f.email, Optional(f.phone), Optional(f.designation), f.joiningDate,
        FieldValue(f.monthlySalary), FieldValue(f.dailySalary), FieldValue(f.paidLeavesPerMonth),
        EncodeWorkingDays(f.workingDays)))
  }

  /** Whatever the user submits, the lists that show the employee afterwards
      name exactly the ticked days, in the form's order. */
  lemma SubmittedDaysReadBack(f: EmployeeForm)
    requires |f.workingDays| > 0
    ensures Submit(f).Success?
    ensures DecodeWorkingDays(Submit(f).value.workingDays) == DayNumbers(f.workingDays)
    ensures WorkingDaysLabel(Submit(f).value.workingDays) == Join(DayNames(f.workingDays), ", ")
  {
    DecodeEncode(f.workingDays);
    LabelOfEncoded(f.workingDays);
  }

  /** The untouched form sends Monday to Saturday. */
  lemma DefaultSubmission(today: string)
    ensures Submit(InitialForm(today)).Success?
    ensures Submit(InitialForm(today)).value.workingDays == "1,2,3,4,5,6"
    ensures Submit(InitialForm(today)).value.paidLeavesPerMonth == 2.0
  {
    var texts := DayTexts(DefaultWorkingDays);
    assert texts == ["1", "2", "3", "4", "5", "6"];
    assert Join(texts[5..], ",") == "6";
    assert Join(texts[4..], ",") == "5,6";
    assert Join(texts[3..], ",") == "4,5,6";
    assert Join(texts[2..], ",") == "3,4,5,6";
    assert Join(texts[1..], ",") == "2,3,4,5,6";
    assert Join(texts, ",") == "1,2,3,4,5,6";
    assert EncodeWorkingDays(DefaultWorkingDays) == Join(texts, ",");
  }
}

=== FILE: employees.dfy ===
/** The employee list page (search, head-count and salary-expense cards, the
    delete dialog) and the small helpers of the employee detail page. */
module Employees {
  import opened Common
  import opened Text
  import opened Records
  import SalaryProcessing

  /** The search box matches name, e-mail or designation, ignoring case; an absent
      designation never matches. */
  predicate Matches(e: Employee, term: string)
  {
    IncludesIgnoringCase(e.name, term)
    || IncludesIgnoringCase(e.email, term)
    || (e.designation.Some? && IncludesIgnoringCase(e.designation.value, term))
  }

  /** `filteredEmployees`. */
  function Search(emps: seq<Employee>, term: string): (r: seq<Employee>)
    ensures forall i :: 0 <= i < |r| ==> r[i] in emps && Matches(r[i], term)
    ensures forall i :: 0 <= i < |emps| && Matches(emps[i], term) ==> emps[i] in r
    ensures Subsequence(r, emps)
  {
    Filter(emps, (e: Employee) => Matches(e, term))
  }

  /** An empty search shows every employee. */
  lemma EmptySearchShowsAll(emps: seq<Employee>)
    ensures Search(emps, "") == emps
  {
    forall i | 0 <= i < |emps|
      ensures Matches(emps[i], "")
    {
      EmptyTermMatches(emps[i].name);
    }
    FilterAll(emps, (e: Employee) => Matches(e, ""));
  }

  const IsActive: Employee -> bool := (e: Employee) => e.isActive
  const IsInactive: Employee -> bool := (e: Employee) => !e.isActive

  /** The "Active" card. */
  function ActiveCount(emps: seq<Employee>): (n: nat)
    ensures n <= |emps|
    ensures (forall i :: 0 <= i < |emps| ==> emps[i].isActive) ==> n == |emps|
  {
    FilterKeepsAllOrNone(emps, IsActive);
    |Filter(emps, IsActive)|
  }

  /** The "Inactive" card: the employees the "Active" card leaves out. */
  function InactiveCount(emps: seq<Employee>): (n: nat)
    ensures n == |emps| - ActiveCount(emps)
  {
    FilterSplitCount(emps, IsActive, IsInactive);
    |Filter(emps, IsInactive)|
  }

  /** Every employee is counted on exactly one of the two cards. */
  lemma HeadCountsAddUp(emps: seq<Employee>)
    ensures ActiveCount(emps) + InactiveCount(emps) == |emps|
  {
    FilterSplitCount(emps, IsActive, IsInactive);
  }

  /** Both cards read 0 on an empty list, and one more employee adds one to the
      card of their status and nothing to the other. */
  lemma HeadCountsAppend(emps: seq<Employee>, e: Employee)
    ensures ActiveCount([]) == 0 && InactiveCount([]) == 0
    ensures ActiveCount(emps + [e]) == ActiveCount(emps) + (if e.isActive then 1 else 0)
    ensures InactiveCount(emps + [e]) == InactiveCount(emps) + (if e.isActive then 0 else 1)
  {
    FilterCountAppend(emps, e, IsActive);
  }

  const MonthlyPay: Employee -> real := (e: Employee) => OrZero(e.monthlySalary)

  /** The "Monthly Salary" card: `Number(monthlySalary || 0)` over the active
      employees. Together with the inactive employees' salaries it makes the
      whole payroll. */
  function SalaryExpense(emps: seq<Employee>): (total: real)
    ensures total + SumOf(Filter(emps, IsInactive), MonthlyPay) == SumOf(emps, MonthlyPay)
    ensures (forall e :: e in emps ==> MonthlyPay(e) >= 0.0) ==>
      0.0 <= total <= SumOf(emps, MonthlyPay)
  {
    SumOfFilterSplit(emps, IsActive, IsInactive, MonthlyPay);
    SumOfFilterBounds(emps, IsActive, MonthlyPay);
    SumOf(Filter(emps, IsActive), MonthlyPay)
  }

  /** The card reads 0 on an empty list, and one more employee adds their salary
      exactly when they are active. */
  lemma SalaryExpenseAppend(emps: seq<Employee>, e: Employee)
    ensures SalaryExpense([]) == 0.0
    ensures SalaryExpense(emps + [e]) == SalaryExpense(emps) + (if e.isActive then MonthlyPay(e) else 0.0)
  {
    SumOfFilterAppend(emps, e, IsActive, MonthlyPay);
  }

  /** With non-negative salaries, deactivating employees can only lower the card,
      and when everyone is active it is the whole payroll. */
  lemma SalaryExpenseBounds(emps: seq<Employee>)
    requires forall i :: 0 <= i < |emps| ==> MonthlyPay(emps[i]) >= 0.0
    ensures 0.0 <= SalaryExpense(emps) <= SumOf(emps, MonthlyPay)
    ensures (forall i :: 0 <= i < |emps| ==> emps[i].isActive) ==> SalaryExpense(emps) == SumOf(emps, MonthlyPay)
  {
    if forall i :: 0 <= i < |emps| ==> emps[i].isActive {
      FilterAll(emps, IsActive);
    }
  }

  /** The list page: the employees, and the delete dialog's two state variables. */
  datatype ListPage = ListPage(employees: seq<Employee>, showDeleteModal: bool, selected: Option<Employee>)

  /** The dialog is open exactly when an employee is selected. */
  predicate DialogConsistent(s: ListPage)
  {
    s.showDeleteModal <==> s.selected.Some?
  }

  /** The trash button of a row. */
  function OpenDelete(s: ListPage, e: Employee): (r: ListPage)
    ensures r.showDeleteModal && r.selected == Some(e) && r.employees == s.employees
  {
    s.(showDeleteModal := true, selected := Some(e))
  }

  /** The dialog's Cancel button. */
  function CancelDelete(s: ListPage): (r: ListPage)
    ensures !r.showDeleteModal && r.selected == None && r.employees == s.employees
  {
    s.(showDeleteModal := false, selected := None)
  }

  /** Keeps the employees whose id is not `id`. */
  function OtherEmployee(id: string): Employee -> bool
  {
    (e: Employee) => e.id != id
  }

  /** `employees.filter(emp => emp.id !== id)`. */
  function RemoveEmployee(emps: seq<Employee>, id: string): (r: seq<Employee>)
    ensures forall i :: 0 <= i < |r| ==> r[i].id != id && r[i] in emps
    ensures forall i :: 0 <= i < |emps| && emps[i].id != id ==> emps[i] in r
    ensures Subsequence(r, emps)
  {
    Filter(emps, OtherEmployee(id))
  }

  /** The first half of `handleDelete`, up to the `await`: the id sent, none with
      nothing selected. The page does not change until the answer arrives. */
  function DeleteRequestOf(s: ListPage): (r: Option<string>)
    ensures r.None? <==> s.selected.None?
    ensures r.Some? ==> r.value == s.selected.value.id
  {
    match s.selected
    case None => None
    case Some(e) => Some(e.id)
  }

  /** The second half of `handleDelete` as written: on success the list becomes
      the list of the render whose Delete button was clicked, without the id, and
      the dialog closes, whatever the page has become in the meantime (Cancel
      stays enabled while the call is pending); on failure the page stays. */
  function SettleDeleteAsWritten(rendered: ListPage, current: ListPage, id: string, ok: bool): (r: ListPage)
    ensures ok ==> r.employees == RemoveEmployee(rendered.employees, id)
    ensures ok ==> !r.showDeleteModal && r.selected == None
    ensures !ok ==> r == current
  {
    if ok then ListPage(RemoveEmployee(rendered.employees, id), false, None) else current
  }

  /** The second half of `handleDelete`, corrected: the id is filtered out of the
      list current when the answer arrives, as a functional state update does. */
  function SettleDelete(current: ListPage, id: string, ok: bool): (r: ListPage)
    ensures ok ==> forall x :: x in r.employees <==> x in current.employees && x.id != id
    ensures ok ==> Subsequence(r.employees, current.employees)
    ensures ok ==> !r.showDeleteModal && r.selected == None
    ensures !ok ==> r == current
  {
    if ok then
      assert forall x :: x in current.employees && x.id != id ==> x in RemoveEmployee(current.employees, id) by {
        forall x | x in current.employees && x.id != id
          ensures x in RemoveEmployee(current.employees, id)
        {
          FilterContains(current.employees, OtherEmployee(id), x);
        }
      }
      ListPage(RemoveEmployee(current.employees, id), false, None)
    else current
  }

  /** `handleDelete` when nothing happens between sending and answering: with
      nothing selected nothing happens; otherwise the selected id is sent for
      deletion, and on success the employee leaves the list and the dialog closes,
      while on failure the page is unchanged. Returns the page and the id sent, if
      any. */
  function ConfirmDelete(s: ListPage, ok: bool): (r: (ListPage, Option<string>))
    ensures s.selected.None? ==> r == (s, None)
    ensures s.selected.Some? ==> r.1 == Some(s.selected.value.id)
    ensures s.selected.Some? && ok ==>
      r.0 == ListPage(RemoveEmployee(s.employees, s.selected.value.id), false, None)
    ensures !ok ==> r.0 == s
  {
    match DeleteRequestOf(s)
    case None => (s, None)
    case Some(id) => (SettleDelete(s, id, ok), Some(id))
  }

  /** With no other change in between, the answer as written and the corrected
      one agree. */
  lemma SettleDeleteAgreesWhenUndisturbed(s: ListPage, id: string, ok: bool)
    ensures SettleDeleteAsWritten(s, s, id, ok) == SettleDelete(s, id, ok)
  {
  }

  /** Two deletes confirmed on renders that both list [a, b] (Cancel, then
      another row's trash button, while the first call is pending), both answered
      successfully: as written, the second answer brings back the employee the
      first one removed. */
  lemma OverlappingDeletesAsWritten(a: Employee, b: Employee)
    requires a.id != b.id
    ensures var ab := [a, b];
      var first := SettleDeleteAsWritten(ListPage(ab, true, Some(a)), ListPage(ab, true, Some(a)), a.id, true);
      first.employees == [b]
      && SettleDeleteAsWritten(ListPage(ab, true, Some(b)), first, b.id, true).employees == [a]
  {
    var ab := [a, b];
    assert ab[1..] == [b] && [b][1..] == [];
    assert !OtherEmployee(a.id)(a) && OtherEmployee(a.id)(b);
    assert Filter([b], OtherEmployee(a.id)) == [b] + Filter([], OtherEmployee(a.id));
    assert Filter(ab, OtherEmployee(a.id)) == Filter([b], OtherEmployee(a.id));
    assert OtherEmployee(b.id)(a) && !OtherEmployee(b.id)(b);
    assert Filter([b], OtherEmployee(b.id)) == Filter([], OtherEmployee(b.id));
    assert Filter(ab, OtherEmployee(b.id)) == [a] + Filter([b], OtherEmployee(b.id));
  }

  /** Keeps the employees whose id is neither `x` nor `y`. */
  function OtherEmployees(x: string, y: string): Employee -> bool
  {
    (e: Employee) => e.id != x && e.id != y
  }

  /** Corrected: overlapping deletes remove both employees and nothing else,
      whichever answer arrives first. */
  lemma OverlappingDeletesRemoveBoth(s: ListPage, x: string, y: string)
    ensures SettleDelete(SettleDelete(s, x, true), y, true) == SettleDelete(SettleDelete(s, y, true), x, true)
    ensures SettleDelete(SettleDelete(s, x, true), y, true).employees == Filter(s.employees, OtherEmployees(x, y))
  {
    FilterCompose(s.employees, OtherEmployee(x), OtherEmployee(y), OtherEmployees(x, y));
    FilterCompose(s.employees, OtherEmployee(y), OtherEmployee(x), OtherEmployees(x, y));
  }

  /** Every dialog action keeps the two state variables in step. */
  lemma DialogStaysConsistent(s: ListPage, e: Employee, ok: bool)
    requires DialogConsistent(s)
    ensures DialogConsistent(OpenDelete(s, e))
    ensures DialogConsistent(CancelDelete(s))
    ensures DialogConsistent(ConfirmDelete(s, ok).0)
  {
  }

  /** Confirming a delete that succeeds removes exactly the chosen employee's id
      and keeps the others in order. */
  lemma DeleteRemovesExactlyTarget(s: ListPage, e: Employee, x: Employee)
    ensures var after := ConfirmDelete(OpenDelete(s, e), true).0.employees;
      (x in after <==> x in s.employees && x.id != e.id) && Subsequence(after, s.employees)
  {
    FilterContains(s.employees, OtherEmployee(e.id), x);
  }

  /** `getMonthName` of the detail page: three-letter names, undefined outside 1..12. */
  function ShortMonthName(m: int): (r: Option<string>)
    ensures r.Some? <==> 1 <= m <= 12
    ensures r.Some? ==> |r.value| == 3
  {
    var months := ["Jan", "Feb", "Mar", "Apr", "May", "Jun", "Jul", "Aug", "Sep", "Oct", "Nov", "Dec"];
    if 1 <= m <= 12 then Some(months[m - 1]) else None
  }

  /** The detail page's abbreviation is the first three letters of the salary
      page's month name. */
  lemma ShortNameAbbreviatesLong(m: int)
    requires 1 <= m <= 12
    ensures SalaryProcessing.LongMonthName(m).Some?
    ensures ShortMonthName(m).value == SalaryProcessing.LongMonthName(m).value[..3]
  {
  }

  /** The "Processed Salaries" card of the detail page. */
  function ProcessedCount(records: seq<SalaryRecord>): (n: nat)
    ensures n <= |records|
  {
    |Filter(records, SalaryProcessing.IsProcessed)|
  }

  /** The card reads 0 with no records, and one more record adds one exactly when
      it is processed. */
  lemma ProcessedCountAppend(records: seq<SalaryRecord>, r: SalaryRecord)
    ensures ProcessedCount([]) == 0
    ensures ProcessedCount(records + [r]) == ProcessedCount(records) + (if r.isProcessed then 1 else 0)
  {
    FilterCountAppend(records, r, SalaryProcessing.IsProcessed);
  }

  /** The leave-type badge. */
  function LeaveTypeLabel(t: LeaveType): (r: string)
    ensures r == "Full Day" <==> t == FULL_DAY
    ensures r == "Half Day" <==> t == HALF_DAY
  {
    match t
    case FULL_DAY => "Full Day"
    case HALF_DAY => "Half Day"
  }

  /** The salary-record badge. */
  function RecordStatusLabel(r: SalaryRecord): (badge: string)
    ensures badge == "Processed" <==> r.isProcessed
    ensures badge == "Pending" <==> !r.isProcessed
  {
    if r.isProcessed then "Processed" else "Pending"
  }
}

=== FILE: expenses.dfy ===
/** The expense list page: search over title and description, and the three
    summary cards (total, count, this month) computed over the searched list.
    `today` stands for `new Date()` in the browser's time zone. */
module Expenses {
  import opened Common
  import opened Text
  import opened Records

  /** The search box matches title or description, ignoring case. */
  predicate Matches(e: Expense, term: string)
  {
    IncludesIgnoringCase(e.title, term) || IncludesIgnoringCase(e.description, term)
  }

  /** `filteredExpenses`. */
  function Search(expenses: seq<Expense>, term: string): (r: seq<Expense>)
    ensures forall i :: 0 <= i < |r| ==> r[i] in expenses && Matches(r[i], term)
    ensures forall i :: 0 <= i < |expenses| && Matches(expenses[i], term) ==> expenses[i] in r
    ensures Subsequence(r, expenses)
  {
    Filter(expenses, (e: Expense) => Matches(e, term))
  }

  /** An empty search lists every expense, in order. */
  lemma EmptySearchShowsAll(expenses: seq<Expense>)
    ensures Search(expenses, "") == expenses
  {
    forall i | 0 <= i < |expenses|
      ensures Matches(expenses[i], "")
    {
      EmptyTermMatches(expenses[i].title);
    }
    FilterAll(expenses, (e: Expense) => Matches(e, ""));
  }

  /** The three cards. */
  datatype Cards = Cards(total: real, count: nat, thisMonth: real)

  /** Same month index, any year: the test the "This Month" card applies. */
  function SameMonthIndex(today: LocalDate): Expense -> bool
  {
    (e: Expense) => e.expenseDate.monthIndex == today.monthIndex
  }

  /** Same calendar month: same month index and same year. */
  function SameCalendarMonth(today: LocalDate): Expense -> bool
  {
    (e: Expense) => e.expenseDate.year == today.year && e.expenseDate.monthIndex == today.monthIndex
  }

  function SameYear(today: LocalDate): Expense -> bool
  {
    (e: Expense) => e.expenseDate.year == today.year
  }

  /** "This Month" as the page computes it: every listed expense whose month index
      is today's, whatever its year. */
  function ThisMonthAsWritten(listed: seq<Expense>, today: LocalDate): real
  {
    SumOf(Filter(listed, SameMonthIndex(today)), ExpenseAmount)
  }

  /** "This Month" as its title promises: the listed expenses of the current
      calendar month. */
  function ThisMonth(listed: seq<Expense>, today: LocalDate): real
  {
    SumOf(Filter(listed, SameCalendarMonth(today)), ExpenseAmount)
  }

  /** The cards as the page computes them, over the searched list: total and count
      cover the listed expenses only, not every loaded one, and "This Month" is
      the month-index sum. With non-negative amounts the cards are ordered. */
  function ExpenseCards(expenses: seq<Expense>, term: string, today: LocalDate): (c: Cards)
    ensures c.count == |Search(expenses, term)|
    ensures c.total == SumOf(Search(expenses, term), ExpenseAmount)
    ensures c.thisMonth == ThisMonthAsWritten(Search(expenses, term), today)
    ensures (forall i :: 0 <= i < |expenses| ==> ExpenseAmount(expenses[i]) >= 0.0) ==>
      0.0 <= c.thisMonth <= c.total <= SumOf(expenses, ExpenseAmount)
  {
    var listed := Search(expenses, term);
    CardsOrdered(expenses, term, today);
    Cards(SumOf(listed, ExpenseAmount), |listed|, ThisMonthAsWritten(listed, today))
  }

  /** With non-negative amounts, the month card is at most the total card, which
      is at most the sum over every loaded expense. */
  lemma CardsOrdered(expenses: seq<Expense>, term: string, today: LocalDate)
    ensures (forall e :: e in expenses ==> ExpenseAmount(e) >= 0.0) ==>
      var listed := Search(expenses, term);
      0.0 <= ThisMonthAsWritten(listed, today) <= SumOf(listed, ExpenseAmount) <= SumOf(expenses, ExpenseAmount)
  {
    if forall e :: e in expenses ==> ExpenseAmount(e) >= 0.0 {
      var listed := Search(expenses, term);
      SearchedTotalBounded(expenses, term);
      assert forall i :: 0 <= i < |listed| ==> ExpenseAmount(listed[i]) >= 0.0;
      ThisMonthBounds(listed, today);
    }
  }

  function Misses(term: string): Expense -> bool
  {
    (e: Expense) => !Matches(e, term)
  }

  /** The total card plus the amounts the search hides is the total of every
      loaded expense. */
  lemma SearchSplitsTotal(expenses: seq<Expense>, term: string)
    ensures SumOf(Search(expenses, term), ExpenseAmount) + SumOf(Filter(expenses, Misses(term)), ExpenseAmount)
      == SumOf(expenses, ExpenseAmount)
  {
    SumOfFilterSplit(expenses, (e: Expense) => Matches(e, term), Misses(term), ExpenseAmount);
  }

  /** With non-negative amounts, searching can only lower the total. */
  lemma SearchedTotalBounded(expenses: seq<Expense>, term: string)
    requires forall i :: 0 <= i < |expenses| ==> ExpenseAmount(expenses[i]) >= 0.0
    ensures 0.0 <= SumOf(Search(expenses, term), ExpenseAmount) <= SumOf(expenses, ExpenseAmount)
  {
    var listed := Search(expenses, term);
    assert forall i :: 0 <= i < |listed| ==> ExpenseAmount(listed[i]) >= 0.0;
    SumOfNonNegative(listed, ExpenseAmount);
    SumOfFilterLe(expenses, (e: Expense) => Matches(e, term), ExpenseAmount);
  }

  /** With non-negative amounts, both versions of "This Month" lie between zero and
      the total, and the calendar-month sum never exceeds the month-index sum. */
  lemma ThisMonthBounds(listed: seq<Expense>, today: LocalDate)
    requires forall i :: 0 <= i < |listed| ==> ExpenseAmount(listed[i]) >= 0.0
    ensures 0.0 <= ThisMonth(listed, today) <= ThisMonthAsWritten(listed, today) <= SumOf(listed, ExpenseAmount)
  {
    var byMonth := Filter(listed, SameMonthIndex(today));
    assert forall i :: 0 <= i < |byMonth| ==> ExpenseAmount(byMonth[i]) >= 0.0;
    var both := Filter(listed, SameCalendarMonth(today));
    assert forall i :: 0 <= i < |both| ==> ExpenseAmount(both[i]) >= 0.0;
    SumOfNonNegative(both, ExpenseAmount);
    SumOfFilterLe(listed, SameMonthIndex(today), ExpenseAmount);
    FilterCompose(listed, SameMonthIndex(today), SameYear(today), SameCalendarMonth(today));
    SumOfFilterLe(byMonth, SameYear(today), ExpenseAmount);
  }

  /** The calendar-month card counts an expense exactly when it falls in today's
      month of today's year. */
  lemma ThisMonthCountsCurrentMonth(listed: seq<Expense>, today: LocalDate, e: Expense)
    ensures e in Filter(listed, SameCalendarMonth(today)) <==>
      e in listed && e.expenseDate.year == today.year && e.expenseDate.monthIndex == today.monthIndex
  {
    FilterContains(listed, SameCalendarMonth(today), e);
  }

  /** The page's card adds last year's expense of the same month: an October 2023
      expense of 100 shows under "This Month" in October 2024. */
  lemma ThisMonthCountsOtherYears()
    ensures var e := Expense("e1", "Rent", "", Some(100.0), LocalDate(2023, 9, 15), None, "a1", None, "u1");
      var today := LocalDate(2024, 9, 1);
      ThisMonthAsWritten([e], today) == 100.0 && ThisMonth([e], today) == 0.0
  {
    var e := Expense("e1", "Rent", "", Some(100.0), LocalDate(2023, 9, 15), None, "a1", None, "u1");
    var today := LocalDate(2024, 9, 1);
    assert Filter([e], SameMonthIndex(today)) == [e];
    assert Filter([e], SameCalendarMonth(today)) == [];
  }
}

=== FILE: leave_form.dfy ===
/** The mark-leave form of the leave management page: the coupling between the
    "Use Compensatory Leave" checkbox and the compensatory-leave select, the leave
    request built on submit, and the reset after a successful submit. */
module LeaveForm {
  import opened Common
  import opened Records
  import opened CompLeaves

  datatype MarkLeaveForm = MarkLeaveForm(
    leaveDate: string,
    leaveType: LeaveType,
    reason: string,
    isCompensatory: bool,
    selectedCompLeaveId: string)

  /** The form's state when the page opens. */
  const InitialForm := MarkLeaveForm("", FULL_DAY, "", false, "")

  /** Body of the create-leave request. */
  datatype CreateLeaveRequest = CreateLeaveRequest(
    employeeId: string,
    leaveDate: string,
    leaveType: LeaveType,
    reason: string,
    isCompensatory: bool,
    compensatoryReason: Option<string>)

  /** The checkbox and the select are rendered only when some compensatory leave
      is available. */
  predicate ShowsCompensatoryControls(cls: seq<CompensatoryLeave>, now: int)
  {
    |AvailableLeaves(cls, now)| > 0
  }

  /** The checkbox's change handler: unticking also clears the selected leave. */
  function SetCompensatoryChecked(f: MarkLeaveForm, checked: bool): (r: MarkLeaveForm)
    ensures r.isCompensatory == checked
    ensures !checked ==> r.selectedCompLeaveId == ""
    ensures checked ==> r.selectedCompLeaveId == f.selectedCompLeaveId
    ensures r.leaveDate == f.leaveDate && r.leaveType == f.leaveType && r.reason == f.reason
  {
    var r := f.(isCompensatory := checked);
    if !checked then r.(selectedCompLeaveId := "") else r
  }

  /** The select's change handler. */
  function SelectCompLeave(f: MarkLeaveForm, id: string): (r: MarkLeaveForm)
    ensures r.selectedCompLeaveId == id && r.isCompensatory == f.isCompensatory
    ensures r.leaveDate == f.leaveDate && r.leaveType == f.leaveType && r.reason == f.reason
  {
    f.(selectedCompLeaveId := id)
  }

  /** Position of the first leave with the given id, or `|cls|` when none has it. */
  function FindIndex(cls: seq<CompensatoryLeave>, id: string): (k: nat)
    ensures k <= |cls|
    ensures k < |cls| ==> cls[k].id == id
    ensures forall j :: 0 <= j < k ==> cls[j].id != id
  {
    if |cls| == 0 then 0
    else if cls[0].id == id then 0
    else 1 + FindIndex(cls[1..], id)
  }

  /** `compensatoryLeaves.find(cl => cl.id === id)?.reason`: searched over all the
      employee's compensatory leaves, not only the available ones. */
  function FindReason(cls: seq<CompensatoryLeave>, id: string): (r: Option<string>)
    ensures r.None? <==> forall j :: 0 <= j < |cls| ==> cls[j].id != id
    ensures r.Some? ==>
      exists j :: 0 <= j < |cls| && cls[j].id == id && cls[j].reason == r.value
        && (forall i :: 0 <= i < j ==> cls[i].id != id)
  {
    var k := FindIndex(cls, id);
    if k < |cls| then Some(cls[k].reason) else None
  }

  /** The request `handleMarkLeave` sends for employee `employeeId`. */
  function MarkLeaveRequest(f: MarkLeaveForm, employeeId: string, cls: seq<CompensatoryLeave>): (req: CreateLeaveRequest)
    ensures req.isCompensatory <==> f.isCompensatory && f.selectedCompLeaveId != ""
    ensures req.isCompensatory ==> req.compensatoryReason == FindReason(cls, f.selectedCompLeaveId)
    ensures !req.isCompensatory ==> req.compensatoryReason == None
    ensures req.employeeId == employeeId && req.leaveDate == f.leaveDate
    ensures req.leaveType == f.leaveType && req.reason == f.reason
  {
    var compensatory := f.isCompensatory && f.selectedCompLeaveId != "";
    CreateLeaveRequest(employeeId, f.leaveDate, f.leaveType, f.reason, compensatory,
      if compensatory then FindReason(cls, f.selectedCompLeaveId) else None)
  }

  /** The form after a submit, and the request sent, if any. */
  datatype MarkLeaveStep = MarkLeaveStep(form: MarkLeaveForm, request: Option<CreateLeaveRequest>)

  /** The second half of `handleMarkLeave`, once the backend has answered: on
      success date, reason, checkbox and selection of the form as it is then are
      cleared and its leave type stays (every input stays enabled while the call
      is pending; only the submit button is disabled); on failure nothing
      changes. */
  function ReceiveMarked(current: MarkLeaveForm, created: bool): (r: MarkLeaveForm)
    ensures created ==> r == MarkLeaveForm("", current.leaveType, "", false, "")
    ensures !created ==> r == current
  {
    if created then current.(leaveDate := "", reason := "", isCompensatory := false, selectedCompLeaveId := "")
    else current
  }

  /** `handleMarkLeave` when nothing happens between sending and answering:
      nothing is sent without an employee id in the route; otherwise the request
      above is sent and its answer received as above. */
  function MarkLeave(f: MarkLeaveForm, routeId: string, cls: seq<CompensatoryLeave>, created: bool): (s: MarkLeaveStep)
    ensures routeId == "" ==> s.request == None && s.form == f
    ensures routeId != "" ==> s.request == Some(MarkLeaveRequest(f, routeId, cls))
    ensures routeId != "" && created ==>
      s.form.leaveDate == "" && s.form.reason == "" && !s.form.isCompensatory
      && s.form.selectedCompLeaveId == "" && s.form.leaveType == f.leaveType
    ensures !created ==> s.form == f
  {
    if routeId == "" then MarkLeaveStep(f, None)
    else MarkLeaveStep(ReceiveMarked(f, created), Some(MarkLeaveRequest(f, routeId, cls)))
  }

  /** A leave type chosen while the call is pending survives the success answer,
      while a date typed or a leave picked meanwhile is cleared, so the form no
      longer shows what was sent. */
  lemma MarkedAnswerActsOnCurrentForm(f: MarkLeaveForm, routeId: string, cls: seq<CompensatoryLeave>,
                                      t: LeaveType, date: string)
    requires routeId != "" && t != f.leaveType
    ensures var r := ReceiveMarked(f.(leaveType := t, leaveDate := date), true);
      r.leaveType == t && r.leaveDate == ""
      && r.leaveType != MarkLeaveRequest(f, routeId, cls).leaveType
  {
  }

  predicate UniqueIds(cls: seq<CompensatoryLeave>)
  {
    forall i, j :: 0 <= i < j < |cls| ==> cls[i].id != cls[j].id
  }

  /** Ticking the checkbox and picking an offered leave yields a compensatory
      request carrying that leave's reason. */
  lemma PickingOfferedLeaveCopiesReason(f: MarkLeaveForm, employeeId: string, cls: seq<CompensatoryLeave>, now: int, i: nat)
    requires UniqueIds(cls)
    requires i < |AvailableLeaves(cls, now)|
    requires AvailableLeaves(cls, now)[i].id != ""
    ensures var cl := AvailableLeaves(cls, now)[i];
      var req := MarkLeaveRequest(SelectCompLeave(SetCompensatoryChecked(f, true), cl.id), employeeId, cls);
      req.isCompensatory && req.compensatoryReason == Some(cl.reason)
  {
    var cl := AvailableLeaves(cls, now)[i];
    assert cl in cls;
    var j :| 0 <= j < |cls| && cls[j] == cl;
    var k := FindIndex(cls, cl.id);
    assert k <= j;
    assert k == j;
  }

  /** Unticking the checkbox always produces a non-compensatory request, whatever
      was selected before. */
  lemma UntickedIsNotCompensatory(f: MarkLeaveForm, employeeId: string, cls: seq<CompensatoryLeave>)
    ensures var req := MarkLeaveRequest(SetCompensatoryChecked(f, false), employeeId, cls);
      !req.isCompensatory && req.compensatoryReason == None
  {
  }
}

=== FILE: login.dfy ===
/** The two-step login page: an e-mail step that asks the backend to send a
    one-time code, and a code step whose input keeps at most six digits. Backend
    outcomes are parameters. */
module Login {
  import opened Common
  import opened Text

  datatype LoginStep = EmailStep | OtpStep

  datatype LoginPage = LoginPage(step: LoginStep, email: string, otp: string)

  /** What a successful verification returns and the auth store keeps. */
  datatype Session = Session(user: string, accessToken: string)

  const InitialPage := LoginPage(EmailStep, "", "")

  /** `value.replace(/\D/g, '').slice(0, 6)`: the first six digits typed, in
      order, everything else dropped. */
  function SanitizeOtp(raw: string): (r: string)
    ensures AllDigits(r)
    ensures |r| <= 6
    ensures |r| == if |DigitsOnly(raw)| < 6 then |DigitsOnly(raw)| else 6
    ensures r == DigitsOnly(raw)[..|r|]
    ensures Subsequence(r, raw)
  {
    var digits := DigitsOnly(raw);
    var r := Take(digits, 6);
    assert r == digits[..|r|];
    PrefixIsSubsequence(r, digits);
    SubsequenceTransitive(r, digits, raw);
    r
  }

  /** Text that is already a code of at most six digits passes unchanged, so
      sanitising twice is sanitising once. */
  lemma SanitizeKeepsCleanCode(raw: string)
    ensures AllDigits(raw) && |raw| <= 6 ==> SanitizeOtp(raw) == raw
    ensures SanitizeOtp(SanitizeOtp(raw)) == SanitizeOtp(raw)
  {
  }

  /** The code is at most six digits. */
  predicate CleanCode(p: LoginPage)
  {
    AllDigits(p.otp) && |p.otp| <= 6
  }

  /** Typing in the e-mail input changes the e-mail only: the step and the code
      stay. */
  function EditEmail(p: LoginPage, email: string): (r: LoginPage)
    ensures r.email == email && r.step == p.step && r.otp == p.otp
  {
    p.(email := email)
  }

  /** Typing in the code input. */
  function EditOtp(p: LoginPage, raw: string): (r: LoginPage)
    ensures CleanCode(r)
    ensures r.step == p.step && r.email == p.email
  {
    p.(otp := SanitizeOtp(raw))
  }

  /** The second half of `handleSendOtp`, once the backend has answered: the code
      step is entered only when it accepted; a failure leaves the page as it was.
      It acts on the page as it is when the answer arrives, since the e-mail input
      stays enabled while the call is pending. */
  function ReceiveOtpSent(p: LoginPage, ok: bool): (r: LoginPage)
    ensures ok ==> r.step == OtpStep
    ensures !ok ==> r == p
    ensures r.email == p.email && r.otp == p.otp
  {
    if ok then p.(step := OtpStep) else p
  }

  /** `handleSendOtp`, also bound to "Resend OTP", when nothing happens between
      sending and answering: the e-mail on the page is sent, and the answer is
      received as above. Returns the page and the e-mail sent. */
  function SendOtp(p: LoginPage, ok: bool): (r: (LoginPage, string))
    ensures r.1 == p.email
    ensures ok ==> r.0.step == OtpStep
    ensures !ok ==> r.0 == p
    ensures r.0.email == p.email && r.0.otp == p.otp
  {
    (ReceiveOtpSent(p, ok), p.email)
  }

  /** An e-mail edited while the code is being sent is the one the code step
      verifies, not the one the code went to. */
  lemma EmailEditedWhileSending(p: LoginPage, other: string, response: Option<Session>)
    requires other != p.email
    ensures var q := ReceiveOtpSent(EditEmail(p, other), true);
      q.step == OtpStep && Verify(q, response).email == other
      && Verify(q, response).email != SendOtp(p, true).1
  {
  }

  /** The Back button returns to the e-mail step and keeps what was typed. */
  function Back(p: LoginPage): (r: LoginPage)
    ensures r.step == EmailStep && r.email == p.email && r.otp == p.otp
  {
    p.(step := EmailStep)
  }

  /** The Verify button is disabled while loading and until six characters are in
      the code input. */
  function VerifyEnabled(p: LoginPage, loading: bool): (b: bool)
    ensures b <==> !loading && |p.otp| == 6
  {
    !loading && |p.otp| == 6
  }

  /** What `handleVerifyOtp` sends and where it leads. */
  datatype VerifyOutcome = VerifyOutcome(email: string, otp: string, session: Option<Session>, toDashboard: bool)

  /** `handleVerifyOtp`: the backend's answer (`None` on failure) is stored and
      the page moves to the dashboard only on success. */
  function Verify(p: LoginPage, response: Option<Session>): (o: VerifyOutcome)
    ensures o.email == p.email && o.otp == p.otp
    ensures o.toDashboard <==> response.Some?
    ensures o.session == response
  {
    VerifyOutcome(p.email, p.otp, response, response.Some?)
  }

  /** Every handler keeps the code clean, starting from the empty code. */
  lemma HandlersKeepCodeClean(p: LoginPage, email: string, raw: string, ok: bool)
    requires CleanCode(p)
    ensures CleanCode(InitialPage)
    ensures CleanCode(EditEmail(p, email)) && CleanCode(EditOtp(p, raw))
    ensures CleanCode(SendOtp(p, ok).0) && CleanCode(ReceiveOtpSent(p, ok)) && CleanCode(Back(p))
  {
  }

  /** On a page reached through the handlers, a code sent with the Verify button
      enabled is exactly six digits. */
  lemma EnabledVerifySendsSixDigits(p: LoginPage, response: Option<Session>)
    requires CleanCode(p)
    requires VerifyEnabled(p, false)
    ensures |Verify(p, response).otp| == 6 && AllDigits(Verify(p, response).otp)
  {
  }
}

=== FILE: payments.dfy ===
/** The payment list page's three cards: how many payments, their total and
    their average. */
module Payments {
  import opened Common
  import opened Records

  /** `totalPayments`: `Number(amount || 0)` summed. */
  function TotalAmount(ps: seq<Payment>): real
  {
    SumOf(ps, PaymentAmount)
  }

  /** The "Average Payment" card: no division on an empty list, which shows 0;
      otherwise the total shared equally over the payments. */
  function Average(ps: seq<Payment>): (a: real)
    ensures |ps| == 0 ==> a == 0.0
    ensures |ps| > 0 ==> a * |ps| as real == TotalAmount(ps)
  {
    if |ps| > 0 then TotalAmount(ps) / |ps| as real else 0.0
  }

  datatype Cards = Cards(count: nat, total: real, average: real)

  /** The stats row: the count card is the number of payments, and the average
      card times the count gives back the total card. */
  function PaymentCards(ps: seq<Payment>): (c: Cards)
    ensures c.count == |ps| && c.total == TotalAmount(ps)
    ensures c.average * c.count as real == c.total
  {
    Cards(|ps|, TotalAmount(ps), Average(ps))
  }

  /** The average lies between the smallest and the largest payment: when every
      amount is within `lo..hi`, so is the average. */
  lemma AverageWithinRange(ps: seq<Payment>, lo: real, hi: real)
    requires |ps| > 0
    requires forall i :: 0 <= i < |ps| ==> lo <= PaymentAmount(ps[i]) <= hi
    ensures lo <= Average(ps) <= hi
  {
    SumOfBetween(ps, PaymentAmount, lo, hi);
    var n := |ps| as real;
    assert Average(ps) * n == TotalAmount(ps);
    assert n * lo <= Average(ps) * n <= n * hi;
  }

  /** One more payment raises the total by its amount, or by nothing when it has none. */
  lemma TotalAddsPayment(ps: seq<Payment>, p: Payment)
    ensures TotalAmount(ps + [p]) == TotalAmount(ps) + OrZero(p.amount)
  {
    SumOfAppend(ps, [p], PaymentAmount);
    assert SumOf([p], PaymentAmount) == OrZero(p.amount) + SumOf([p][1..], PaymentAmount);
  }
}

=== FILE: project_detail.dfy ===
/** The project detail page: the financial summary over the project's work
    packages, payments and expenses, and the ten-per-page pagination of its three
    tables. */
module ProjectDetail {
  import opened Common
  import opened Records

  const ItemsPerPage: nat := 10

  /** The summary cards. */
  datatype Totals = Totals(workPackages: real, payments: real, expenses: real, pending: real, netProfit: real)

  /** Each total is `Number(x.amount || 0)` summed; pending is what the work
      packages are worth less payments and expenses; net profit is payments less
      expenses. */
  function ProjectTotals(wps: seq<WorkPackage>, ps: seq<Payment>, es: seq<Expense>): (t: Totals)
    ensures t.pending + t.payments + t.expenses == t.workPackages
    ensures t.netProfit + t.expenses == t.payments
    ensures |wps| == 0 && |ps| == 0 && |es| == 0 ==> t == Totals(0.0, 0.0, 0.0, 0.0, 0.0)
  {
    var w := SumOf(wps, WorkPackageAmount);
    var p := SumOf(ps, PaymentAmount);
    var e := SumOf(es, ExpenseAmount);
    Totals(w, p, e, w - p - e, p - e)
  }

  /** Adding a work package raises the work-package total and the pending amount
      by its amount; payments, expenses and net profit stay. */
  lemma WorkPackageShiftsTotals(wps: seq<WorkPackage>, ps: seq<Payment>, es: seq<Expense>, w: WorkPackage)
    ensures var before, after := ProjectTotals(wps, ps, es), ProjectTotals(wps + [w], ps, es);
      after.workPackages == before.workPackages + OrZero(w.amount)
      && after.pending == before.pending + OrZero(w.amount)
      && after.payments == before.payments && after.expenses == before.expenses
      && after.netProfit == before.netProfit
  {
    SumOfAppend(wps, [w], WorkPackageAmount);
    assert SumOf([w], WorkPackageAmount) == OrZero(w.amount) + SumOf([w][1..], WorkPackageAmount);
  }

  /** Recording a payment raises payments and net profit by its amount and lowers
      the pending amount by the same; nothing else moves. */
  lemma PaymentShiftsTotals(wps: seq<WorkPackage>, ps: seq<Payment>, es: seq<Expense>, p: Payment)
    ensures var before, after := ProjectTotals(wps, ps, es), ProjectTotals(wps, ps + [p], es);
      after.payments == before.payments + OrZero(p.amount)
      && after.netProfit == before.netProfit + OrZero(p.amount)
      && after.pending == before.pending - OrZero(p.amount)
      && after.workPackages == before.workPackages && after.expenses == before.expenses
  {
    SumOfAppend(ps, [p], PaymentAmount);
    assert SumOf([p], PaymentAmount) == OrZero(p.amount) + SumOf([p][1..], PaymentAmount);
  }

  /** Recording an expense lowers both net profit and the pending amount by its
      amount. */
  lemma ExpenseShiftsTotals(wps: seq<WorkPackage>, ps: seq<Payment>, es: seq<Expense>, e: Expense)
    ensures var before, after := ProjectTotals(wps, ps, es), ProjectTotals(wps, ps, es + [e]);
      after.expenses == before.expenses + OrZero(e.amount)
      && after.netProfit == before.netProfit - OrZero(e.amount)
      && after.pending == before.pending - OrZero(e.amount)
      && after.workPackages == before.workPackages && after.payments == before.payments
  {
    SumOfAppend(es, [e], ExpenseAmount);
    assert SumOf([e], ExpenseAmount) == OrZero(e.amount) + SumOf([e][1..], ExpenseAmount);
  }

  /** A `slice` bound: negative values count from the end, and everything is
      clamped to `0..n`. */
  function ClampIndex(i: int, n: nat): (k: nat)
    ensures k <= n
    ensures 0 <= i <= n ==> k == i
  {
    if i < 0 then (if n + i < 0 then 0 else n + i) else if i > n then n else i
  }

  /** `xs.slice(start, end)`. */
  function Slice<T>(xs: seq<T>, start: int, end: int): seq<T>
  {
    var s, e := ClampIndex(start, |xs|), ClampIndex(end, |xs|);
    if s < e then xs[s..e] else []
  }

  /** `paginateData`: the `page`-th block of ten (pages count from 1). */
  function Paginate<T>(xs: seq<T>, page: int): (r: seq<T>)
    ensures |r| <= ItemsPerPage
  {
    var start := (page - 1) * ItemsPerPage;
    Slice(xs, start, start + ItemsPerPage)
  }


  /** From page 1 on, a page is the block between its two clamped bounds. */
  lemma PageIsBlock<T>(xs: seq<T>, page: int)
    requires page >= 1
    ensures Min((page - 1) * ItemsPerPage, |xs|) <= Min(page * ItemsPerPage, |xs|)
    ensures Paginate(xs, page) == xs[Min((page - 1) * ItemsPerPage, |xs|)..Min(page * ItemsPerPage, |xs|)]
  {
  }

  /** `getTotalPages`: `Math.ceil(total / 10)`. */
  function TotalPages(total: nat): (n: nat)
    ensures n * ItemsPerPage >= total
    ensures n > 0 ==> (n - 1) * ItemsPerPage < total
  {
    (total + ItemsPerPage - 1) / ItemsPerPage
  }

  /** Pages `page`, `page + 1`, ... up to the last page, concatenated. */
  function PagesFrom<T>(xs: seq<T>, page: nat): seq<T>
    requires page >= 1
    decreases TotalPages(|xs|) + 1 - page
  {
    if page > TotalPages(|xs|) then [] else Paginate(xs, page) + PagesFrom(xs, page + 1)
  }

  /** The pages from `page` on hold exactly the items from that page's first
      position on. */
  lemma {:induction false} PagesFromIsSuffix<T>(xs: seq<T>, page: nat)
    requires page >= 1
    ensures PagesFrom(xs, page) == xs[Min((page - 1) * ItemsPerPage, |xs|)..]
    decreases TotalPages(|xs|) + 1 - page
  {
    if page > TotalPages(|xs|) {
      assert Min((page - 1) * ItemsPerPage, |xs|) == |xs|;
    } else {
      PageIsBlock(xs, page);
      PagesFromIsSuffix(xs, page + 1);
      var a, b := Min((page - 1) * ItemsPerPage, |xs|), Min(page * ItemsPerPage, |xs|);
      assert xs[a..b] + xs[b..] == xs[a..];
    }
  }

  /** Paging through every page shows every item once, in order. */
  lemma PagesCoverAll<T>(xs: seq<T>)
    ensures PagesFrom(xs, 1) == xs
  {
    PagesFromIsSuffix(xs, 1);
  }

  /** What `PaginationControls` renders. */
  datatype Controls = Controls(
    showingFrom: int,
    showingTo: int,
    totalItems: nat,
    totalPages: nat,
    previousDisabled: bool,
    nextDisabled: bool)

  /** `PaginationControls`: nothing for a single page; otherwise the "Showing a to
      b of n" line, the page count and the two buttons. */
  function PaginationControls(page: int, totalItems: nat): (c: Option<Controls>)
    ensures c.None? <==> totalItems <= ItemsPerPage
    ensures c.Some? ==> c.value.totalPages == TotalPages(totalItems) && c.value.totalItems == totalItems
    ensures c.Some? ==> (c.value.previousDisabled <==> page == 1)
    ensures c.Some? ==> (c.value.nextDisabled <==> page == TotalPages(totalItems))
  {
    var totalPages := TotalPages(totalItems);
    if totalPages <= 1 then None
    else
      Some(Controls((page - 1) * ItemsPerPage + 1, Min(page * ItemsPerPage, totalItems),
        totalItems, totalPages, page == 1, page == totalPages))
  }

  /** On any existing page, the "Showing a to b" line names the 1-based positions
      of exactly the items the table shows. */
  lemma ShowingMatchesTable<T>(xs: seq<T>, page: int)
    requires 1 <= page <= TotalPages(|xs|)
    requires |xs| > ItemsPerPage
    ensures var c := PaginationControls(page, |xs|).value;
      c.showingTo - c.showingFrom + 1 == |Paginate(xs, page)| > 0
      && Paginate(xs, page) == xs[c.showingFrom - 1..c.showingTo]
  {
    PageIsBlock(xs, page);
  }

  /** A click on Previous or Next; a disabled button does nothing. */
  function ClickPrevious(page: int, totalItems: nat): int
  {
    var c := PaginationControls(page, totalItems);
    if c.Some? && !c.value.previousDisabled then page - 1 else page
  }

  function ClickNext(page: int, totalItems: nat): int
  {
    var c := PaginationControls(page, totalItems);
    if c.Some? && !c.value.nextDisabled then page + 1 else page
  }

  /** As written, the page numbers survive a reload: after a delete shrinks a
      list below the current page, that page is shown empty. With more than one
      page left the line reads "Showing a to b" with `a > b`, Next stays enabled
      and leads further away; with a single page left there are no controls at
      all and the empty page cannot be left. */
  lemma OutOfRangePageAsWritten<T>(xs: seq<T>, page: int)
    requires page > TotalPages(|xs|)
    ensures Paginate(xs, page) == []
    ensures PaginationControls(page, |xs|).Some? ==>
      PaginationControls(page, |xs|).value.showingFrom > PaginationControls(page, |xs|).value.showingTo
      && !PaginationControls(page, |xs|).value.nextDisabled
      && ClickNext(page, |xs|) == page + 1
    ensures |xs| <= ItemsPerPage ==> ClickPrevious(page, |xs|) == page && ClickNext(page, |xs|) == page
  {
    var n := TotalPages(|xs|);
    assert (page - 1) * ItemsPerPage >= n * ItemsPerPage >= |xs|;
    assert ClampIndex((page - 1) * ItemsPerPage, |xs|) == |xs|;
  }

  /** The two concrete cases: the 21st item deleted from page 3, and the 11th
      from page 2. */
  lemma OutOfRangeExamples<T>(xs: seq<T>)
    requires |xs| == 10
    ensures PaginationControls(3, 20) == Some(Controls(21, 20, 20, 2, false, false))
    ensures ClickNext(3, 20) == 4
    ensures Paginate(xs, 2) == [] && PaginationControls(2, 10) == None
  {
    OutOfRangePageAsWritten(xs, 2);
  }

  /** Corrected: the page a list is shown on after it reloads, brought back to the
      last page when the list has shrunk below it (page 1 for an empty list). */
  function ReloadPage(page: int, totalItems: nat): (r: int)
    ensures 1 <= r
    ensures totalItems > 0 ==> r <= TotalPages(totalItems)
    ensures 1 <= page <= TotalPages(totalItems) ==> r == page
  {
    var n := TotalPages(totalItems);
    if page < 1 then 1
    else if page <= n then page
    else if n == 0 then 1
    else n
  }

  /** After a corrected reload of a non-empty list the table is never empty, the
      "Showing a to b" line names exactly its items, and the buttons keep to the
      range of pages. */
  lemma ReloadShowsItems<T>(xs: seq<T>, page: int)
    requires |xs| > 0
    ensures var q := ReloadPage(page, |xs|);
      1 <= q <= TotalPages(|xs|) && |Paginate(xs, q)| > 0
      && 1 <= ClickPrevious(q, |xs|) <= TotalPages(|xs|)
      && 1 <= ClickNext(q, |xs|) <= TotalPages(|xs|)
    ensures |xs| > ItemsPerPage ==> var q := ReloadPage(page, |xs|);
      var c := PaginationControls(q, |xs|).value;
      Paginate(xs, q) == xs[c.showingFrom - 1..c.showingTo]
  {
    var q := ReloadPage(page, |xs|);
    PageIsBlock(xs, q);
    NavigationStaysInRange(q, |xs|);
    if |xs| > ItemsPerPage {
      ShowingMatchesTable(xs, q);
    }
  }

  /** Starting on an existing page, the buttons never leave the range of pages. */
  lemma NavigationStaysInRange(page: int, totalItems: nat)
    requires 1 <= page <= TotalPages(totalItems)
    ensures 1 <= ClickPrevious(page, totalItems) <= TotalPages(totalItems)
    ensures 1 <= ClickNext(page, totalItems) <= TotalPages(totalItems)
    ensures page > 1 && totalItems > ItemsPerPage ==> ClickPrevious(page, totalItems) == page - 1
    ensures page < TotalPages(totalItems) ==> ClickNext(page, totalItems) == page + 1
  {
  }
}

=== FILE: projects.dfy ===
/** The project list page: the search over title and client, the status badge's
    colour, and the message shown when nothing is listed. */
module Projects {
  import opened Common
  import opened Text
  import opened Records

  /** The search box matches the title or, when present, the client details,
      ignoring case. */
  predicate Matches(p: Project, query: string)
  {
    IncludesIgnoringCase(p.title, query)
    || (p.clientDetails.Some? && IncludesIgnoringCase(p.clientDetails.value, query))
  }

  /** `filteredProjects`. */
  function Search(projects: seq<Project>, query: string): (r: seq<Project>)
    ensures forall i :: 0 <= i < |r| ==> r[i] in projects && Matches(r[i], query)
    ensures forall i :: 0 <= i < |projects| && Matches(projects[i], query) ==> projects[i] in r
    ensures Subsequence(r, projects)
  {
    Filter(projects, (p: Project) => Matches(p, query))
  }

  /** A project is listed exactly when its title or its client details hold the
      query, whatever the case of either. */
  lemma ListedIffMatches(projects: seq<Project>, query: string, p: Project)
    ensures p in Search(projects, query) <==>
      p in projects
      && (Contains(Lower(p.title), Lower(query))
          || (p.clientDetails.Some? && Contains(Lower(p.clientDetails.value), Lower(query))))
  {
    FilterContains(projects, (x: Project) => Matches(x, query), p);
  }

  /** An empty query lists every project, in order. */
  lemma EmptySearchShowsAll(projects: seq<Project>)
    ensures Search(projects, "") == projects
  {
    forall i | 0 <= i < |projects|
      ensures Matches(projects[i], "")
    {
      EmptyTermMatches(projects[i].title);
    }
    FilterAll(projects, (p: Project) => Matches(p, ""));
  }

  const DefaultColor := "bg-gray-100 text-gray-700"

  /** `getStatusColor`: ACTIVE, COMPLETED and ON_HOLD have their own colours;
      every other status, CANCELLED included, is grey. */
  function StatusColor(status: string): (c: string)
    ensures c == DefaultColor <==> status != "ACTIVE" && status != "COMPLETED" && status != "ON_HOLD"
  {
    match status
    case "ACTIVE" => "bg-green-100 text-green-700"
    case "COMPLETED" => "bg-blue-100 text-blue-700"
    case "ON_HOLD" => "bg-yellow-100 text-yellow-700"
    case _ => DefaultColor
  }

  /** The three named statuses are told apart, and CANCELLED looks like any
      unknown status. */
  lemma StatusColorsDistinct(other: string)
    requires other != "ACTIVE" && other != "COMPLETED" && other != "ON_HOLD"
    ensures StatusColor("ACTIVE") != StatusColor("COMPLETED")
    ensures StatusColor("ACTIVE") != StatusColor("ON_HOLD")
    ensures StatusColor("COMPLETED") != StatusColor("ON_HOLD")
    ensures StatusColor("CANCELLED") == StatusColor(other)
  {
  }

  /** What the page shows in place of the grid. */
  datatype EmptyState = EmptyState(message: string, showCreateLink: bool)

  const NoMatchMessage := "No projects found matching your search"
  const NoProjectsMessage := "No projects yet"

  /** The grid, or (`None` meaning the grid is shown) the empty state when nothing
      is listed: a typed query explains that the search found nothing, an empty
      one invites creating the first project. */
  function EmptyStateOf(projects: seq<Project>, query: string): (r: Option<EmptyState>)
    ensures r.None? <==> |Search(projects, query)| > 0
    ensures r.Some? ==> (r.value.showCreateLink <==> query == "")
    ensures r.Some? ==> r.value.message == (if query == "" then NoProjectsMessage else NoMatchMessage)
  {
    if |Search(projects, query)| > 0 then None
    else if query == "" then Some(EmptyState(NoProjectsMessage, true))
    else Some(EmptyState(NoMatchMessage, false))
  }

  /** Whenever the empty state shows, its content depends on the query's emptiness
      alone. */
  lemma EmptyStateDependsOnQuery(a: seq<Project>, b: seq<Project>, qa: string, qb: string)
    requires EmptyStateOf(a, qa).Some? && EmptyStateOf(b, qb).Some?
    requires (qa == "") == (qb == "")
    ensures EmptyStateOf(a, qa) == EmptyStateOf(b, qb)
  {
  }

  /** With no query, the invitation to create a first project shows exactly when
      there are no projects. */
  lemma NoQueryEmptyStateMeansNoProjects(projects: seq<Project>)
    ensures EmptyStateOf(projects, "").Some? <==> |projects| == 0
    ensures EmptyStateOf(projects, "").Some? ==> EmptyStateOf(projects, "").value.showCreateLink
  {
    EmptySearchShowsAll(projects);
  }
}

=== FILE: records.dfy ===
/** The records the console exchanges with its backend, one datatype per interface
    of the source's type declarations. Timestamps are integers, money is `real`, and
    nested relations (`employee?`, `project?`, `createdBy?`, ...) are left out.
    Amounts that the pages read through `Number(x || 0)` are optional. */
module Records {
  import opened Common

  datatype Account = Account(
    id: string,
    accountName: string,
    accountHolderName: string,
    bankName: Option<string>,
    accountNumber: Option<string>,
    ifscCode: Option<string>,
    accountType: Option<string>,
    openingBalance: real,
    currentBalance: Option<real>,
    isPrimary: bool,
    isActive: bool)

  datatype Project = Project(
    id: string,
    title: string,
    clientDetails: Option<string>,
    startDate: Option<int>,
    endDate: Option<int>,
    description: Option<string>,
    status: string,
    budget: Option<real>,
    createdById: string)

  /** `status` is one of PENDING, IN_PROGRESS, COMPLETED, ON_HOLD in the type
      declaration; the page switches on it as a string, so any string is admitted. */
  datatype WorkPackage = WorkPackage(
    id: string,
    workPackageName: string,
    amount: Option<real>,
    projectId: string,
    advanceAmount: Option<real>,
    status: string,
    description: Option<string>)

  datatype Payment = Payment(
    id: string,
    amount: Option<real>,
    accountId: string,
    projectId: string,
    paymentDate: int,
    description: Option<string>,
    transactionRef: Option<string>)

  /** Calendar fields of a date in the browser's time zone (`getFullYear()`,
      `getMonth()`, `getDate()`); `monthIndex` is 0 for January. */
  datatype LocalDate = LocalDate(year: int, monthIndex: int, day: int)

  datatype Expense = Expense(
    id: string,
    title: string,
    description: string,
    amount: Option<real>,
    expenseDate: LocalDate,
    reference: Option<string>,
    accountId: string,
    projectId: Option<string>,
    addedBy: string)

  /** `workingDays` is the comma-joined list of weekday numbers, Sunday = 0. */
  datatype Employee = Employee(
    id: string,
    name: string,
    email: string,
    phone: Option<string>,
    designation: Option<string>,
    joiningDate: string,
    monthlySalary: Option<real>,
    dailySalary: real,
    paidLeavesPerMonth: real,
    workingDays: string,
    isActive: bool)

  datatype LeaveType = FULL_DAY | HALF_DAY

  datatype Leave = Leave(
    id: string,
    employeeId: string,
    leaveDate: string,
    leaveType: LeaveType,
    reason: string,
    isCompensatory: bool,
    compensatoryReason: Option<string>)

  datatype CompensatoryLeave = CompensatoryLeave(
    id: string,
    employeeId: string,
    reason: string,
    grantedDate: int,
    expiryDate: int,
    isUsed: bool,
    usedDate: Option<int>)

  /** Day and leave counts and `totalSalary` come from the backend's salary engine. */
  datatype SalaryRecord = SalaryRecord(
    id: string,
    employeeId: string,
    month: int,
    year: int,
    workingDays: real,
    presentDays: real,
    halfDays: real,
    paidLeaves: real,
    unpaidLeaves: real,
    compensatoryLeaves: real,
    totalSalary: real,
    deductions: real,
    netSalary: Option<real>,
    isProcessed: bool,
    processedDate: Option<int>,
    notes: Option<string>)

  /** The backend's preview of a month's salary; every figure is opaque here. */
  datatype SalaryCalculation = SalaryCalculation(
    employeeId: string,
    month: int,
    year: int,
    workingDays: real,
    presentDays: real,
    halfDays: real,
    paidLeaves: real,
    unpaidLeaves: real,
    compensatoryLeaves: real,
    dailySalary: real,
    totalSalary: real,
    deductions: real,
    netSalary: real)

  datatype TransactionType = CREDIT | DEBIT
  {
    /** The string the backend sends and the filter select compares against. */
    function Name(): string
    {
      match this
      case CREDIT => "CREDIT"
      case DEBIT => "DEBIT"
    }
  }

  datatype TransactionLog = TransactionLog(
    id: string,
    transactionType: TransactionType,
    amount: real,
    accountId: string,
    accountName: string,
    performedBy: string,
    performedByEmail: string,
    action: string,
    description: Option<string>,
    referenceId: Option<string>,
    referenceType: Option<string>,
    projectId: Option<string>,
    projectTitle: Option<string>,
    createdAt: int)

  /** `Number(x.amount || 0)`, the amount every total on the pages adds up. */
  const WorkPackageAmount: WorkPackage -> real := (wp: WorkPackage) => OrZero(wp.amount)
  const PaymentAmount: Payment -> real := (p: Payment) => OrZero(p.amount)
  const ExpenseAmount: Expense -> real := (e: Expense) => OrZero(e.amount)
}

=== FILE: salary_processing.dfy ===
/** The salary processing page: choosing employee, month and year, asking the
    backend for a salary preview, processing it with extra deductions and notes,
    and the record list and yearly summary beside the form. Backend calls are
    parameters: the preview the backend returns (`None` when the call fails) and
    whether processing succeeded. */
module SalaryProcessing {
  import opened Common
  import opened Records

  datatype SalaryPage = SalaryPage(
    selectedEmployeeId: string,
    month: int,
    year: int,
    calculation: Option<SalaryCalculation>,
    deductions: NumberField,
    notes: string)

  /** The page on opening: current month (1-based) and year, nothing selected, and
      deductions `'0'`. `monthIndex` is `getMonth()`, 0 for January. */
  function InitialPage(monthIndex: int, currentYear: int): (p: SalaryPage)
    ensures p.month == monthIndex + 1 && p.year == currentYear
    ensures p.selectedEmployeeId == "" && p.calculation == None
    ensures p.deductions == Num(0.0) && p.notes == ""
  {
    SalaryPage("", monthIndex + 1, currentYear, None, Num(0.0), "")
  }

  /** The employee select offers the active employees only. */
  function ActiveEmployees(emps: seq<Employee>): (r: seq<Employee>)
    ensures forall i :: 0 <= i < |r| ==> r[i].isActive && r[i] in emps
    ensures forall i :: 0 <= i < |emps| && emps[i].isActive ==> emps[i] in r
    ensures Subsequence(r, emps)
  {
    Filter(emps, (e: Employee) => e.isActive)
  }

  /** Changing the employee drops the preview. */
  function SelectEmployee(p: SalaryPage, id: string): (r: SalaryPage)
    ensures r.selectedEmployeeId == id && r.calculation == None
    ensures r.month == p.month && r.year == p.year
    ensures r.deductions == p.deductions && r.notes == p.notes
  {
    p.(selectedEmployeeId := id, calculation := None)
  }

  /** Changing the month drops the preview. */
  function SelectMonth(p: SalaryPage, m: int): (r: SalaryPage)
    ensures r.month == m && r.calculation == None
    ensures r.selectedEmployeeId == p.selectedEmployeeId && r.year == p.year
    ensures r.deductions == p.deductions && r.notes == p.notes
  {
    p.(month := m, calculation := None)
  }

  /** Changing the year drops the preview. */
  function SelectYear(p: SalaryPage, y: int): (r: SalaryPage)
    ensures r.year == y && r.calculation == None
    ensures r.selectedEmployeeId == p.selectedEmployeeId && r.month == p.month
    ensures r.deductions == p.deductions && r.notes == p.notes
  {
    p.(year := y, calculation := None)
  }

  /** Typing in the deductions input changes the deductions only; the preview and
      the selection stay. */
  function EditDeductions(p: SalaryPage, v: NumberField): (r: SalaryPage)
    ensures r.deductions == v && r.notes == p.notes && r.calculation == p.calculation
    ensures r.selectedEmployeeId == p.selectedEmployeeId && r.month == p.month && r.year == p.year
  {
    p.(deductions := v)
  }

  /** Typing in the notes input changes the notes only; the preview and the
      selection stay. */
  function EditNotes(p: SalaryPage, v: string): (r: SalaryPage)
    ensures r.notes == v && r.deductions == p.deductions && r.calculation == p.calculation
    ensures r.selectedEmployeeId == p.selectedEmployeeId && r.month == p.month && r.year == p.year
  {
    p.(notes := v)
  }

  /** The Calculate button is disabled while loading or with no employee chosen. */
  function CalculateEnabled(p: SalaryPage, loading: bool): (b: bool)
    ensures b <==> !loading && p.selectedEmployeeId != ""
  {
    !loading && p.selectedEmployeeId != ""
  }

  datatype CalculateRequest = CalculateRequest(employeeId: string, month: int, year: int)

  datatype ProcessSalaryRequest = ProcessSalaryRequest(
    employeeId: string,
    month: int,
    year: int,
    deductions: real,
    notes: Option<string>)

  /** A page after a handler has run, and the request it sent, if any. */
  datatype Step<+Req> = Step(page: SalaryPage, request: Option<Req>)

  /** The first half of `handleCalculate`, up to the `await`: the request it sends,
      none without an employee. The page itself does not change until the answer
      arrives. */
  function CalculateRequestOf(p: SalaryPage): (r: Option<CalculateRequest>)
    ensures r.None? <==> p.selectedEmployeeId == ""
    ensures r.Some? ==>
      r.value.employeeId == p.selectedEmployeeId && r.value.month == p.month && r.value.year == p.year
  {
    if p.selectedEmployeeId == "" then None
    else Some(CalculateRequest(p.selectedEmployeeId, p.month, p.year))
  }

  /** The selection a request was made for is still the selection on the page. */
  predicate StillSelected(p: SalaryPage, req: CalculateRequest)
  {
    p.selectedEmployeeId == req.employeeId && p.month == req.month && p.year == req.year
  }

  /** The second half of `handleCalculate` as written: when the answer arrives, its
      state setters act on the page as it is then, whatever was selected in the
      meantime (the selects stay enabled while the call is pending). */
  function ReceiveCalculationAsWritten(p: SalaryPage, response: Option<SalaryCalculation>): (r: SalaryPage)
    ensures r.calculation == response
    ensures r.selectedEmployeeId == p.selectedEmployeeId && r.month == p.month && r.year == p.year
    ensures response.Some? ==> r.deductions == Num(0.0) && r.notes == ""
    ensures response.None? ==> r.deductions == p.deductions && r.notes == p.notes
  {
    match response
    case Some(c) => p.(calculation := Some(c), deductions := Num(0.0), notes := "")
    case None => p.(calculation := None)
  }

  /** The second half of `handleCalculate`, corrected: an answer to a request for a
      selection that is no longer current is dropped; otherwise it is applied as
      written. The preview is then always about the current selection. */
  function ReceiveCalculation(p: SalaryPage, req: CalculateRequest, response: Option<SalaryCalculation>): (r: SalaryPage)
    ensures StillSelected(p, req) ==> r.calculation == response
    ensures !StillSelected(p, req) ==> r == p
    ensures r.selectedEmployeeId == p.selectedEmployeeId && r.month == p.month && r.year == p.year
    ensures Coherent(p) && Answers(response, req) ==> Coherent(r)
  {
    if StillSelected(p, req) then ReceiveCalculationAsWritten(p, response) else p
  }

  /** `handleCalculate` when nothing happens between sending and answering:
      refused without an employee; otherwise the preview replaces the old one and
      resets deductions and notes, or, if the call fails, the preview is dropped. */
  function Calculate(p: SalaryPage, response: Option<SalaryCalculation>): (s: Step<CalculateRequest>)
    ensures p.selectedEmployeeId == "" ==> s.request == None && s.page == p
    ensures p.selectedEmployeeId != "" ==>
      s.request == Some(CalculateRequest(p.selectedEmployeeId, p.month, p.year))
      && s.page.calculation == response
      && s.page.selectedEmployeeId == p.selectedEmployeeId
      && s.page.month == p.month && s.page.year == p.year
    ensures p.selectedEmployeeId != "" && response.Some? ==>
      s.page.deductions == Num(0.0) && s.page.notes == ""
    ensures response.None? ==> s.page.deductions == p.deductions && s.page.notes == p.notes
  {
    match CalculateRequestOf(p)
    case None => Step(p, None)
    case Some(req) => Step(ReceiveCalculation(p, req, response), Some(req))
  }

  /** The first half of `handleProcess`, up to the `await`: refused without an
      employee or without a preview; otherwise the request carries
      `Number(deductions) || 0` and `notes || undefined`. */
  function ProcessRequestOf(p: SalaryPage): (r: Option<ProcessSalaryRequest>)
    ensures r.Some? <==> p.selectedEmployeeId != "" && p.calculation.Some?
    ensures r.Some? ==>
      r.value.employeeId == p.selectedEmployeeId
      && r.value.month == p.month && r.value.year == p.year
      && r.value.deductions == FieldValue(p.deductions)
      && (r.value.notes == None <==> p.notes == "")
      && (r.value.notes.Some? ==> r.value.notes.value == p.notes)
  {
    if p.selectedEmployeeId == "" || p.calculation.None? then None
    else Some(ProcessSalaryRequest(p.selectedEmployeeId, p.month, p.year,
      FieldValue(p.deductions), if p.notes == "" then None else Some(p.notes)))
  }

  /** The second half of `handleProcess`: on success the employee, preview,
      deductions and notes of the page as it is when the answer arrives are
      reset, and its month and year stay (the selects and Calculate stay enabled
      while the call is pending); on failure nothing changes. */
  function ReceiveProcessed(p: SalaryPage, ok: bool): (r: SalaryPage)
    ensures ok ==> r == SalaryPage("", p.month, p.year, None, Num(0.0), "")
    ensures !ok ==> r == p
  {
    if ok then p.(selectedEmployeeId := "", calculation := None, deductions := Num(0.0), notes := "")
    else p
  }

  /** `handleProcess` when nothing happens between sending and answering. After
      success everything but month and year is reset; after failure nothing
      changes. */
  function Process(p: SalaryPage, ok: bool): (s: Step<ProcessSalaryRequest>)
    ensures s.request.Some? <==> p.selectedEmployeeId != "" && p.calculation.Some?
    ensures s.request.None? ==> s.page == p
    ensures s.request.Some? ==>
      s.request.value.employeeId == p.selectedEmployeeId
      && s.request.value.month == p.month && s.request.value.year == p.year
      && s.request.value.deductions == FieldValue(p.deductions)
      && (s.request.value.notes == None <==> p.notes == "")
      && (s.request.value.notes.Some? ==> s.request.value.notes.value == p.notes)
    ensures s.request.Some? && ok ==>
      s.page == SalaryPage("", p.month, p.year, None, Num(0.0), "")
    ensures !ok ==> s.page == p
  {
    match ProcessRequestOf(p)
    case None => Step(p, None)
    case Some(req) => Step(ReceiveProcessed(p, ok), Some(req))
  }

  /** A successful answer clears whatever was selected and previewed while the
      call was pending, and shows the month and year chosen meanwhile rather than
      the ones processed. */
  lemma ProcessAnswerActsOnCurrentPage(p: SalaryPage, b: string, m: int, c: SalaryCalculation)
    requires ProcessRequestOf(p).Some?
    ensures var q := ReceiveCalculationAsWritten(SelectEmployee(SelectMonth(p, m), b), Some(c));
      var r := ReceiveProcessed(q, true);
      r.month == m && r.selectedEmployeeId == "" && r.calculation == None
      && ProcessRequestOf(p).value.month == p.month
  {
  }

  /** The net salary shown under the preview: `totalSalary - Number(deductions || 0)`,
      and 0 without a preview. */
  function NetSalary(p: SalaryPage): (n: real)
    ensures p.calculation.None? ==> n == 0.0
    ensures p.calculation.Some? ==> n + FieldValue(p.deductions) == p.calculation.value.totalSalary
  {
    if p.calculation.Some? then p.calculation.value.totalSalary - FieldValue(p.deductions) else 0.0
  }

  /** The preview shown belongs to the chosen employee, month and year. */
  predicate Coherent(p: SalaryPage)
  {
    p.calculation.Some? ==>
      p.calculation.value.employeeId == p.selectedEmployeeId
      && p.calculation.value.month == p.month && p.calculation.value.year == p.year
  }

  /** The backend's preview answers the request it was given. */
  predicate Answers(response: Option<SalaryCalculation>, req: CalculateRequest)
  {
    response.Some? ==>
      response.value.employeeId == req.employeeId
      && response.value.month == req.month && response.value.year == req.year
  }

  /** Every handler keeps the preview coherent with the selection, provided the
      backend's preview answers the request it was sent and the calculation's
      answer is received as corrected (see `ReceiveCalculation`). */
  lemma HandlersKeepCoherent(p: SalaryPage, id: string, m: int, y: int, v: NumberField, n: string,
                             response: Option<SalaryCalculation>, ok: bool)
    requires Coherent(p)
    requires p.selectedEmployeeId != "" ==>
      Answers(response, CalculateRequest(p.selectedEmployeeId, p.month, p.year))
    ensures Coherent(SelectEmployee(p, id)) && Coherent(SelectMonth(p, m)) && Coherent(SelectYear(p, y))
    ensures Coherent(EditDeductions(p, v)) && Coherent(EditNotes(p, n))
    ensures Coherent(Calculate(p, response).page)
    ensures Coherent(Process(p, ok).page) && Coherent(ReceiveProcessed(p, ok))
  {
  }

  /** As written, an answer that arrives after the user picked another employee
      installs the first employee's preview beside the second one's name:
      Process then sends the second employee while showing the first one's
      salary. */
  lemma StalePreviewAsWritten(p: SalaryPage, b: string, c: SalaryCalculation, ok: bool)
    requires p.selectedEmployeeId != "" && b != "" && b != p.selectedEmployeeId
    requires Answers(Some(c), CalculateRequestOf(p).value)
    ensures var q := ReceiveCalculationAsWritten(SelectEmployee(p, b), Some(c));
      !Coherent(q)
      && Process(q, ok).request.Some?
      && Process(q, ok).request.value.employeeId == b
      && NetSalary(q) == c.totalSalary
  {
  }

  /** Corrected: whatever the user selects while the call is pending, receiving
      the answer leaves a coherent page; the stale answer of the scenario above
      is dropped. */
  lemma StalePreviewDropped(p: SalaryPage, b: string, c: SalaryCalculation)
    requires Coherent(p)
    requires p.selectedEmployeeId != "" && b != p.selectedEmployeeId
    requires Answers(Some(c), CalculateRequestOf(p).value)
    ensures var q := SelectEmployee(p, b);
      ReceiveCalculation(q, CalculateRequestOf(p).value, Some(c)) == q
      && Coherent(ReceiveCalculation(q, CalculateRequestOf(p).value, Some(c)))
  {
  }

  /** On a coherent page, processing saves the month that was previewed, and the
      net salary shown is the preview's total less the deductions sent. */
  lemma ProcessMatchesPreview(p: SalaryPage, ok: bool)
    requires Coherent(p)
    requires Process(p, ok).request.Some?
    ensures var req := Process(p, ok).request.value;
      req.employeeId == p.calculation.value.employeeId
      && req.month == p.calculation.value.month && req.year == p.calculation.value.year
      && NetSalary(p) == p.calculation.value.totalSalary - req.deductions
  {
  }

  /** A fresh page has no preview and so cannot be processed until Calculate
      succeeds. */
  lemma NoProcessBeforeCalculate(monthIndex: int, currentYear: int, id: string, ok: bool)
    ensures Process(SelectEmployee(InitialPage(monthIndex, currentYear), id), ok).request == None
  {
  }

  /** `filteredRecords`: the records of the selected month and year. */
  function FilteredRecords(records: seq<SalaryRecord>, month: int, year: int): (r: seq<SalaryRecord>)
    ensures forall i :: 0 <= i < |r| ==> r[i].month == month && r[i].year == year && r[i] in records
    ensures forall i :: 0 <= i < |records| && records[i].month == month && records[i].year == year ==>
      records[i] in r
    ensures Subsequence(r, records)
  {
    Filter(records, (rec: SalaryRecord) => rec.month == month && rec.year == year)
  }

  function InYear(year: int): SalaryRecord -> bool
  {
    (r: SalaryRecord) => r.year == year
  }

  const IsProcessed: SalaryRecord -> bool := (r: SalaryRecord) => r.isProcessed

  function ProcessedInYear(year: int): SalaryRecord -> bool
  {
    (r: SalaryRecord) => r.year == year && r.isProcessed
  }

  /** The "Total Records" card: the records of the year. */
  function YearRecords(records: seq<SalaryRecord>, year: int): (r: seq<SalaryRecord>)
    ensures forall i :: 0 <= i < |r| ==> r[i].year == year && r[i] in records
    ensures forall i :: 0 <= i < |records| && records[i].year == year ==> records[i] in r
    ensures Subsequence(r, records)
  {
    Filter(records, InYear(year))
  }

  /** The "Processed" card: the year's processed records. */
  function ProcessedYearRecords(records: seq<SalaryRecord>, year: int): (r: seq<SalaryRecord>)
    ensures forall i :: 0 <= i < |r| ==> r[i].year == year && r[i].isProcessed && r[i] in records
    ensures forall i :: 0 <= i < |records| && records[i].year == year && records[i].isProcessed ==>
      records[i] in r
    ensures Subsequence(r, records)
  {
    Filter(records, ProcessedInYear(year))
  }

  /** `Number(r.netSalary || 0)`. */
  const Net: SalaryRecord -> real := (r: SalaryRecord) => OrZero(r.netSalary)

  const IsUnprocessed: SalaryRecord -> bool := (r: SalaryRecord) => !r.isProcessed

  /** The "Total Payout" card: `Number(r.netSalary || 0)` summed over the year's
      processed records. */
  function YearPayout(records: seq<SalaryRecord>, year: int): (total: real)
    ensures (forall i :: 0 <= i < |records| ==> !(records[i].year == year && records[i].isProcessed))
      ==> total == 0.0
  {
    FilterKeepsAllOrNone(records, ProcessedInYear(year));
    SumOf(ProcessedYearRecords(records, year), Net)
  }

  /** The card reads 0 with no records, and one more record adds its net salary
      exactly when it belongs to the year and is processed. */
  lemma YearPayoutAppend(records: seq<SalaryRecord>, r: SalaryRecord, year: int)
    ensures YearPayout([], year) == 0.0
    ensures YearPayout(records + [r], year)
      == YearPayout(records, year) + (if r.year == year && r.isProcessed then Net(r) else 0.0)
  {
    SumOfFilterAppend(records, r, ProcessedInYear(year), Net);
  }

  /** The processed records of a year are exactly the year's records that are
      processed. */
  lemma ProcessedOfYear(records: seq<SalaryRecord>, year: int)
    ensures ProcessedYearRecords(records, year) == Filter(YearRecords(records, year), IsProcessed)
  {
    FilterCompose(records, InYear(year), IsProcessed, ProcessedInYear(year));
  }

  /** The "Processed" card never exceeds the yearly record count. */
  lemma ProcessedCountBounded(records: seq<SalaryRecord>, year: int)
    ensures |ProcessedYearRecords(records, year)| <= |YearRecords(records, year)|
  {
    FilterMonotone(records, InYear(year), ProcessedInYear(year));
  }

  /** The payout and the net salaries still unprocessed in the year together make
      the year's whole net salary. */
  lemma YearPayoutSplit(records: seq<SalaryRecord>, year: int)
    ensures YearPayout(records, year) + SumOf(Filter(YearRecords(records, year), IsUnprocessed), Net)
      == SumOf(YearRecords(records, year), Net)
  {
    ProcessedOfYear(records, year);
    SumOfFilterSplit(YearRecords(records, year), IsProcessed, IsUnprocessed, Net);
  }

  /** With non-negative net salaries the payout is non-negative and at most the
      sum of net salaries over all the year's records. */
  lemma YearPayoutBounds(records: seq<SalaryRecord>, year: int)
    requires forall i :: 0 <= i < |records| ==> Net(records[i]) >= 0.0
    ensures 0.0 <= YearPayout(records, year)
    ensures YearPayout(records, year) <= SumOf(YearRecords(records, year), Net)
  {
    var ys := YearRecords(records, year);
    assert forall i :: 0 <= i < |ys| ==> Net(ys[i]) >= 0.0;
    ProcessedOfYear(records, year);
    SumOfFilterBounds(ys, IsProcessed, Net);
  }

  /** `getMonthName`: `months[m - 1]`, undefined outside 1..12. */
  function LongMonthName(m: int): (r: Option<string>)
    ensures r.Some? <==> 1 <= m <= 12
  {
    var months := ["January", "February", "March", "April", "May", "June",
      "July", "August", "September", "October", "November", "December"];
    if 1 <= m <= 12 then Some(months[m - 1]) else None
  }

  /** The month select offers 1..12. */
  const MonthOptions: seq<int> := [1, 2, 3, 4, 5, 6, 7, 8, 9, 10, 11, 12]

  /** Every month offered has a name. */
  lemma MonthOptionsNamed()
    ensures forall i :: 0 <= i < |MonthOptions| ==> LongMonthName(MonthOptions[i]).Some?
  {
  }

  /** The year select: two years either side of the current one. */
  function YearOptions(currentYear: int): (r: seq<int>)
    ensures |r| == 5
    ensures forall i :: 0 <= i < 5 ==> r[i] == currentYear - 2 + i
    ensures currentYear in r
  {
    var r := seq(5, i => currentYear - 2 + i);
    assert r[2] == currentYear;
    r
  }
}

=== FILE: text.dfy ===
/** The string operations the pages call: ASCII `toLowerCase`, `includes`,
    `join`, `split`, the first-match `replace`, the digit filter `replace(/\D/g, '')`,
    `slice` from either end, and `Number` applied to a string of decimal digits. */
module Text {
  import opened Common

  /** ASCII `toLowerCase` of one character; other characters are kept. */
  function LowerChar(c: char): char
  {
    if 'A' <= c <= 'Z' then (c as int + 32) as char else c
  }

  /** ASCII `toLowerCase`. */
  function Lower(s: string): string
  {
    seq(|s|, i requires 0 <= i < |s| => LowerChar(s[i]))
  }

  /** `hay.includes(needle)`: `needle` occurs in `hay` at some position. */
  predicate Contains(hay: string, needle: string)
    decreases |hay|
  {
    if |needle| > |hay| then false
    else if hay[..|needle|] == needle then true
    else |hay| > 0 && Contains(hay[1..], needle)
  }

  /** `hay.toLowerCase().includes(term.toLowerCase())`. */
  predicate IncludesIgnoringCase(hay: string, term: string)
  {
    Contains(Lower(hay), Lower(term))
  }

  /** `needle` occurs in `hay` starting at position `i`. */
  predicate OccursAt(hay: string, needle: string, i: int)
  {
    0 <= i && i + |needle| <= |hay| && hay[i..i + |needle|] == needle
  }

  /** `Contains` is the positional substring relation. */
  lemma {:induction false} ContainsIffOccurs(hay: string, needle: string)
    ensures Contains(hay, needle) <==> exists i :: OccursAt(hay, needle, i)
    decreases |hay|
  {
    if |needle| <= |hay| && hay[..|needle|] == needle {
      assert OccursAt(hay, needle, 0);
    } else if |needle| <= |hay| && |hay| > 0 {
      ContainsIffOccurs(hay[1..], needle);
      if Contains(hay[1..], needle) {
        var j :| OccursAt(hay[1..], needle, j);
        assert hay[1..][j..j + |needle|] == hay[j + 1..j + 1 + |needle|];
        assert OccursAt(hay, needle, j + 1);
      }
      if exists i :: OccursAt(hay, needle, i) {
        var i :| OccursAt(hay, needle, i);
        assert i != 0;
        assert hay[1..][i - 1..i - 1 + |needle|] == hay[i..i + |needle|];
        assert OccursAt(hay[1..], needle, i - 1);
      }
    }
  }

  /** The empty search term is found in every text. */
  lemma EmptyTermMatches(hay: string)
    ensures IncludesIgnoringCase(hay, "")
  {
    assert Lower("") == "";
    assert Lower(hay)[..0] == "";
  }

  /** `xs.join(sep)`. */
  function Join(xs: seq<string>, sep: string): string
  {
    if |xs| == 0 then ""
    else if |xs| == 1 then xs[0]
    else xs[0] + sep + Join(xs[1..], sep)
  }

  /** A character absent from every piece and from the separator is absent from
      the joined text. */
  lemma {:induction false} JoinExcludes(xs: seq<string>, sep: string, c: char)
    requires forall i :: 0 <= i < |xs| ==> c !in xs[i]
    requires c !in sep
    ensures c !in Join(xs, sep)
  {
    if |xs| > 1 {
      JoinExcludes(xs[1..], sep, c);
    }
  }

  /** `s.split(sep)` for a one-character separator: never empty, and the empty
      string splits into one empty piece. */
  function Split(s: string, sep: char): (r: seq<string>)
    ensures |r| >= 1
    ensures forall i :: 0 <= i < |r| ==> sep !in r[i]
  {
    if |s| == 0 then [""]
    else
      var rest := Split(s[1..], sep);
      if s[0] == sep then [""] + rest
      else [[s[0]] + rest[0]] + rest[1..]
  }

  /** A text free of the separator prefixes the first piece of what follows. */
  lemma {:induction false} SplitPrefix(a: string, t: string, sep: char)
    requires sep !in a
    ensures Split(a + t, sep) == [a + Split(t, sep)[0]] + Split(t, sep)[1..]
    decreases |a|
  {
    if |a| == 0 {
      assert a + t == t;
      var r := Split(t, sep);
      assert a + r[0] == r[0];
      assert [r[0]] + r[1..] == r;
    } else {
      assert (a + t)[1..] == a[1..] + t;
      SplitPrefix(a[1..], t, sep);
      assert [a[0]] + (a[1..] + Split(t, sep)[0]) == a + Split(t, sep)[0];
    }
  }

  /** `split` undoes `join` when no piece contains the separator and there is at
      least one piece. */
  lemma {:induction false} SplitJoin(xs: seq<string>, sep: char)
    requires |xs| >= 1
    requires forall i :: 0 <= i < |xs| ==> sep !in xs[i]
    ensures Split(Join(xs, [sep]), sep) == xs
  {
    if |xs| == 1 {
      SplitPrefix(xs[0], "", sep);
      assert xs[0] + "" == xs[0];
    } else {
      SplitJoin(xs[1..], sep);
      var tail := Join(xs[1..], [sep]);
      assert Join(xs, [sep]) == xs[0] + ([sep] + tail);
      SplitPrefix(xs[0], [sep] + tail, sep);
      assert ([sep] + tail)[1..] == tail;
      assert xs[0] + "" == xs[0];
      assert Split(Join(xs, [sep]), sep) == [xs[0]] + xs[1..];
    }
  }

  /** Text without the separator splits into itself alone. */
  lemma SplitWithoutSeparator(s: string, sep: char)
    ensures sep !in s ==> Split(s, sep) == [s]
  {
    if sep !in s {
      SplitPrefix(s, "", sep);
      assert s + "" == s;
    }
  }

  /** Position of the first `c` in `s`, or `|s|` when there is none. */
  function IndexOf(s: string, c: char): (r: nat)
    ensures r <= |s|
    ensures r < |s| ==> s[r] == c
    ensures c !in s[..r]
    ensures r == |s| <==> c !in s
  {
    if |s| == 0 then 0
    else if s[0] == c then 0
    else
      var k := IndexOf(s[1..], c);
      assert s[..k + 1] == [s[0]] + s[1..][..k];
      k + 1
  }

  /** `s.replace(from, to)` with a one-character string pattern: only the first
      occurrence is replaced. */
  function ReplaceFirst(s: string, from: char, to: char): (r: string)
    ensures |r| == |s|
    ensures from !in s ==> r == s
    ensures IndexOf(s, from) < |s| ==>
      r == s[..IndexOf(s, from)] + [to] + s[IndexOf(s, from) + 1..]
  {
    if |s| == 0 then s
    else if s[0] == from then [to] + s[1..]
    else
      var rest := ReplaceFirst(s[1..], from, to);
      var k := IndexOf(s[1..], from);
      assert s[..k + 1] == [s[0]] + s[1..][..k];
      assert k < |s| - 1 ==> s[k + 2..] == s[1..][k + 1..];
      [s[0]] + rest
  }

  predicate IsDigit(c: char)
  {
    '0' <= c <= '9'
  }

  predicate AllDigits(s: string)
  {
    forall i :: 0 <= i < |s| ==> IsDigit(s[i])
  }

  /** `s.replace(/\D/g, '')`: keeps the ASCII digits, in order. */
  function DigitsOnly(s: string): (r: string)
    ensures AllDigits(r)
    ensures Subsequence(r, s)
    ensures AllDigits(s) ==> r == s
  {
    if |s| == 0 then ""
    else if IsDigit(s[0]) then [s[0]] + DigitsOnly(s[1..])
    else DigitsOnly(s[1..])
  }

  /** `s.slice(0, n)` for `n >= 0`. */
  function Take(s: string, n: nat): string
  {
    if n <= |s| then s[..n] else s
  }

  /** `s.slice(-n)` for `n > 0`: the last `n` characters, or all of `s` when shorter. */
  function TakeLast(s: string, n: nat): string
  {
    if n <= |s| then s[|s| - n..] else s
  }

  /** Value of a decimal digit. */
  function DigitValue(c: char): int
    requires IsDigit(c)
  {
    c as int - '0' as int
  }

  /** `Number(s)` on the strings the model distinguishes: the empty string is 0, a
      string of decimal digits is its value, anything else is NaN (`None`). */
  function NumberOf(s: string): Option<int>
  {
    if !AllDigits(s) then None else Some(DecimalValue(s))
  }

  function DecimalValue(s: string): nat
    requires AllDigits(s)
  {
    if |s| == 0 then 0 else 10 * DecimalValue(s[..|s| - 1]) + DigitValue(s[|s| - 1])
  }
}

=== FILE: transaction_logs.dfy ===
/** The transaction log page: seven optional filters applied one after another to
    the loaded logs, the reset button, and the CSV export of the filtered logs.
    Date inputs are held as the instants they parse to (`None` for an empty input);
    the locale texts of dates and amounts in the export are parameters. */
module TransactionLogs {
  import opened Common
  import opened Text
  import opened Records

  datatype Filters = Filters(
    transactionType: string,
    accountId: string,
    action: string,
    projectId: string,
    startDate: Option<int>,
    endDate: Option<int>,
    searchTerm: string)

  /** The search box: description, account name, performer e-mail or project
      title, ignoring case; absent optional fields never match. */
  predicate SearchHit(l: TransactionLog, term: string)
  {
    (l.description.Some? && IncludesIgnoringCase(l.description.value, term))
    || IncludesIgnoringCase(l.accountName, term)
    || IncludesIgnoringCase(l.performedByEmail, term)
    || (l.projectTitle.Some? && IncludesIgnoringCase(l.projectTitle.value, term))
  }

  /** Reference definition: a log is listed exactly when it satisfies every filter
      that is set; a blank filter admits everything. */
  predicate Matches(f: Filters, l: TransactionLog)
  {
    (f.transactionType == "" || l.transactionType.Name() == f.transactionType)
    && (f.accountId == "" || l.accountId == f.accountId)
    && (f.action == "" || IncludesIgnoringCase(l.action, f.action))
    && (f.projectId == "" || l.projectId == Some(f.projectId))
    && (f.startDate.None? || l.createdAt >= f.startDate.value)
    && (f.endDate.None? || l.createdAt <= f.endDate.value)
    && (f.searchTerm == "" || SearchHit(l, f.searchTerm))
  }

  function MatchesFn(f: Filters): TransactionLog -> bool
  {
    (l: TransactionLog) => Matches(f, l)
  }

  /** Whether the `k`-th filter of `applyFilters` is set, in the order the page
      applies them: type, account, action, project, start date, end date, search. */
  predicate Active(f: Filters, k: nat)
  {
    if k == 0 then f.transactionType != ""
    else if k == 1 then f.accountId != ""
    else if k == 2 then f.action != ""
    else if k == 3 then f.projectId != ""
    else if k == 4 then f.startDate.Some?
    else if k == 5 then f.endDate.Some?
    else if k == 6 then f.searchTerm != ""
    else false
  }

  /** The test the `k`-th filter applies when it is set. */
  predicate Test(f: Filters, k: nat, l: TransactionLog)
  {
    if k == 0 then l.transactionType.Name() == f.transactionType
    else if k == 1 then l.accountId == f.accountId
    else if k == 2 then IncludesIgnoringCase(l.action, f.action)
    else if k == 3 then l.projectId == Some(f.projectId)
    else if k == 4 then f.startDate.Some? && l.createdAt >= f.startDate.value
    else if k == 5 then f.endDate.Some? && l.createdAt <= f.endDate.value
    else if k == 6 then SearchHit(l, f.searchTerm)
    else true
  }

  function TestFn(f: Filters, k: nat): TransactionLog -> bool
  {
    (l: TransactionLog) => Test(f, k, l)
  }

  /** `if (filters.x) filtered = filtered.filter(test)`. */
  function Stage(xs: seq<TransactionLog>, active: bool, p: TransactionLog -> bool): seq<TransactionLog>
  {
    if active then Filter(xs, p) else xs
  }

  /** `applyFilters`: the seven stages in the page's order. */
  function ApplyFilters(f: Filters, logs: seq<TransactionLog>): (r: seq<TransactionLog>)
    ensures r == RunStages(f, logs, 7)
    ensures r == Filter(logs, PassesFirstFn(f, 7))
    ensures Subsequence(r, logs)
  {
    RunStagesIsFilter(f, logs, 7);
    var s1 := Stage(logs, Active(f, 0), TestFn(f, 0));
    assert s1 == RunStages(f, logs, 1);
    var s2 := Stage(s1, Active(f, 1), TestFn(f, 1));
    assert s2 == RunStages(f, logs, 2);
    var s3 := Stage(s2, Active(f, 2), TestFn(f, 2));
    assert s3 == RunStages(f, logs, 3);
    var s4 := Stage(s3, Active(f, 3), TestFn(f, 3));
    assert s4 == RunStages(f, logs, 4);
    var s5 := Stage(s4, Active(f, 4), TestFn(f, 4));
    assert s5 == RunStages(f, logs, 5);
    var s6 := Stage(s5, Active(f, 5), TestFn(f, 5));
    assert s6 == RunStages(f, logs, 6);
    Stage(s6, Active(f, 6), TestFn(f, 6))
  }

  /** The `k`-th filter lets `l` through. */
  predicate Holds(f: Filters, k: nat, l: TransactionLog)
  {
    !Active(f, k) || Test(f, k, l)
  }

  /** `l` gets through the first `k` stages. */
  predicate PassesFirst(f: Filters, k: nat, l: TransactionLog)
  {
    forall i: nat :: i < k ==> Holds(f, i, l)
  }

  function PassesFirstFn(f: Filters, k: nat): TransactionLog -> bool
  {
    (l: TransactionLog) => PassesFirst(f, k, l)
  }

  lemma PassesNext(f: Filters, k: nat, l: TransactionLog)
    ensures PassesFirst(f, k + 1, l) <==> PassesFirst(f, k, l) && Holds(f, k, l)
  {
  }

  /** Running one more stage on what the first `k` stages kept keeps what the
      first `k + 1` stages keep. */
  lemma StageStep(f: Filters, logs: seq<TransactionLog>, k: nat)
    ensures Stage(Filter(logs, PassesFirstFn(f, k)), Active(f, k), TestFn(f, k))
      == Filter(logs, PassesFirstFn(f, k + 1))
  {
    forall i | 0 <= i < |logs|
      ensures PassesFirstFn(f, k + 1)(logs[i]) == (PassesFirstFn(f, k)(logs[i]) && (!Active(f, k) || TestFn(f, k)(logs[i])))
    {
      PassesNext(f, k, logs[i]);
    }
    if Active(f, k) {
      FilterCompose(logs, PassesFirstFn(f, k), TestFn(f, k), PassesFirstFn(f, k + 1));
    } else {
      FilterExtensional(logs, PassesFirstFn(f, k), PassesFirstFn(f, k + 1));
    }
  }

  /** The first `k` stages of `applyFilters`. */
  function RunStages(f: Filters, logs: seq<TransactionLog>, k: nat): seq<TransactionLog>
  {
    if k == 0 then logs else Stage(RunStages(f, logs, k - 1), Active(f, k - 1), TestFn(f, k - 1))
  }

  /** Every log gets through no stages at all. */
  lemma PassesNoStages(f: Filters, logs: seq<TransactionLog>)
    ensures Filter(logs, PassesFirstFn(f, 0)) == logs
  {
    forall i | 0 <= i < |logs|
      ensures PassesFirstFn(f, 0)(logs[i])
    {
    }
    FilterAll(logs, PassesFirstFn(f, 0));
  }

  /** The first `k` stages keep what gets through all of them. */
  lemma {:induction false} RunStagesIsFilter(f: Filters, logs: seq<TransactionLog>, k: nat)
    ensures RunStages(f, logs, k) == Filter(logs, PassesFirstFn(f, k))
  {
    if k == 0 {
      PassesNoStages(f, logs);
    } else {
      RunStagesIsFilter(f, logs, k - 1);
      StageStep(f, logs, k - 1);
    }
  }

  /** Getting through all seven stages is satisfying the reference definition. */
  lemma PassesAllIsMatches(f: Filters, l: TransactionLog)
    ensures PassesFirst(f, 7, l) <==> Matches(f, l)
  {
    if Matches(f, l) {
      forall i: nat | i < 7
        ensures Holds(f, i, l)
      {
      }
    }
    if PassesFirst(f, 7, l) {
      assert Holds(f, 0, l) && Holds(f, 1, l) && Holds(f, 2, l) && Holds(f, 3, l);
      assert Holds(f, 4, l) && Holds(f, 5, l) && Holds(f, 6, l);
    }
  }

  /** The staged filtering keeps exactly the logs that satisfy the reference
      definition, in their loaded order. */
  lemma ApplyFiltersIsFilter(f: Filters, logs: seq<TransactionLog>)
    ensures ApplyFilters(f, logs) == Filter(logs, MatchesFn(f))
  {
    RunStagesIsFilter(f, logs, 7);
    forall i | 0 <= i < |logs|
      ensures PassesFirstFn(f, 7)(logs[i]) == MatchesFn(f)(logs[i])
    {
      PassesAllIsMatches(f, logs[i]);
    }
    FilterExtensional(logs, PassesFirstFn(f, 7), MatchesFn(f));
  }

  /** A log is listed exactly when it was loaded and satisfies every set filter. */
  lemma ListedIffMatches(f: Filters, logs: seq<TransactionLog>, l: TransactionLog)
    ensures l in ApplyFilters(f, logs) <==> l in logs && Matches(f, l)
  {
    ApplyFiltersIsFilter(f, logs);
    FilterContains(logs, MatchesFn(f), l);
  }

  /** "Showing n of m": the listed logs are some of the loaded ones, in order. */
  lemma ListedAreSubsequence(f: Filters, logs: seq<TransactionLog>)
    ensures Subsequence(ApplyFilters(f, logs), logs)
    ensures |ApplyFilters(f, logs)| <= |logs|
  {
    ApplyFiltersIsFilter(f, logs);
    SubsequenceLength(ApplyFilters(f, logs), logs);
  }

  /** `resetFilters`: every filter blank, which lists every loaded log. */
  function ResetFilters(): (f: Filters)
    ensures forall logs :: ApplyFilters(f, logs) == logs
  {
    Filters("", "", "", "", None, None, "")
  }

  /** `g` keeps every filter `f` sets, and may set more. */
  predicate Narrows(g: Filters, f: Filters)
  {
    (f.transactionType == "" || g.transactionType == f.transactionType)
    && (f.accountId == "" || g.accountId == f.accountId)
    && (f.action == "" || g.action == f.action)
    && (f.projectId == "" || g.projectId == f.projectId)
    && (f.startDate.None? || g.startDate == f.startDate)
    && (f.endDate.None? || g.endDate == f.endDate)
    && (f.searchTerm == "" || g.searchTerm == f.searchTerm)
  }

  /** Setting more filters never lists more logs: the new list is a subsequence
      of the old one. */
  lemma NarrowingShrinks(f: Filters, g: Filters, logs: seq<TransactionLog>)
    requires Narrows(g, f)
    ensures Subsequence(ApplyFilters(g, logs), ApplyFilters(f, logs))
    ensures |ApplyFilters(g, logs)| <= |ApplyFilters(f, logs)|
  {
    ApplyFiltersIsFilter(f, logs);
    ApplyFiltersIsFilter(g, logs);
    FilterMonotone(logs, MatchesFn(f), MatchesFn(g));
  }

  /** A start date after the end date lists nothing. */
  lemma InvertedRangeListsNothing(f: Filters, logs: seq<TransactionLog>)
    requires f.startDate.Some? && f.endDate.Some? && f.startDate.value > f.endDate.value
    ensures ApplyFilters(f, logs) == []
  {
    ApplyFiltersIsFilter(f, logs);
    if |ApplyFilters(f, logs)| > 0 {
      var l := ApplyFilters(f, logs)[0];
      ListedIffMatches(f, logs, l);
      assert false;
    }
  }

  const CsvHeaders: seq<string> := ["Date", "Type", "Amount", "Account", "Action", "Performed By", "Project", "Description"]

  /** `x || '-'`. */
  function OrDash(s: Option<string>): (r: string)
    ensures r != ""
    ensures s.Some? && s.value != "" ==> r == s.value
    ensures !(s.Some? && s.value != "") ==> r == "-"
  {
    if s.Some? && s.value != "" then s.value else "-"
  }

  /** The eight cells of a log's row. */
  function LogCells(l: TransactionLog, dateText: int -> string, amountText: real -> string): (cells: seq<string>)
    ensures |cells| == |CsvHeaders|
  {
    [dateText(l.createdAt), l.transactionType.Name(), amountText(l.amount), l.accountName,
     l.action, l.performedByEmail, OrDash(l.projectTitle), OrDash(l.description)]
  }

  /** `"${cell}"`: quotes around the text, nothing inside escaped. */
  function Quote(cell: string): (q: string)
    ensures |q| == |cell| + 2 && q[1..|q| - 1] == cell
    ensures q[0] == '"' && q[|q| - 1] == '"'
  {
    "\"" + cell + "\""
  }

  function QuoteAll(cells: seq<string>): seq<string>
  {
    seq(|cells|, i requires 0 <= i < |cells| => Quote(cells[i]))
  }

  /** One data line. */
  function CsvRow(cells: seq<string>): string
  {
    Join(QuoteAll(cells), ",")
  }

  function CsvLines(logs: seq<TransactionLog>, dateText: int -> string, amountText: real -> string): seq<string>
  {
    [Join(CsvHeaders, ",")] + seq(|logs|, i requires 0 <= i < |logs| => CsvRow(LogCells(logs[i], dateText, amountText)))
  }

  /** `exportToCSV`'s file: the header line and one line per log, joined by newlines. */
  function ExportCsv(logs: seq<TransactionLog>, dateText: int -> string, amountText: real -> string): (r: string)
    ensures |logs| == 0 ==> r == Join(CsvHeaders, ",")
    ensures |logs| > 0 ==>
      |r| > |Join(CsvHeaders, ",")| && r[..|Join(CsvHeaders, ",")| + 1] == Join(CsvHeaders, ",") + "\n"
  {
    CsvStartsWithHeader(logs, dateText, amountText);
    Join(CsvLines(logs, dateText, amountText), "\n")
  }

  /** The joined lines are the header alone without logs, and otherwise start with
      the header and a line break. */
  lemma CsvStartsWithHeader(logs: seq<TransactionLog>, dateText: int -> string, amountText: real -> string)
    ensures var r, header := Join(CsvLines(logs, dateText, amountText), "\n"), Join(CsvHeaders, ",");
      (|logs| == 0 ==> r == header)
      && (|logs| > 0 ==> |r| > |header| && r[..|header| + 1] == header + "\n")
  {
    var lines := CsvLines(logs, dateText, amountText);
    var header := Join(CsvHeaders, ",");
    assert lines[0] == header;
    if |logs| == 0 {
      assert lines == [header];
    } else {
      var rest := Join(lines[1..], "\n");
      assert Join(lines, "\n") == header + "\n" + rest;
      assert (header + "\n" + rest)[..|header| + 1] == header + "\n";
    }
  }

  /** No cell of any row holds the character `c`. */
  predicate CellsAvoid(logs: seq<TransactionLog>, dateText: int -> string, amountText: real -> string, c: char)
  {
    forall i, j :: 0 <= i < |logs| && 0 <= j < |CsvHeaders| ==> c !in LogCells(logs[i], dateText, amountText)[j]
  }

  /** A row whose cells hold no comma splits back into its quoted cells. */
  lemma RowSplitsIntoCells(cells: seq<string>)
    requires |cells| >= 1
    requires forall j :: 0 <= j < |cells| ==> ',' !in cells[j]
    ensures Split(CsvRow(cells), ',') == QuoteAll(cells)
  {
    var quoted := QuoteAll(cells);
    forall j | 0 <= j < |quoted|
      ensures ',' !in quoted[j]
    {
      assert quoted[j] == "\"" + cells[j] + "\"";
    }
    SplitJoin(quoted, ',');
  }

  /** Reads a data line back the way a CSV reader does for quoted cells: each cell
      runs from an opening quote to the next quote, and cells are separated by
      commas. `None` for text of any other shape. */
  function ReadCells(s: string): (r: Option<seq<string>>)
    ensures r.Some? ==> |r.value| >= 1
    decreases |s|
  {
    if |s| == 0 || s[0] != '"' then None
    else
      var body := s[1..];
      var k := IndexOf(body, '"');
      if k == |body| then None
      else
        var rest := body[k + 1..];
        if |rest| == 0 then Some([body[..k]])
        else if rest[0] != ',' then None
        else
          match ReadCells(rest[1..])
          case None => None
          case Some(cs) => Some([body[..k]] + cs)
  }

  /** The first quote after a quote-free text is the one right after it. */
  lemma IndexAfterQuoteFree(a: string, b: string)
    requires '"' !in a
    ensures IndexOf(a + "\"" + b, '"') == |a|
  {
    var s := a + "\"" + b;
    assert s[|a|] == '"';
    assert s[..|a|] == a;
  }

  /** A quoted quote-free cell alone reads back as that one cell. */
  lemma ReadLastCell(c: string)
    requires '"' !in c
    ensures ReadCells("\"" + c + "\"") == Some([c])
  {
    var s := "\"" + c + "\"";
    var body := s[1..];
    assert body == c + "\"" + "";
    IndexAfterQuoteFree(c, "");
    assert body[..|c|] == c && body[|c| + 1..] == "";
  }

  /** A quoted quote-free cell followed by a comma reads back as that cell in
      front of whatever the rest reads back as. */
  lemma ReadFirstCell(c: string, tail: string)
    requires '"' !in c
    ensures ReadCells("\"" + c + "\"" + "," + tail) ==
      if ReadCells(tail).Some? then Some([c] + ReadCells(tail).value) else None
  {
    var s := "\"" + c + "\"" + "," + tail;
    var rest := "," + tail;
    var body := c + "\"" + rest;
    assert s[0] == '"' && s[1..] == body;
    IndexAfterQuoteFree(c, rest);
    var k := IndexOf(body, '"');
    assert k == |c| < |body|;
    assert body[..k] == c;
    assert body[k + 1..] == rest;
    assert |rest| > 0 && rest[0] == ',' && rest[1..] == tail;
  }

  /** A row of several cells is the first quoted cell, a comma and the row of the
      rest. */
  lemma CsvRowCons(cells: seq<string>)
    requires |cells| >= 2
    ensures CsvRow(cells) == "\"" + cells[0] + "\"" + "," + CsvRow(cells[1..])
  {
    var quoted := QuoteAll(cells);
    assert quoted[0] == "\"" + cells[0] + "\"";
    assert quoted[1..] == QuoteAll(cells[1..]);
  }

  /** A row whose cells hold no quote reads back as exactly its cells, commas
      inside cells included. */
  lemma {:induction false} RowReadsBack(cells: seq<string>)
    requires |cells| >= 1
    requires forall j :: 0 <= j < |cells| ==> '"' !in cells[j]
    ensures ReadCells(CsvRow(cells)) == Some(cells)
  {
    var c := cells[0];
    if |cells| == 1 {
      assert CsvRow(cells) == "\"" + c + "\"";
      ReadLastCell(c);
      assert [c] == cells;
    } else {
      var rest := cells[1..];
      assert forall j :: 0 <= j < |rest| ==> '"' !in rest[j];
      RowReadsBack(rest);
      CsvRowCons(cells);
      ReadFirstCell(c, CsvRow(rest));
      assert [c] + rest == cells;
    }
  }

  /** A row whose cells avoid a character other than the quote and the comma
      avoids it too. */
  lemma RowAvoids(cells: seq<string>, c: char)
    requires c != '"' && c != ','
    requires forall j :: 0 <= j < |cells| ==> c !in cells[j]
    ensures c !in CsvRow(cells)
  {
    var quoted := QuoteAll(cells);
    forall j | 0 <= j < |quoted|
      ensures c !in quoted[j]
    {
      assert quoted[j] == "\"" + cells[j] + "\"";
    }
    JoinExcludes(quoted, ",", c);
  }

  /** The header line is one line. */
  lemma HeaderAvoidsNewline()
    ensures '\n' !in Join(CsvHeaders, ",")
  {
    JoinExcludes(CsvHeaders, ",", '\n');
  }

  /** No line of the file holds a line break when no cell does. */
  lemma LinesAvoidNewline(logs: seq<TransactionLog>, dateText: int -> string, amountText: real -> string)
    requires CellsAvoid(logs, dateText, amountText, '\n')
    ensures forall k :: 0 <= k < |CsvLines(logs, dateText, amountText)| ==>
      '\n' !in CsvLines(logs, dateText, amountText)[k]
  {
    var lines := CsvLines(logs, dateText, amountText);
    forall k | 0 <= k < |lines|
      ensures '\n' !in lines[k]
    {
      if k == 0 {
        HeaderAvoidsNewline();
      } else {
        var cells := LogCells(logs[k - 1], dateText, amountText);
        assert lines[k] == CsvRow(cells);
        assert forall j :: 0 <= j < |cells| ==> '\n' !in cells[j];
        RowAvoids(cells, '\n');
      }
    }
  }

  /** When no cell holds a newline, the file reads back line by line as the header
      followed by one line per listed log, in order; when no cell holds a quote
      either, every data line reads back as the log's eight cells, even where a
      cell holds commas (as the locale date does); and when no cell holds a comma,
      splitting a data line at its commas gives the eight quoted cells. */
  lemma CsvReadsBack(logs: seq<TransactionLog>, dateText: int -> string, amountText: real -> string)
    requires CellsAvoid(logs, dateText, amountText, '\n')
    ensures Split(ExportCsv(logs, dateText, amountText), '\n') == CsvLines(logs, dateText, amountText)
    ensures |Split(ExportCsv(logs, dateText, amountText), '\n')| == |logs| + 1
    ensures CellsAvoid(logs, dateText, amountText, '"') ==>
      forall i :: 0 <= i < |logs| ==>
        ReadCells(Split(ExportCsv(logs, dateText, amountText), '\n')[i + 1]) == Some(LogCells(logs[i], dateText, amountText))
    ensures CellsAvoid(logs, dateText, amountText, ',') ==>
      forall i :: 0 <= i < |logs| ==>
        Split(Split(ExportCsv(logs, dateText, amountText), '\n')[i + 1], ',') == QuoteAll(LogCells(logs[i], dateText, amountText))
  {
    var lines := CsvLines(logs, dateText, amountText);
    LinesAvoidNewline(logs, dateText, amountText);
    SplitJoin(lines, '\n');
    if CellsAvoid(logs, dateText, amountText, '"') {
      forall i | 0 <= i < |logs|
        ensures ReadCells(lines[i + 1]) == Some(LogCells(logs[i], dateText, amountText))
      {
        RowReadsBack(LogCells(logs[i], dateText, amountText));
      }
    }
    if CellsAvoid(logs, dateText, amountText, ',') {
      forall i | 0 <= i < |logs|
        ensures Split(lines[i + 1], ',') == QuoteAll(LogCells(logs[i], dateText, amountText))
      {
        RowSplitsIntoCells(LogCells(logs[i], dateText, amountText));
      }
    }
  }
}

=== FILE: work_packages.dfy ===
/** The work-package list page: the four summary cards, and the colour and text
    of each package's status badge. */
module WorkPackages {
  import opened Common
  import opened Text
  import opened Records

  /** `totalAmount`, the "Total Value" card. */
  function TotalValue(wps: seq<WorkPackage>): real
  {
    SumOf(wps, WorkPackageAmount)
  }

  const HasAmount: WorkPackage -> bool := (wp: WorkPackage) => wp.amount.Some?
  const LacksAmount: WorkPackage -> bool := (wp: WorkPackage) => wp.amount.None?

  /** A package without an amount adds nothing: the total is the sum over the
      priced packages alone. */
  lemma TotalIgnoresUnpriced(wps: seq<WorkPackage>)
    ensures TotalValue(wps) == SumOf(Filter(wps, HasAmount), WorkPackageAmount)
  {
    SumOfFilterSplit(wps, HasAmount, LacksAmount, WorkPackageAmount);
    var unpriced := Filter(wps, LacksAmount);
    assert forall i :: 0 <= i < |unpriced| ==> WorkPackageAmount(unpriced[i]) == 0.0;
    SumOfZero(unpriced, WorkPackageAmount);
  }

  /** One more package raises the total by its amount, or by nothing when it has none. */
  lemma TotalAddsPackage(wps: seq<WorkPackage>, wp: WorkPackage)
    ensures TotalValue(wps + [wp]) == TotalValue(wps) + OrZero(wp.amount)
  {
    SumOfAppend(wps, [wp], WorkPackageAmount);
    assert SumOf([wp], WorkPackageAmount) == OrZero(wp.amount) + SumOf([wp][1..], WorkPackageAmount);
  }

  const IsCompleted: WorkPackage -> bool := (wp: WorkPackage) => wp.status == "COMPLETED"
  const IsInProgress: WorkPackage -> bool := (wp: WorkPackage) => wp.status == "IN_PROGRESS"

  /** The four cards. */
  datatype Cards = Cards(totalPackages: nat, totalValue: real, completed: nat, inProgress: nat)

  /** The stats row: every package counts, the two status cards count exact
      status matches. */
  function StatCards(wps: seq<WorkPackage>): (c: Cards)
    ensures c.totalPackages == |wps| && c.totalValue == TotalValue(wps)
    ensures c.completed + c.inProgress <= c.totalPackages
  {
    DisjointCounts(wps, IsCompleted, IsInProgress);
    Cards(|wps|, TotalValue(wps), |Filter(wps, IsCompleted)|, |Filter(wps, IsInProgress)|)
  }

  /** A package is counted on the "Completed" card exactly when its status is
      COMPLETED, and on the "In Progress" card exactly when it is IN_PROGRESS. */
  lemma StatusCardsCountMatches(wps: seq<WorkPackage>, wp: WorkPackage)
    ensures wp in Filter(wps, IsCompleted) <==> wp in wps && wp.status == "COMPLETED"
    ensures wp in Filter(wps, IsInProgress) <==> wp in wps && wp.status == "IN_PROGRESS"
    ensures StatCards(wps).completed == |Filter(wps, IsCompleted)|
    ensures StatCards(wps).inProgress == |Filter(wps, IsInProgress)|
  {
    FilterContains(wps, IsCompleted, wp);
    FilterContains(wps, IsInProgress, wp);
  }

  const DefaultColor := "bg-gray-100 text-gray-700"

  /** `getStatusColor`: three named colours, and grey for ON_HOLD and every other
      string. */
  function StatusColor(status: string): (c: string)
    ensures c == DefaultColor <==> status != "COMPLETED" && status != "IN_PROGRESS" && status != "PENDING"
  {
    match status
    case "COMPLETED" => "bg-green-100 text-green-700"
    case "IN_PROGRESS" => "bg-blue-100 text-blue-700"
    case "PENDING" => "bg-yellow-100 text-yellow-700"
    case "ON_HOLD" => "bg-gray-100 text-gray-700"
    case _ => DefaultColor
  }

  /** The three named statuses are told apart; ON_HOLD looks like any unknown status. */
  lemma StatusColorsDistinct(other: string)
    requires other != "COMPLETED" && other != "IN_PROGRESS" && other != "PENDING"
    ensures StatusColor("COMPLETED") != StatusColor("IN_PROGRESS")
    ensures StatusColor("COMPLETED") != StatusColor("PENDING")
    ensures StatusColor("IN_PROGRESS") != StatusColor("PENDING")
    ensures StatusColor("ON_HOLD") == StatusColor(other)
  {
  }

  /** Trading the character at `k` for a space trades one copy of it for a space. */
  lemma ReplaceAtMultiset(s: string, k: nat)
    requires k < |s|
    ensures multiset(s[..k] + " " + s[k + 1..]) == multiset(s) - multiset{s[k]} + multiset{' '}
  {
    assert s == s[..k] + [s[k]] + s[k + 1..];
    assert multiset(s) == multiset(s[..k]) + multiset{s[k]} + multiset(s[k + 1..]);
  }

  /** Replacing the first underscore by a space trades one underscore for one
      space; without an underscore nothing changes. */
  lemma ReplaceFirstMultiset(status: string)
    ensures multiset(ReplaceFirst(status, '_', ' ')) ==
      if '_' in status then multiset(status) - multiset{'_'} + multiset{' '} else multiset(status)
  {
    var k := IndexOf(status, '_');
    if k < |status| {
      ReplaceAtMultiset(status, k);
    }
  }

  /** `status.replace('_', ' ')`: the first underscore becomes a space, every other
      character, later underscores included, stays. */
  function StatusLabel(status: string): (r: string)
    ensures |r| == |status|
    ensures forall i :: 0 <= i < |status| && i != IndexOf(status, '_') ==> r[i] == status[i]
    ensures IndexOf(status, '_') < |status| ==> r[IndexOf(status, '_')] == ' '
    ensures multiset(r) == if '_' in status then multiset(status) - multiset{'_'} + multiset{' '} else multiset(status)
  {
    ReplaceFirstMultiset(status);
    ReplaceFirst(status, '_', ' ')
  }

  /** A status whose first underscore is its third character, as in IN_PROGRESS
      and ON_HOLD, gets a space there and keeps the rest, later underscores
      included: IN_PROGRESS reads "IN PROGRESS", and a status ON_HOLD_LONG would
      read "ON HOLD_LONG". */
  lemma LabelAtThird(a: char, b: char, rest: string)
    requires a != '_' && b != '_'
    ensures StatusLabel([a, b, '_'] + rest) == [a, b, ' '] + rest
  {
    var s := [a, b, '_'] + rest;
    var t := s[1..];
    assert t == [b, '_'] + rest;
    assert t[1..] == ['_'] + rest;
    assert IndexOf(t[1..], '_') == 0;
    assert IndexOf(t, '_') == 1;
    assert IndexOf(s, '_') == 2;
    var r := StatusLabel(s);
    assert forall i | 0 <= i < |s| :: r[i] == ([a, b, ' '] + rest)[i];
  }
}

=== FILE: working_days.dfy ===
/** An employee's working days: the create form keeps them as a list of weekday
    numbers (Sunday = 0) toggled by checkboxes and sorted with JavaScript's default
    `sort()`; the request sends them comma-joined, and the list and detail pages
    decode that string back into weekday abbreviations. */
module WorkingDays {
  import opened Common
  import opened Text

  type Weekday = d: int | 0 <= d <= 6

  /** Monday to Saturday, the form's default. */
  const DefaultWorkingDays: seq<Weekday> := [1, 2, 3, 4, 5, 6]

  /** The `days` table of `getWorkingDaysLabel`. */
  const ShortDayNames: seq<string> := ["Sun", "Mon", "Tue", "Wed", "Thu", "Fri", "Sat"]

  /** `String(d)`: one decimal digit. */
  function DayText(d: Weekday): string
  {
    [('0' as int + d) as char]
  }

  /** String comparison by code units, the order the default `sort()` uses. */
  predicate TextLessEq(a: string, b: string)
  {
    if |a| == 0 then true
    else if |b| == 0 then false
    else if a[0] != b[0] then a[0] < b[0]
    else TextLessEq(a[1..], b[1..])
  }

  /** The default sort compares weekdays by their decimal text; for single digits
      this is numeric order. */
  function ComesBefore(a: Weekday, b: Weekday): (r: bool)
    ensures r <==> a <= b
  {
    var x, y := DayText(a), DayText(b);
    assert x[0] as int == '0' as int + a && y[0] as int == '0' as int + b;
    assert TextLessEq(x, y) == if x[0] != y[0] then x[0] < y[0] else TextLessEq(x[1..], y[1..]);
    assert x[1..] == "" && y[1..] == "";
    TextLessEq(x, y)
  }

  predicate Sorted(xs: seq<Weekday>)
  {
    forall i, j :: 0 <= i < j < |xs| ==> xs[i] <= xs[j]
  }

  /** Sorted without repetitions. */
  predicate StrictlySorted(xs: seq<Weekday>)
  {
    forall i, j :: 0 <= i < j < |xs| ==> xs[i] < xs[j]
  }

  /** Inserts `d` before the first element it does not sort after. */
  function Insert(d: Weekday, xs: seq<Weekday>): (r: seq<Weekday>)
    ensures multiset(r) == multiset(xs) + multiset{d}
  {
    if |xs| == 0 then [d]
    else if ComesBefore(d, xs[0]) then [d] + xs
    else
      assert xs == [xs[0]] + xs[1..];
      [xs[0]] + Insert(d, xs[1..])
  }

  /** Every element of `Insert(d, xs)` is `d` or an element of `xs`. */
  lemma InsertElements(d: Weekday, xs: seq<Weekday>, i: int)
    requires 0 <= i < |Insert(d, xs)|
    ensures Insert(d, xs)[i] == d || Insert(d, xs)[i] in xs
  {
    var r := Insert(d, xs);
    assert r[i] in multiset(r);
  }

  /** Inserting into a sorted list keeps it sorted. */
  lemma {:induction false} InsertSorted(d: Weekday, xs: seq<Weekday>)
    requires Sorted(xs)
    ensures Sorted(Insert(d, xs))
  {
    if |xs| > 0 && !ComesBefore(d, xs[0]) {
      InsertSorted(d, xs[1..]);
      var rest := Insert(d, xs[1..]);
      forall i | 0 <= i < |rest|
        ensures xs[0] <= rest[i]
      {
        InsertElements(d, xs[1..], i);
      }
    }
  }

  /** Inserting a new day into a strictly sorted list keeps it strictly sorted. */
  lemma {:induction false} InsertStrict(d: Weekday, xs: seq<Weekday>)
    requires StrictlySorted(xs) && d !in xs
    ensures StrictlySorted(Insert(d, xs))
  {
    if |xs| > 0 && !ComesBefore(d, xs[0]) {
      InsertStrict(d, xs[1..]);
      var rest := Insert(d, xs[1..]);
      forall i | 0 <= i < |rest|
        ensures xs[0] < rest[i]
      {
        InsertElements(d, xs[1..], i);
      }
    }
  }

  /** `xs.sort()` on weekday numbers: a sorted permutation. */
  function SortDays(xs: seq<Weekday>): (r: seq<Weekday>)
    ensures multiset(r) == multiset(xs)
    ensures Sorted(r)
  {
    if |xs| == 0 then []
    else
      assert xs == [xs[0]] + xs[1..];
      InsertSorted(xs[0], SortDays(xs[1..]));
      Insert(xs[0], SortDays(xs[1..]))
  }

  /** The first element of a non-empty sorted list is its least element. */
  lemma SortedHeadIsLeast(a: seq<Weekday>, x: Weekday)
    requires Sorted(a) && x in a
    ensures a[0] <= x
  {
    var i :| 0 <= i < |a| && a[i] == x;
  }

  lemma SortedTail(a: seq<Weekday>)
    requires Sorted(a) && |a| > 0
    ensures Sorted(a[1..])
  {
  }

  lemma TailMultiset(a: seq<Weekday>)
    requires |a| > 0
    ensures multiset(a[1..]) == multiset(a) - multiset{a[0]}
  {
    assert a == [a[0]] + a[1..];
  }

  /** Two sorted lists with the same elements start alike. */
  lemma SortedSameHead(a: seq<Weekday>, b: seq<Weekday>)
    requires Sorted(a) && Sorted(b)
    requires multiset(a) == multiset(b) && |a| > 0
    ensures |b| > 0 && a[0] == b[0]
  {
    assert a[0] in multiset(b);
    assert |b| > 0;
    assert b[0] in multiset(a);
    SortedHeadIsLeast(a, b[0]);
    SortedHeadIsLeast(b, a[0]);
  }

  /** A sorted list is determined by its multiset of elements. */
  lemma {:induction false} SortedUnique(a: seq<Weekday>, b: seq<Weekday>)
    requires Sorted(a) && Sorted(b)
    requires multiset(a) == multiset(b)
    ensures a == b
  {
    if |a| == 0 {
      assert |multiset(b)| == 0;
    } else {
      SortedSameHead(a, b);
      TailMultiset(a);
      TailMultiset(b);
      SortedTail(a);
      SortedTail(b);
      SortedUnique(a[1..], b[1..]);
      assert a == [a[0]] + a[1..];
      assert b == [b[0]] + b[1..];
    }
  }

  /** In a strictly sorted list every day occurs at most once. */
  lemma {:induction false} StrictMultiplicity(xs: seq<Weekday>, x: Weekday)
    requires StrictlySorted(xs)
    ensures multiset(xs)[x] == if x in xs then 1 else 0
  {
    if |xs| > 0 {
      StrictMultiplicity(xs[1..], x);
      assert xs == [xs[0]] + xs[1..];
      if x == xs[0] {
        assert x !in xs[1..];
      }
    }
  }

  /** Removing every copy of `d` clears its multiplicity and keeps the rest. */
  lemma {:induction false} RemoveMultiset(xs: seq<Weekday>, d: Weekday)
    ensures multiset(Filter(xs, (x: Weekday) => x != d)) == multiset(xs)[d := 0]
  {
    if |xs| > 0 {
      RemoveMultiset(xs[1..], d);
      assert xs == [xs[0]] + xs[1..];
      assert multiset(xs) == multiset{xs[0]} + multiset(xs[1..]);
      var rest := Filter(xs[1..], (x: Weekday) => x != d);
      if xs[0] != d {
        assert Filter(xs, (x: Weekday) => x != d) == [xs[0]] + rest;
        assert multiset([xs[0]] + rest) == multiset{xs[0]} + multiset(rest);
      } else {
        assert Filter(xs, (x: Weekday) => x != d) == rest;
      }
    }
  }

  /** Removing elements keeps a list strictly sorted. */
  lemma {:induction false} RemoveKeepsStrict(xs: seq<Weekday>, d: Weekday)
    requires StrictlySorted(xs)
    ensures StrictlySorted(Filter(xs, (x: Weekday) => x != d))
  {
    if |xs| > 0 {
      RemoveKeepsStrict(xs[1..], d);
      var rest := Filter(xs[1..], (x: Weekday) => x != d);
      if xs[0] != d {
        forall i | 0 <= i < |rest|
          ensures xs[0] < rest[i]
        {
          assert rest[i] in xs[1..];
        }
        ConsKeepsStrict(xs[0], rest);
      }
    }
  }

  /** A day below every day of a strictly sorted list extends it in front. */
  lemma ConsKeepsStrict(x: Weekday, ys: seq<Weekday>)
    requires StrictlySorted(ys)
    requires forall i :: 0 <= i < |ys| ==> x < ys[i]
    ensures StrictlySorted([x] + ys)
  {
    var zs := [x] + ys;
    forall i, j | 0 <= i < j < |zs|
      ensures zs[i] < zs[j]
    {
      assert zs[j] == ys[j - 1];
      if i > 0 {
        assert zs[i] == ys[i - 1];
      }
    }
  }

  /** `handleWorkingDayToggle`: a present day is filtered out; an absent one is
      appended and the list re-sorted. */
  function Toggle(days: seq<Weekday>, d: Weekday): (r: seq<Weekday>)
    ensures multiset(r) == if d in days then multiset(days)[d := 0] else multiset(days) + multiset{d}
  {
    if d in days then
      RemoveMultiset(days, d);
      Filter(days, (x: Weekday) => x != d)
    else
      assert multiset(days + [d]) == multiset(days) + multiset{d};
      SortDays(days + [d])
  }

  /** Toggling flips the membership of `d` and of nothing else. */
  lemma ToggleMembership(days: seq<Weekday>, d: Weekday, x: Weekday)
    ensures x in Toggle(days, d) <==> if x == d then d !in days else x in days
  {
    if d in days {
      FilterContains(days, (y: Weekday) => y != d, x);
    } else {
      assert x in Toggle(days, d) <==> x in multiset(days + [d]);
    }
  }

  /** `ToggleMembership` for every day at once. */
  lemma ToggleFlips(days: seq<Weekday>, d: Weekday)
    ensures forall x: Weekday :: x in Toggle(days, d) <==> if x == d then d !in days else x in days
  {
    forall x: Weekday
      ensures x in Toggle(days, d) <==> if x == d then d !in days else x in days
    {
      ToggleMembership(days, d, x);
    }
  }

  /** On a sorted list free of repetitions, inserting by the full sort is the same
      as inserting in place. */
  lemma SortAppendIsInsert(days: seq<Weekday>, d: Weekday)
    requires Sorted(days)
    ensures SortDays(days + [d]) == Insert(d, days)
  {
    assert multiset(days + [d]) == multiset(days) + multiset{d};
    InsertSorted(d, days);
    SortedUnique(SortDays(days + [d]), Insert(d, days));
  }

  /** Toggling keeps the list sorted and free of repetitions. */
  lemma ToggleKeepsStrictlySorted(days: seq<Weekday>, d: Weekday)
    requires StrictlySorted(days)
    ensures StrictlySorted(Toggle(days, d))
  {
    if d in days {
      RemoveKeepsStrict(days, d);
    } else {
      SortAppendIsInsert(days, d);
      InsertStrict(d, days);
    }
  }

  /** Re-adding a day just removed from a strictly sorted list restores it. */
  lemma RemoveThenAdd(days: seq<Weekday>, d: Weekday)
    requires StrictlySorted(days) && d in days
    ensures SortDays(Filter(days, (x: Weekday) => x != d) + [d]) == days
  {
    var once := Filter(days, (x: Weekday) => x != d);
    StrictMultiplicity(days, d);
    RemoveMultiset(days, d);
    RemoveKeepsStrict(days, d);
    SortAppendIsInsert(once, d);
    InsertSorted(d, once);
    var twice := Insert(d, once);
    assert multiset(twice) == multiset(days)[d := 0] + multiset{d};
    assert multiset(twice) == multiset(days);
    SortedUnique(twice, days);
  }

  /** Removing a day just added to a strictly sorted list restores it. */
  lemma AddThenRemove(days: seq<Weekday>, d: Weekday)
    requires StrictlySorted(days) && d !in days
    ensures Filter(SortDays(days + [d]), (x: Weekday) => x != d) == days
  {
    var once := SortDays(days + [d]);
    assert multiset(days + [d]) == multiset(days) + multiset{d};
    StrictMultiplicity(days, d);
    RemoveMultiset(once, d);
    var twice := Filter(once, (x: Weekday) => x != d);
    assert multiset(twice) == (multiset(days) + multiset{d})[d := 0];
    assert multiset(twice) == multiset(days);
    SortAppendIsInsert(days, d);
    InsertStrict(d, days);
    RemoveKeepsStrict(once, d);
    SortedUnique(twice, days);
  }

  /** Toggling the same day twice gives back a sorted, repetition-free list. */
  lemma ToggleTwice(days: seq<Weekday>, d: Weekday)
    requires StrictlySorted(days)
    ensures Toggle(Toggle(days, d), d) == days
  {
    ToggleMembership(days, d, d);
    if d in days {
      RemoveThenAdd(days, d);
    } else {
      AddThenRemove(days, d);
    }
  }

  /** `String` of each day. */
  function DayTexts(days: seq<Weekday>): seq<string>
  {
    seq(|days|, i requires 0 <= i < |days| => DayText(days[i]))
  }

  /** Each day's abbreviation. */
  function DayNames(days: seq<Weekday>): seq<string>
  {
    seq(|days|, i requires 0 <= i < |days| => ShortDayNames[days[i]])
  }

  /** Each day as the number `Number` yields. */
  function DayNumbers(days: seq<Weekday>): seq<Option<int>>
  {
    seq(|days|, i requires 0 <= i < |days| => Some(days[i] as int))
  }

  /** `workingDays.join(',')`, the request encoding. */
  function EncodeWorkingDays(days: seq<Weekday>): (s: string)
    ensures |days| == 0 ==> s == ""
    ensures |days| > 0 ==> Split(s, ',') == DayTexts(days)
  {
    DayTextsSplitBack(days);
    Join(DayTexts(days), ",")
  }

  /** Day numbers hold no comma, so a non-empty list joined by commas splits back
      into its pieces. */
  lemma DayTextsSplitBack(days: seq<Weekday>)
    ensures |days| > 0 ==> Split(Join(DayTexts(days), ","), ',') == DayTexts(days)
  {
    var texts := DayTexts(days);
    if |days| > 0 {
      assert forall i :: 0 <= i < |texts| ==> ',' !in texts[i];
      SplitJoin(texts, ',');
    }
  }

  /** `workingDays.split(',').map(Number)`. */
  function DecodeWorkingDays(s: string): (r: seq<Option<int>>)
    ensures |r| == |Split(s, ',')| >= 1
    ensures ',' !in s ==> r == [NumberOf(s)]
  {
    var pieces := Split(s, ',');
    SplitWithoutSeparator(s, ',');
    seq(|pieces|, i requires 0 <= i < |pieces| => NumberOf(pieces[i]))
  }

  /** `days[day]`, where an index outside the table or NaN gives `undefined`,
      which `join` prints as the empty string. */
  function DayLabel(n: Option<int>): string
  {
    if n.Some? && 0 <= n.value < 7 then ShortDayNames[n.value] else ""
  }

  /** `getWorkingDaysLabel`, identical on the list and the detail page. */
  function WorkingDaysLabel(s: string): (r: string)
    ensures ',' !in s ==> r == DayLabel(NumberOf(s))
  {
    var numbers := DecodeWorkingDays(s);
    Join(seq(|numbers|, i requires 0 <= i < |numbers| => DayLabel(numbers[i])), ", ")
  }

  /** `Number(String(d)) == d` for a weekday. */
  lemma NumberOfDayText(d: Weekday)
    ensures NumberOf(DayText(d)) == Some(d as int)
  {
    var t := DayText(d);
    assert t[0] as int == '0' as int + d;
    assert AllDigits(t);
    assert t[..|t| - 1] == "";
    assert DecimalValue(t) == 10 * DecimalValue("") + DigitValue(t[0]);
  }

  /** Decoding an encoded non-empty list gives back the days, in order. */
  lemma DecodeEncode(days: seq<Weekday>)
    requires |days| > 0
    ensures DecodeWorkingDays(EncodeWorkingDays(days)) == DayNumbers(days)
  {
    var texts := DayTexts(days);
    assert forall i :: 0 <= i < |texts| ==> ',' !in texts[i];
    SplitJoin(texts, ',');
    var decoded := DecodeWorkingDays(EncodeWorkingDays(days));
    assert |decoded| == |days|;
    forall i | 0 <= i < |days|
      ensures decoded[i] == Some(days[i] as int)
    {
      NumberOfDayText(days[i]);
    }
  }

  /** The label of an encoded list names its days in the list's order. */
  lemma LabelOfEncoded(days: seq<Weekday>)
    requires |days| > 0
    ensures WorkingDaysLabel(EncodeWorkingDays(days)) == Join(DayNames(days), ", ")
  {
    DecodeEncode(days);
    var numbers := DecodeWorkingDays(EncodeWorkingDays(days));
    var labels := seq(|numbers|, i requires 0 <= i < |numbers| => DayLabel(numbers[i]));
    assert labels == DayNames(days);
  }

  /** The empty string decodes as `Number('') = 0`, that is Sunday. */
  lemma EmptyLabelIsSunday()
    ensures WorkingDaysLabel("") == "Sun"
  {
    assert Split("", ',') == [""];
    assert NumberOf("") == Some(0);
  }
}
